=== FILE: README.md ===
# Q-SYS browser control surface: a Dafny model

The application is a browser front panel for a Q-SYS audio/video Core. A
single service holds the connection to the Core. It reconnects with
exponential backoff and publishes the Core's component directory. Each
panel component binds named controls of one Core component. A binding
follows the directory as it changes and exposes typed views of the
control's state. Its mutators write values back to the Core. On top of
these sit:

- the component wrappers: gain, meter, graphic and parametric equalizer,
  snapshot controller, SPL meter, camera and audio player;
- the parametric-EQ response calculator: biquad filters evaluated on a
  logarithmic frequency axis;
- the display widgets: VU meters, the LED meter and the rotary knob;
- the camera controller's press-and-hold preset state machine;
- the start-up code that reads the Core address and polling interval
  from the page URL.

This project models that core as pure Dafny functions over immutable
datatypes. The modules follow the program's structure rather than its
files one for one. `Base`, `Control` and `Strip` gather pieces that the
source spreads over several files. The graphic equalizer is split into
three modules, and `Knob` covers both knob files. The table says which
file each module lives in.

| module | file | models |
|---|---|---|
| `Base` | base.dfy | `Option`, decimal text of integers, two-digit padding, ASCII lower-casing, small real-arithmetic facts |
| `Control` | control.dfy | control addresses, control state, the component directory, the log of writes |
| `Connection` | connection.dfy | the connection service: connect, attempt outcomes, transport drop, disconnect, reconnect, backoff |
| `Binding` | binding.dfy | one control binding: the rebind effect, update handlers, views, `setValue`, `setPosition`, `trigger`, toggles, `destroy` |
| `Strip` | strip.dfy | the bypass/gain/invert/mute bindings several components share, and the gain window |
| `EqResponse` | eq_response.dfy | the parametric-EQ response calculator |
| `GraphicEqTables`, `FrequencyTitle`, `GraphicEq` | graphic_eq_tables.dfy, frequency_title.dfy, graphic_eq.dfy | the graphic equalizer: band tables, band titles and the component |
| `ParametricEq` | parametric_eq.dfy | the parametric equalizer component and its active-band list |
| `Meter`, `Snapshot`, `Gain`, `SplMeter`, `Camera`, `AudioPlayer` | one file each | the other component wrappers |
| `VuMeter`, `DualVuMeter`, `MultiVuMeter`, `LedMeter`, `Knob` | one file each | the display widgets |
| `CameraController` | camera_controller.dfy | preset press-and-hold, the preview image |
| `App` | app.dfy | query-parameter parsing and start-up |

## How the model is built

- **Time.** Timers and animation frames are events. A scheduled reconnect
  is an entry in a log of delays. A pending preset hold is a timer id that
  `Expire` fires. An animation frame is a call with the elapsed time `dt`.
- **Listeners.** A binding records the handlers it installs and releases
  as an event log. `Binding.Active` replays that log to get the set of
  handlers still registered. A control's identity is a number.
- **Writes.** A mutator returns a `Mutation`. That is the list of writes
  sent to the Core, plus the diagnostic logged when it writes nothing.
- **Numbers.** JavaScript numbers are reals. A division by zero, and the
  NaN or infinity it produces, becomes `NonFinite` or `None`.
- **Transcendental functions.** `sin`, `cos`, `sqrt`, `10**x`, `2**x`,
  `log2`, `log10` and `atan2` are passed in as a `Math` record. The
  properties that need them state the facts they rely on as the ghost
  predicates `EqResponse.Sound` and `EqResponse.AxisSound`. The same
  applies to the ballistics factor `1 - exp(-dt/tau)`, the logarithmic
  position map `min · (max / min)^p` of `setPosition` (the `logScale`
  parameter of `Binding.SetPosition`), `Number.prototype.toString` of
  non-integers,
  `toFixed(2)` and `JSON.parse`: each is a function parameter.
- **Exceptions.** A thrown error is an outcome constructor. Examples are
  `Threw`, `OutOfRange` and `Rejected`, or `None` where the source reads
  `undefined`.
- **The two knobs.** `src/app/graphic-eq/knob/knob.ts` and
  `src/app/parametric-eq/knob/parametric-knob.ts` have the same logic.
  They differ only in the parametric knob's `size` input, which affects
  layout alone. Both are modelled by the `Knob` module.

## Behaviour the model follows as written

Several places in the code behave in ways their names or comments do not
suggest. The model follows the code in each case.

- **`disconnect()` does not cancel an attempt.** It only forgets
  `connectPromise`. An attempt still in flight that later succeeds
  installs its connection and directory, and sets `initialized` again
  (`Connection.DisconnectDoesNotCancelAttempt`).
- **A transport drop keeps the directory.** The `disconnected` handler
  clears the connection and `initialized` and schedules a reconnect. It
  leaves the component directory alone. So bindings stay bound, and their
  views keep showing the last state received
  (`Connection.TransportDropped`).
- **The rebind effect always re-registers.** It releases the old handler
  and installs a new one on every run, even when the control found is the
  same one (`Binding.RebindReleasesBeforeInstall`).
- **`tryReconnect` tests the address for truthiness.** It gives up on an
  empty stored address as well as a missing one (`Connection.TryReconnect`).
- **`destroy()` does not clear the cleanup.** It runs the stored cleanup
  but never clears `cleanupFn`. A second call releases the same handler
  again, which removes nothing more (`Binding.DestroyTwice`).
- **An unbound filter type throws.** A parametric band whose `type`
  binding is unbound reads 0. No calculator is registered for 0, so
  `sumEQBands` calls `undefined` and throws
  (`ParametricEq.UnboundTypeHasNoCalculator`, `EqResponse.BandResponse`).
- **The multi-channel VU calibration is not monotone.** −5 dB maps to 17°
  but −3 dB maps to −4° (`MultiVuMeter.NotMonotone`).
- **The graphic equalizer is fixed at 31 bands.** The component defines
  tables for 6, 11, 16, 31 and 61 bands but always builds the 31-band
  one.
- **Two controller toggles act only on press.** The camera controller's
  auto-framing and privacy toggles do nothing when called with `false`
  (`CameraController.ToggleAutoFraming`,
  `CameraController.TogglePrivacyMode`).
- **A socket that throws at once blocks later connects.** When
  `new WebSocket(...)` throws, the attempt's `finally` runs before
  `connect` stores the attempt's promise. The rejected promise then stays
  in `connectPromise`, and every later `connect` and reconnect gets it
  back until `disconnect()` (`Connection.SocketThrew`,
  `Connection.HeldRejectionBlocksConnect`).

## Model

| member | source | states |
|---|---|---|
| Connection.Init | src/app/qrwc/qrwc-angular-service.ts:14-30 | a new service holds no connection, is not initialized and publishes an empty directory |
| Connection.BackoffDelay | src/app/qrwc/qrwc-angular-service.ts:103-105 | every reconnect delay lies between the 5000 ms base and the 30000 ms cap |
| Connection.BackoffValues | src/app/qrwc/qrwc-angular-service.ts:103-108 | the delays are 5000, 10000 and 20000 ms for attempts 0, 1 and 2, and 30000 ms from attempt 3 on |
| Connection.BackoffMonotone | src/app/qrwc/qrwc-angular-service.ts:103-108 | a later attempt never waits less than an earlier one |
| Connection.Connect | src/app/qrwc/qrwc-angular-service.ts:38-46 | an existing connection is returned as is; a pending attempt is joined; otherwise exactly one new attempt starts and the address and polling interval are stored; validity is preserved |
| Connection.ConcurrentConnectsCollapse | src/app/qrwc/qrwc-angular-service.ts:38-46 | two connects before the first settles start one attempt, and the second joins it |
| Connection.AttemptSucceeded | src/app/qrwc/qrwc-angular-service.ts:68-88 | a successful attempt installs its connection and directory, sets initialized, resets the attempt count and clears the in-flight marker, leaving the stored address and schedule untouched |
| Connection.AttemptFailed | src/app/qrwc/qrwc-angular-service.ts:86-88 | an attempt that rejects after connect returned runs its finally, which clears the held promise, whichever it is, and changes nothing else |
| Connection.SocketThrew | src/app/qrwc/qrwc-angular-service.ts:46-91 | when the socket constructor throws inside a just-started attempt, the finally has already run, so the rejected promise stays held in connectPromise; nothing else changes |
| Connection.ScheduleReconnect | src/app/qrwc/qrwc-angular-service.ts:103-108 | one reconnect is scheduled with the current backoff delay and the attempt count grows by one; nothing else changes |
| Connection.TransportDropped | src/app/qrwc/qrwc-angular-service.ts:60-66 | a drop clears the connection and initialized, keeps the directory and the in-flight attempt, and schedules a reconnect at the current delay |
| Connection.ReconnectAttemptFailed | src/app/qrwc/qrwc-angular-service.ts:110-121 | a failed reconnect schedules the next one at the current delay and counts it; a pending attempt's rejection has cleared the in-flight marker, while a rejection already held stays held; the connection state and stored parameters are left alone |
| Connection.Disconnect | src/app/qrwc/qrwc-angular-service.ts:95-101 | disconnect drops the connection, initialized, the directory and the in-flight marker, and keeps the stored address, attempt count and schedule |
| Connection.DisconnectIdempotent | src/app/qrwc/qrwc-angular-service.ts:95-101 | disconnecting twice is the same as disconnecting once |
| Connection.DisconnectDoesNotCancelAttempt | src/app/qrwc/qrwc-angular-service.ts:86-100 | an attempt started before a disconnect still installs its connection when it succeeds afterwards |
| Connection.TryReconnect | src/app/qrwc/qrwc-angular-service.ts:110-117 | with no stored address or an empty one the reconnect aborts and changes nothing; otherwise it connects again with the stored address and polling interval |
| Connection.ReconnectAfterDrop | src/app/qrwc/qrwc-angular-service.ts:60-66 | after a connect and a drop, the reconnect reuses the address and polling interval of the original connect |
| Connection.FailRepeatedlyDelays | src/app/qrwc/qrwc-angular-service.ts:118-121 | n failed reconnects in a row schedule the backoff delays of the next n attempt counts, in order |
| Connection.BackoffSequence | src/app/qrwc/qrwc-angular-service.ts:103-108 | from a fresh count the scheduled delays read 5000, 10000, 20000 and then 30000 forever, never decreasing |
| Connection.HeldRejectionBlocksConnect | src/app/qrwc/qrwc-angular-service.ts:38-46 | while a rejected promise is held, every connect joins it and every reconnect either aborts or joins it, however many reconnects fail in between |
| Connection.SocketThrowBlocksUntilDisconnect | src/app/qrwc/qrwc-angular-service.ts:38-101 | after a connect whose socket constructor throws, the next connect joins the rejected attempt, and only after disconnect does a connect start a fresh one |
| Connection.Delays | src/app/qrwc/qrwc-angular-service.ts:103-108 | n attempts from count a give n delays, each between 5000 and 30000 ms, never decreasing along the list |
| Control.Lookup | src/app/qrwc/qrwc-angular-service.ts:200-202 | a control is found exactly when its component is in the directory and has a control of that name, and it is that control |
| Binding.New | src/app/qrwc/qrwc-angular-service.ts:176-185 | a new binding keeps its address, default and mapping, is unbound and has no handler registered |
| Binding.Rebind | src/app/qrwc/qrwc-angular-service.ts:199-229 | after a directory change the binding is bound exactly when the directory holds its control; it then takes that control's state and has one handler registered on it, else it has no state and no handler |
| Binding.RebindReleasesBeforeInstall | src/app/qrwc/qrwc-angular-service.ts:204-223 | one rebind first releases the previous handler and then installs at most one new handler |
| Binding.OnUpdate | src/app/qrwc/qrwc-angular-service.ts:219-221 | an update takes effect only through a handler registered for the control it comes from; any other update leaves the binding unchanged |
| Binding.Destroy | src/app/qrwc/qrwc-angular-service.ts:333-337 | after destroy no handler is registered, while the state and the stored cleanup stay as they were |
| Binding.DestroyTwice | src/app/qrwc/qrwc-angular-service.ts:333-337 | a second destroy leaves no handler registered, like the first, and does not change whether the binding is bound |
| Binding.PrimaryView | src/app/qrwc/qrwc-angular-service.ts:232-246 | the primary view has the type of the default; it is the default while unbound, else the boolean, string, list or numeric view the default selects |
| Binding.UnboundFallbacks | src/app/qrwc/qrwc-angular-service.ts:187-196 | an unbound binding shows the fixed fallbacks: value and position 0, empty texts, false, range 0..1 and no choices |
| Binding.SetValue | src/app/qrwc/qrwc-angular-service.ts:278-286 | a bound binding sends exactly one write of the value to its own control; an unbound one sends nothing and logs that it is not connected |
| Binding.LinearValueBounds | src/app/qrwc/qrwc-angular-service.ts:311-313 | the linear position map sends 0 to the minimum and 1 to the maximum, and keeps positions in 0..1 within the range |
| Binding.LinearValueInverse | src/app/qrwc/qrwc-angular-service.ts:311-313 | the position can be read back from the written value whenever the range is not empty |
| Binding.LinearValue | src/app/qrwc/qrwc-angular-service.ts:311-313 | position 0 gives the minimum, position 1 the maximum, and positions in 0..1 stay within the range in either direction |
| Binding.SetPosition | src/app/qrwc/qrwc-angular-service.ts:289-316 | an unbound binding writes nothing and logs not-connected; a position outside 0..1 writes nothing and logs out-of-range; a bound control without a min or max writes nothing and logs the missing range; otherwise exactly one write goes to the control, `logScale(min, max, p)` for a logarithmic binding and min + p·(max − min) otherwise |
| Binding.SetPositionReadsBack | src/app/qrwc/qrwc-angular-service.ts:305-313 | on a linear control with a non-empty range the one value written maps back to the position given |
| Binding.SetPositionHalfway | src/app/qrwc/qrwc-angular-service.ts:311-313 | a linear control with range −100..20 receives −40 at position 0.5 |
| Binding.Trigger | src/app/qrwc/qrwc-angular-service.ts:319-330 | a bound trigger writes true and then false to its control; an unbound one writes nothing |
| Binding.Toggle | src/app/qrwc/components/qrwc-camera-component.ts:140-151 | a bound toggle writes the negation of the current boolean view to its control; an unbound one writes nothing |
| Binding.ToggleTwiceRestores | src/app/qrwc/components/qrwc-graphic-equalizer-component.ts:211-243 | when the Core echoes a toggle's write back, a second toggle writes the original boolean again |
| Strip.Create | src/app/qrwc/components/qrwc-parametric-equalizer-component.ts:81-84 | the shared bypass, gain, invert and mute bindings are named after their controls, with defaults false, 0, false and false |
| Strip.SetGain | src/app/qrwc/components/qrwc-gain-component.ts:98-101 | a gain outside the open window (−101, 21) dB is silently dropped; inside it a bound gain receives exactly that value |
| Strip.GainWindowEdges | src/app/qrwc/components/qrwc-gain-component.ts:98-101 | −101 and 21 dB are rejected, while −100 and 20 dB are written |
| Strip.SetSwitch | src/app/qrwc/components/qrwc-gain-component.ts:107-139 | each switch setter writes the given state to its own control only |
| Strip.ToggleSwitch | src/app/qrwc/components/qrwc-parametric-equalizer-component.ts:220-252 | each switch toggle writes the negation of that switch's boolean view, and is the setter applied to that negation |
| EqResponse.FilterTypeOf | src/app/qrwc/components/helpers/parametric-eq-response-calculator.ts:6-11 | only the codes 1, 2 and 3 name a filter type (peaking, low shelf, high shelf) |
| EqResponse.FilterTypeRoundTrip | src/app/qrwc/components/helpers/parametric-eq-response-calculator.ts:43-50 | every filter type's code is read back as that type |
| EqResponse.Divide | src/app/qrwc/components/helpers/parametric-eq-response-calculator.ts:80-95 | complex division is defined exactly when the denominator is non-zero |
| EqResponse.Quotient | src/app/qrwc/components/helpers/parametric-eq-response-calculator.ts:86-94 | a defined quotient times the denominator gives back the numerator |
| EqResponse.DivideExact | src/app/qrwc/components/helpers/parametric-eq-response-calculator.ts:86-94 | dividing a product by a non-zero factor gives the other factor |
| EqResponse.DivideSelf | src/app/qrwc/components/helpers/parametric-eq-response-calculator.ts:80-95 | a non-zero complex number divided by itself is 1 |
| EqResponse.NumeratorDenominatorArePolynomials | src/app/qrwc/components/helpers/parametric-eq-response-calculator.ts:120-125 | the numerator and the denominator are b0 + b1·z + b2·z² and a0 + a1·z + a2·z² with z = e^(iω) = cos ω + i·sin ω, the point the code evaluates at |
| EqResponse.ExpandedIsQuadratic | src/app/qrwc/components/helpers/parametric-eq-response-calculator.ts:120-125 | the real and imaginary parts written out in the code equal the complex quadratic |
| EqResponse.PeakingCoefficients | src/app/qrwc/components/helpers/parametric-eq-response-calculator.ts:102-112 | the coefficients exist exactly when Q is non-zero and A = 10^(G/40) is non-zero; then b1 = a1, b0 + b2 = a0 + a2 = 2, and b0 − 1 and b2 − 1 are A² times a0 − 1 and a2 − 1: the cookbook relations behind a centre gain of A² and a DC gain of 1 |
| EqResponse.PeakingBoostCutSwap | src/app/qrwc/components/helpers/parametric-eq-response-calculator.ts:104-112 | a cut of G dB has the boost's coefficients with numerator and denominator swapped, so it is the inverse filter |
| EqResponse.ShelfRadicandPositive | src/app/qrwc/components/helpers/parametric-eq-response-calculator.ts:143-144 | the shelf alpha's radicand (A + 1/A − 1)/0.4 is positive for every gain |
| EqResponse.LowShelfCoefficients | src/app/qrwc/components/helpers/parametric-eq-response-calculator.ts:141-154 | the coefficients exist exactly when A = 10^(G/40) is non-zero; then the numerator is A² times the denominator at DC (z = 1) and equal to it at Nyquist (z = −1), so the shelf lifts low frequencies by A² and leaves high ones alone |
| EqResponse.HighShelfCoefficients | src/app/qrwc/components/helpers/parametric-eq-response-calculator.ts:183-196 | the coefficients exist exactly when A = 10^(G/40) is non-zero; then the numerator equals the denominator at DC and is A² times it at Nyquist, the mirror image of the low shelf |
| EqResponse.ZeroGainTransparent | src/app/qrwc/components/helpers/parametric-eq-response-calculator.ts:104-112 | at 0 dB a peaking band's numerator and denominator coefficients are equal |
| EqResponse.ShelvesAtUnity | src/app/qrwc/components/helpers/parametric-eq-response-calculator.ts:148-154 | at 0 dB both shelves have equal numerator and denominator coefficients |
| EqResponse.BandResponse | src/app/qrwc/components/helpers/parametric-eq-response-calculator.ts:256-263 | a band throws exactly when its type code names no calculator, is non-finite exactly when the type is known but its coefficients or denominator vanish, and is otherwise the quotient: the response times the denominator gives the numerator, both evaluated at z = e^(iω) = cos ω + i·sin ω |
| EqResponse.ZeroGainBandIsOne | src/app/qrwc/components/helpers/parametric-eq-response-calculator.ts:104-133 | a 0 dB band of a known type responds with exactly 1 wherever its coefficients and denominator are defined, and is non-finite elsewhere |
| EqResponse.TransparentIsOne | src/app/qrwc/components/helpers/parametric-eq-response-calculator.ts:86-94 | a filter with equal numerator and denominator coefficients responds with 1 wherever the denominator is non-zero |
| EqResponse.Product | src/app/qrwc/components/helpers/parametric-eq-response-calculator.ts:256-271 | the cascade of band outcomes throws if any band throws, is finite exactly when every band is, and is 1 for no bands |
| EqResponse.MulOne | src/app/qrwc/components/helpers/parametric-eq-response-calculator.ts:266-270 | 1 is the unit of complex multiplication on both sides |
| EqResponse.MulAssociative | src/app/qrwc/components/helpers/parametric-eq-response-calculator.ts:266-270 | complex multiplication is associative |
| EqResponse.CombineAssociative | src/app/qrwc/components/helpers/parametric-eq-response-calculator.ts:266-270 | combining band outcomes is associative |
| EqResponse.ProductSingle | src/app/qrwc/components/helpers/parametric-eq-response-calculator.ts:266-270 | one band's product is that band combined with 1, and a finite band's is the band itself |
| EqResponse.ProductAppend | src/app/qrwc/components/helpers/parametric-eq-response-calculator.ts:266-270 | one more band multiplies the product by that band's outcome |
| EqResponse.ProductConcat | src/app/qrwc/components/helpers/parametric-eq-response-calculator.ts:266-270 | the product over two lists of bands is the product of their products |
| EqResponse.Responses | src/app/qrwc/components/helpers/parametric-eq-response-calculator.ts:260-263 | there is one band outcome per band, each that band's response at the frequency |
| EqResponse.Cascade | src/app/qrwc/components/helpers/parametric-eq-response-calculator.ts:255-271 | the combined response throws exactly when some band's type is unknown, is finite exactly when every band's response is defined, and is 1 for no bands |
| EqResponse.CascadeAppend | src/app/qrwc/components/helpers/parametric-eq-response-calculator.ts:255-271 | appending a band multiplies the combined response by that band's response |
| EqResponse.CascadeSplit | src/app/qrwc/components/helpers/parametric-eq-response-calculator.ts:255-271 | the response of two groups of bands in series is the product of the groups' responses |
| EqResponse.ResponsesConcat | src/app/qrwc/components/helpers/parametric-eq-response-calculator.ts:260-263 | the band outcomes of two lists are the outcomes of each, in order |
| EqResponse.ProductOfOnes | src/app/qrwc/components/helpers/parametric-eq-response-calculator.ts:266-270 | a cascade of unit responses is 1 |
| EqResponse.ZeroGainCascadeIsOne | src/app/qrwc/components/helpers/parametric-eq-response-calculator.ts:255-271 | bands that are all 0 dB combine to 1 or to non-finite, and to exactly 1 where every band's response is defined |
| EqResponse.PointOf | src/app/qrwc/components/helpers/parametric-eq-response-calculator.ts:274-278 | each point carries its frequency; a finite cascade gives the magnitude 20·log10 of its modulus (none at modulus 0) and its phase in degrees; a non-finite one gives neither |
| EqResponse.Magnitude | src/app/qrwc/components/helpers/parametric-eq-response-calculator.ts:274-275 | the magnitude exists exactly when the modulus is non-zero |
| EqResponse.NormSqMultiplicative | src/app/qrwc/components/helpers/parametric-eq-response-calculator.ts:274-275 | the squared modulus of a product is the product of the squared moduli |
| EqResponse.DecibelsAdd | src/app/qrwc/components/helpers/parametric-eq-response-calculator.ts:274-275 | given that the square root and log10 are multiplicative and additive at those values, the dB magnitude of a product of responses is the sum of their dB magnitudes |
| EqResponse.UnitIsZeroDecibels | src/app/qrwc/components/helpers/parametric-eq-response-calculator.ts:274-278 | a response of 1 is 0 dB at phase 0° |
| EqResponse.FilterResponse | src/app/qrwc/components/helpers/parametric-eq-response-calculator.ts:281-295 | the curve has one point per axis frequency, each evaluated at that frequency |
| EqResponse.FlatBandsFlatCurve | src/app/qrwc/components/helpers/parametric-eq-response-calculator.ts:281-295 | when every band is 0 dB the curve exists, every point is 0 dB or undefined, and every point where all bands are defined is exactly 0 dB at phase 0° |
| EqResponse.FrequencyPoints | src/app/qrwc/components/helpers/parametric-eq-response-calculator.ts:237-252 | the result satisfies IsAxis: its first n points are start·2^(i/resolution), n being the point count, and its last point is the end frequency, appended only when the grid's last point differs from it. That the axis starts at the start frequency, rises strictly and stays within the end frequency is proved under AxisSound by FirstPointIsStart, AxisIncreasing (through GridOrdered) and AxisPointWithinEnd |
| EqResponse.AxisIncreasing | src/app/qrwc/components/helpers/parametric-eq-response-calculator.ts:242-252 | the axis is strictly increasing |
| EqResponse.CloseAxis | src/app/qrwc/components/helpers/parametric-eq-response-calculator.ts:249-251 | the end frequency is appended exactly when the grid stops below it, so the axis always ends there |
| EqResponse.ComputedPoints | src/app/qrwc/components/helpers/parametric-eq-response-calculator.ts:243-247 | the loop yields the grid points 2^(log2 start + i / pointsPerOctave) for every index up to the band count |
| EqResponse.GridOrdered | src/app/qrwc/components/helpers/parametric-eq-response-calculator.ts:244-247 | the grid points rise strictly |
| EqResponse.FirstPointIsStart | src/app/qrwc/components/helpers/parametric-eq-response-calculator.ts:243-246 | the first grid point is the start frequency |
| EqResponse.PointCount | src/app/qrwc/components/helpers/parametric-eq-response-calculator.ts:243-244 | the grid has one point more than the number of bands |
| EqResponse.AxisPointWithinEnd | src/app/qrwc/components/helpers/parametric-eq-response-calculator.ts:243-245 | no grid point exceeds the end frequency |
| EqResponse.AxisPointsIncrease | src/app/qrwc/components/helpers/parametric-eq-response-calculator.ts:245 | a later grid index gives a higher frequency |
| GraphicEqTables.Bandwidth | src/app/qrwc/components/qrwc-graphic-equalizer-component.ts:90-127 | each configuration's bandwidth is 12 divided by its band count |
| GraphicEqTables.TablesWellFormed | src/app/qrwc/components/qrwc-graphic-equalizer-component.ts:90-129 | every frequency table has as many entries as its band count and rises strictly |
| GraphicEqTables.TableShape | src/app/qrwc/components/qrwc-graphic-equalizer-component.ts:90-129 | each table has as many entries as its band count, starting at 16 Hz and ending at 16 kHz |
| GraphicEqTables.ThirtyOneShape | src/app/qrwc/components/qrwc-graphic-equalizer-component.ts:108-117 | the 31-band table has 31 entries from 16 Hz to 16 kHz |
| GraphicEqTables.SixtyOneShape | src/app/qrwc/components/qrwc-graphic-equalizer-component.ts:118-128 | the 61-band table has 61 entries from 16 Hz to 16 kHz |
| GraphicEqTables.EachChunkWellFormed | src/app/qrwc/components/qrwc-graphic-equalizer-component.ts:92-125 | every chunk of a table rises strictly, is non-empty and ends below the next chunk's first frequency |
| GraphicEqTables.ChunksFromWellFormed | src/app/qrwc/components/qrwc-graphic-equalizer-component.ts:92-125 | joining rising chunks, each starting above the end of the last, gives a rising table |
| FrequencyTitle.KiloSuffix | src/app/qrwc/components/qrwc-graphic-equalizer-component.ts:48-55 | a title ends in "k" exactly when the frequency is at least 1 kHz |
| FrequencyTitle.FormatFrequency | src/app/qrwc/components/qrwc-graphic-equalizer-component.ts:48-55 | a title is never empty and ends in "k" exactly when the frequency is at least 1 kHz |
| FrequencyTitle.ParseFrequency | src/app/qrwc/components/qrwc-graphic-equalizer-component.ts:48-55 | only a non-empty title is read, and a "k" title reads as a whole multiple of 10 Hz, the two decimals of kilohertz it shows |
| FrequencyTitle.FormatRoundTrip | src/app/qrwc/components/qrwc-graphic-equalizer-component.ts:48-55 | every table frequency is read back from its title |
| FrequencyTitle.KiloRoundTrip | src/app/qrwc/components/qrwc-graphic-equalizer-component.ts:49-51 | a kilohertz title is read back as its frequency |
| FrequencyTitle.HertzRoundTrip | src/app/qrwc/components/qrwc-graphic-equalizer-component.ts:53 | a hertz title is read back as its frequency |
| FrequencyTitle.ParseKilo | src/app/qrwc/components/qrwc-graphic-equalizer-component.ts:50-51 | a title with the "k" suffix is read as thousands of hertz |
| FrequencyTitle.TenthsRoundTrip | src/app/qrwc/components/qrwc-graphic-equalizer-component.ts:53 | one-decimal text is read back as the value it was made from |
| FrequencyTitle.HundredthsRoundTrip | src/app/qrwc/components/qrwc-graphic-equalizer-component.ts:50-51 | two-decimal text is read back as the value it was made from |
| FrequencyTitle.TenthsEndsInDigit | src/app/qrwc/components/qrwc-graphic-equalizer-component.ts:53 | a hertz title ends in a digit, never in "k" |
| FrequencyTitle.FormatInjective | src/app/qrwc/components/qrwc-graphic-equalizer-component.ts:48-55 | different frequencies get different titles |
| GraphicEq.NewBand | src/app/qrwc/components/qrwc-graphic-equalizer-component.ts:144-165 | a band's title is its formatted frequency, and its bypass and gain bindings are named title + "Hz.bypass" and title + "Hz.gain" |
| GraphicEq.Create | src/app/qrwc/components/qrwc-graphic-equalizer-component.ts:133-168 | the component has the master-gain strip, one band per entry of the 31-band table in order, and that table's bandwidth |
| GraphicEq.BandNamesDistinct | src/app/qrwc/components/qrwc-graphic-equalizer-component.ts:146-155 | no two bands share a bypass or gain control, and no bypass control is a gain control |
| GraphicEq.BandGainIsNotMaster | src/app/qrwc/components/qrwc-graphic-equalizer-component.ts:136-153 | no band's gain control is the master gain |
| GraphicEq.SetBandGain | src/app/qrwc/components/qrwc-graphic-equalizer-component.ts:175-177 | a band index outside the list throws; otherwise that band's bound gain receives the value |
| GraphicEq.ToggleBandBypass | src/app/qrwc/components/qrwc-graphic-equalizer-component.ts:179-182 | a band index outside the list throws; otherwise that band's bound bypass receives its negated view |
| GraphicEq.ZeroWrites | src/app/qrwc/components/qrwc-graphic-equalizer-component.ts:184-188 | flattening sends only zeros, at most one per band |
| GraphicEq.Flat | src/app/qrwc/components/qrwc-graphic-equalizer-component.ts:184-188 | the loop over all bands sends the flattening writes, all zeros |
| GraphicEq.ZeroWritesTargets | src/app/qrwc/components/qrwc-graphic-equalizer-component.ts:184-188 | every zero goes to a band's gain, and every bound band gain gets one |
| GraphicEq.FlatTouchesOnlyBandGains | src/app/qrwc/components/qrwc-graphic-equalizer-component.ts:184-188 | flattening never writes a bypass control or the master gain |
| GraphicEq.SetGain | src/app/qrwc/components/qrwc-graphic-equalizer-component.ts:195-198 | the master gain follows the strip's window |
| GraphicEq.ToggleSwitch | src/app/qrwc/components/qrwc-graphic-equalizer-component.ts:211-243 | a component toggle writes the negation of its switch's view |
| ParametricEq.Create | src/app/qrwc/components/qrwc-parametric-equalizer-component.ts:79-161 | the component has the master-gain strip and seven bands, each binding named after its control and band number |
| ParametricEq.CreatedBandDefaults | src/app/qrwc/components/qrwc-parametric-equalizer-component.ts:110-141 | every new band binding is unbound, with its control's default and logarithmic mapping for frequency and bandwidth only |
| ParametricEq.ControlNamesDistinct | src/app/qrwc/components/qrwc-parametric-equalizer-component.ts:110-141 | different (control, band) pairs name different controls |
| ParametricEq.ActiveIndexes | src/app/qrwc/components/qrwc-parametric-equalizer-component.ts:104 | the active indexes are exactly the bands whose bypass view is false, in band order |
| ParametricEq.RefreshActive | src/app/qrwc/components/qrwc-parametric-equalizer-component.ts:92-105 | before the component exists the previous list is kept; after that the list holds exactly the indexes of the non-bypassed bands, strictly increasing, so it refers to the live bands and not to copies |
| ParametricEq.ActiveBands | src/app/qrwc/components/qrwc-parametric-equalizer-component.ts:104 | reading an index list yields one band per index, each the band at that index now |
| ParametricEq.ActiveListIsLive | src/app/qrwc/components/qrwc-parametric-equalizer-component.ts:104 | after a refresh, a change to a band that keeps every bypass view shows in the list without another refresh, and the list still holds exactly the non-bypassed bands |
| ParametricEq.NoBypassAllActive | src/app/qrwc/components/qrwc-parametric-equalizer-component.ts:104 | with no band bypassed, every band is active, in order |
| ParametricEq.ToggleBandBypass | src/app/qrwc/components/qrwc-parametric-equalizer-component.ts:164-167 | a band index outside the array throws; otherwise that band's bound bypass receives its negated view |
| ParametricEq.ApplyBandSetter | src/app/qrwc/components/qrwc-parametric-equalizer-component.ts:169-199 | a band setter throws outside the array and otherwise writes the value to that band's binding for its control; a position setter writes exactly the mapped position when the binding is bound, has a range and the position lies in 0..1, and otherwise writes nothing and logs why |
| ParametricEq.PositionSetterIsValueSetter | src/app/qrwc/components/qrwc-parametric-equalizer-component.ts:181-199 | setting a band's frequency, bandwidth or Q position writes what setting that control's value to the mapped position writes |
| ParametricEq.SetterTouchesOnlyItsBinding | src/app/qrwc/components/qrwc-parametric-equalizer-component.ts:169-199 | on a constructed component a band setter writes no other band's control and no other control of the band |
| ParametricEq.SetGain | src/app/qrwc/components/qrwc-parametric-equalizer-component.ts:205-207 | the master gain follows the strip's window |
| ParametricEq.ToggleSwitch | src/app/qrwc/components/qrwc-parametric-equalizer-component.ts:220-252 | a component toggle writes the negation of its switch's view |
| ParametricEq.ResponseBand | src/app/qrwc/components/qrwc-parametric-equalizer-component.ts:151-159 | the calculator receives each band's frequency, gain, Q and type code as their value views |
| ParametricEq.UnboundTypeHasNoCalculator | src/app/qrwc/components/qrwc-parametric-equalizer-component.ts:137-141 | an unbound type binding gives code 0, for which the response throws |
| Meter.RoleOfName | src/app/qrwc/components/qrwc-meter-component.ts:154-170 | a name that is read as a role has at least five characters |
| Meter.RoleOfChannelName | src/app/qrwc/components/qrwc-meter-component.ts:154-170 | the role of every channel control is read back from its name |
| Meter.ChannelNamesDistinct | src/app/qrwc/components/qrwc-meter-component.ts:154-170 | different (role, channel) pairs name different controls |
| Meter.NewChannel | src/app/qrwc/components/qrwc-meter-component.ts:155-169 | a channel's five level bindings are the new level bindings for that channel number |
| Meter.Create | src/app/qrwc/components/qrwc-meter-component.ts:139-170 | a count outside 1..256 is rejected; otherwise the meter has the four shared bindings and exactly count channels, channel i bound to the controls numbered i + 1 |
| Meter.Read | src/app/qrwc/components/qrwc-meter-component.ts:48-97 | an accessor throws exactly for a channel outside 1..count and otherwise reads that channel's level |
| Meter.Levels | src/app/qrwc/components/qrwc-meter-component.ts:102-132 | each list has one entry per channel |
| Meter.LevelsMatchReads | src/app/qrwc/components/qrwc-meter-component.ts:102-132 | entry i of each list is what the accessor reads for channel i + 1, and the accessor throws outside the list |
| Meter.CreatedReadsZero | src/app/qrwc/components/qrwc-meter-component.ts:154-170 | before any directory arrives every in-range accessor reads 0 and is bound to its channel's control |
| Meter.SetHoldTime | src/app/qrwc/components/qrwc-meter-component.ts:179-181 | a bound hold time receives the value; an unbound one nothing |
| Meter.SetHoldTimePosition | src/app/qrwc/components/qrwc-meter-component.ts:187-189 | as the binding's position write: nothing and the matching diagnostic when unbound, out of 0..1 or without a range; otherwise exactly one write of the mapped position to the hold time |
| Meter.SetInfiniteHold | src/app/qrwc/components/qrwc-meter-component.ts:195-197 | a bound infinite-hold flag receives the value |
| Meter.ToggleInfiniteHold | src/app/qrwc/components/qrwc-meter-component.ts:202-204 | toggling sets the infinite-hold flag to the negation of its view |
| Meter.SetResponseTime | src/app/qrwc/components/qrwc-meter-component.ts:210-212 | a bound response time receives the value |
| Meter.SetResponseTimePosition | src/app/qrwc/components/qrwc-meter-component.ts:218-220 | as the binding's position write: nothing and the matching diagnostic when unbound, out of 0..1 or without a range; otherwise exactly one write of the mapped position to the response time |
| Meter.PositionIsMappedValue | src/app/qrwc/components/qrwc-meter-component.ts:180-220 | a position write is the value write of the position's mapped value, and on a linear hold time that value maps back to the position |
| Meter.SetSelect | src/app/qrwc/components/qrwc-meter-component.ts:226-228 | the selector receives text or a number unchanged |
| Snapshot.NewSlot | src/app/qrwc/components/qrwc-snapshot-controller-component.ts:44-53 | snapshot i binds last.i, match.i, load.i and save.i |
| Snapshot.Create | src/app/qrwc/components/qrwc-snapshot-controller-component.ts:37-54 | the controller binds its four shared controls and exactly the snapshots 1..count |
| Snapshot.Load | src/app/qrwc/components/qrwc-snapshot-controller-component.ts:64-67 | an index outside 1..count does nothing; inside it triggers load.index, and throws only if that slot is missing |
| Snapshot.Save | src/app/qrwc/components/qrwc-snapshot-controller-component.ts:69-72 | the same guard around save.index |
| Snapshot.LoadSaveGuards | src/app/qrwc/components/qrwc-snapshot-controller-component.ts:64-72 | on a constructed controller Load and Save never throw, and they write exactly when the index is in range and its control is bound |
| Snapshot.LoadSaveNamesDistinct | src/app/qrwc/components/qrwc-snapshot-controller-component.ts:45-48 | load and save controls never coincide, and different numbers name different controls |
| Snapshot.Previous | src/app/qrwc/components/qrwc-snapshot-controller-component.ts:56-58 | a bound load.previous receives a true then false pulse |
| Snapshot.Next | src/app/qrwc/components/qrwc-snapshot-controller-component.ts:60-62 | a bound load.next receives a true then false pulse |
| Snapshot.SetRampTime | src/app/qrwc/components/qrwc-snapshot-controller-component.ts:77-79 | a bound ramp time receives the value |
| Gain.Create | src/app/qrwc/components/qrwc-gain-component.ts:20-30 | the gain component has the strip on control "gain" and its five stepper bindings |
| Gain.Position | src/app/qrwc/components/qrwc-gain-component.ts:53-55 | the position is the gain control's position, 0 while unbound |
| Gain.SetGain | src/app/qrwc/components/qrwc-gain-component.ts:98-101 | the gain follows the strip's window |
| Gain.ToggleSwitch | src/app/qrwc/components/qrwc-gain-component.ts:114-146 | a toggle writes the JavaScript negation of the switch's primary view |
| Gain.ToggleSwitchIsBoolToggle | src/app/qrwc/components/qrwc-gain-component.ts:114-146 | for a boolean switch that negation is the boolean toggle |
| Gain.SetSwitch | src/app/qrwc/components/qrwc-gain-component.ts:107-139 | each switch setter writes the state to its switch |
| Gain.Increase | src/app/qrwc/components/qrwc-gain-component.ts:81-83 | the pressed state goes to stepper.increase |
| Gain.Decrease | src/app/qrwc/components/qrwc-gain-component.ts:90-92 | the pressed state goes to stepper.decrease |
| Gain.SetStepper | src/app/qrwc/components/qrwc-gain-component.ts:153-173 | each stepper setter writes the value to its own control |
| Gain.StepperSettersDistinct | src/app/qrwc/components/qrwc-gain-component.ts:25-27 | different stepper setters, and the gain, address different controls |
| Camera.DirectionOfName | src/app/qrwc/components/qrwc-camera-component.ts:4-13 | a name read as a direction is that direction's control name |
| Camera.DirectionNameRoundTrip | src/app/qrwc/components/qrwc-camera-component.ts:4-13 | every direction is read back from its name |
| Camera.DirectionNamesDistinct | src/app/qrwc/components/qrwc-camera-component.ts:4-13 | different directions have different names |
| Camera.Create | src/app/qrwc/components/qrwc-camera-component.ts:69-86 | the camera binds jpeg.data, the flags and one flag per direction, named after it |
| Camera.Move | src/app/qrwc/components/qrwc-camera-component.ts:88-115 | a move writes the state to the bound control of its direction |
| Camera.MoveTargetsOnlyItsDirection | src/app/qrwc/components/qrwc-camera-component.ts:78-115 | on a constructed camera a move reaches its own direction's control and no other direction's |
| Camera.ZoomIn | src/app/qrwc/components/qrwc-camera-component.ts:125-127 | the state goes to zoom.in |
| Camera.ZoomOut | src/app/qrwc/components/qrwc-camera-component.ts:133-135 | the state goes to zoom.out |
| Camera.Home | src/app/qrwc/components/qrwc-camera-component.ts:117-119 | a bound preset.home.load receives a true then false pulse |
| Camera.ToggleAutoFraming | src/app/qrwc/components/qrwc-camera-component.ts:140-143 | the auto-framing flag receives its negated view |
| Camera.TogglePrivacy | src/app/qrwc/components/qrwc-camera-component.ts:148-151 | the privacy flag receives its negated view |
| Camera.Preview | src/app/qrwc/components/qrwc-camera-component.ts:53-63 | empty or unparsable data gives an empty preview; parsed data gives its image field |
| Camera.UnboundPreviewIsEmpty | src/app/qrwc/components/qrwc-camera-component.ts:53-63 | before the first directory the preview is empty, whatever the parser |
| SplMeter.Create | src/app/qrwc/components/qrwc-spl-meter-component.ts:75-87 | the ten bindings are named after their controls, with reference level 94 and time weighting 125 as defaults |
| SplMeter.BarWidth | src/app/qrwc/components/qrwc-spl-meter-component.ts:48-54 | the bar width is the level's percentage of 30..130 dB, clamped to 0..100 |
| SplMeter.BarWidthMonotone | src/app/qrwc/components/qrwc-spl-meter-component.ts:48-54 | a louder level never gives a narrower bar |
| SplMeter.SplBarWidth | src/app/qrwc/components/qrwc-spl-meter-component.ts:48-54 | the displayed width stays within 0..100 |
| SplMeter.WeightingOf | src/app/qrwc/components/qrwc-spl-meter-component.ts:56-61 | up to 125 ms is Fast, above that up to 1000 ms is Slow, and longer times show their milliseconds |
| SplMeter.TimeWeightingDisplay | src/app/qrwc/components/qrwc-spl-meter-component.ts:56-61 | the label is "Fast", "Slow" or the time followed by "ms", according to the weighting |
| SplMeter.WeightingLabelsDistinct | src/app/qrwc/components/qrwc-spl-meter-component.ts:56-61 | the three kinds of label are told apart by their text |
| SplMeter.MaxHoldTimeDisplay | src/app/qrwc/components/qrwc-spl-meter-component.ts:63-67 | with infinite hold the label is "∞", else the two-decimal time followed by "s" |
| SplMeter.InfiniteHoldHidesTime | src/app/qrwc/components/qrwc-spl-meter-component.ts:63-67 | with infinite hold on, the hold time does not affect the label |
| SplMeter.Calibrate | src/app/qrwc/components/qrwc-spl-meter-component.ts:90-92 | a bound calibrate control receives a true then false pulse |
| SplMeter.ResetMaxLevel | src/app/qrwc/components/qrwc-spl-meter-component.ts:114-116 | a bound reset.max.level receives a true then false pulse |
| SplMeter.SetInfiniteMaxHold | src/app/qrwc/components/qrwc-spl-meter-component.ts:98-100 | the infinite-max-hold flag receives the value |
| SplMeter.ToggleInfiniteMaxHold | src/app/qrwc/components/qrwc-spl-meter-component.ts:102-104 | toggling sets the flag to the negation of its view |
| SplMeter.Set | src/app/qrwc/components/qrwc-spl-meter-component.ts:94-120 | each value setter writes its value to its own control |
| AudioPlayer.JsRem | src/app/audio-player/audio-player.ts:25-26 | JavaScript's remainder has the sign of the dividend and is smaller than the divisor in size |
| AudioPlayer.FieldsDecompose | src/app/audio-player/audio-player.ts:23-26 | for a non-negative position the hours, minutes and seconds are a base-60 split of the whole seconds |
| AudioPlayer.FractionTruncated | src/app/audio-player/audio-player.ts:23 | 59.9 s shows as 00:00:59: fractions are dropped |
| AudioPlayer.FieldTwoDigits | src/app/audio-player/audio-player.ts:27 | a field below 100 is two digits spelling its value |
| AudioPlayer.ReadClock | src/app/audio-player/audio-player.ts:27 | a text read as a clock has the hh:mm:ss shape |
| AudioPlayer.ProgressRoundTrip | src/app/audio-player/audio-player.ts:22-28 | below 100 hours the progress text has eight characters and reads back as the whole seconds |
| AudioPlayer.Progress | src/app/audio-player/audio-player.ts:22-28 | below 100 hours the text has eight characters and reads back as the whole seconds of the position |
| AudioPlayer.ReadClockOfFields | src/app/audio-player/audio-player.ts:27 | fields within range read back as the seconds they denote |
| AudioPlayer.ReadClockOfJoin | src/app/audio-player/audio-player.ts:27 | three digit pairs joined by ':' read back as hours, minutes and seconds |
| AudioPlayer.OnLevelChange | src/app/audio-player/audio-player.ts:30-32 | a level change writes the value to the bound gain and nothing otherwise |
| AudioPlayer.ToggleMute | src/app/audio-player/audio-player.ts:34-36 | mute receives the negation of its view |
| AudioPlayer.CreatedControlsDistinct | src/app/audio-player/audio-player.ts:18-20 | the gain, mute and progress bindings address different controls |
| AudioPlayer.Create | src/app/qrwc/components/qrwc-audio-player-component.ts:135-156 | the gain, mute and progress bindings address three different controls of the named component, start unbound, and default to 0, false and 0 |
| CameraController.Init | src/app/camera-controller/camera-controller.ts:25-26 | the controller starts with no hold pending and no effect sent |
| CameraController.ClearTimer | src/app/camera-controller/camera-controller.ts:111-117 | clearing preset n removes its hold and leaves every other hold as it was |
| CameraController.Press | src/app/camera-controller/camera-controller.ts:51-67 | a press outside 1..9 does nothing; otherwise it replaces any hold of that preset with a fresh timer, touching no other preset |
| CameraController.Release | src/app/camera-controller/camera-controller.ts:73-85 | a release with a hold pending cancels it and recalls the preset; otherwise nothing |
| CameraController.Expire | src/app/camera-controller/camera-controller.ts:61-64 | a live timer's expiry saves its preset and ends that hold; a cancelled timer does nothing |
| CameraController.Destroy | src/app/camera-controller/camera-controller.ts:202-205 | destroying cancels every pending hold and sends nothing |
| CameraController.ShortPressRecalls | src/app/camera-controller/camera-controller.ts:51-85 | press then release recalls once, and the cancelled timer can no longer save |
| CameraController.LongPressSaves | src/app/camera-controller/camera-controller.ts:51-85 | press then expiry saves once, and the later release does nothing |
| CameraController.InvalidPresetIgnored | src/app/camera-controller/camera-controller.ts:51-56 | presses and releases outside 1..9 change nothing |
| CameraController.PreviewImage | src/app/camera-controller/camera-controller.ts:28-37 | privacy shows the privacy picture; otherwise a non-empty preview becomes a JPEG data URL, and no preview shows the offline picture |
| CameraController.PreviewImageCarriesData | src/app/camera-controller/camera-controller.ts:33-34 | the data URL carries the preview unchanged after its prefix |
| CameraController.ToggleAutoFraming | src/app/camera-controller/camera-controller.ts:174-177 | pressing the button (state true) sends the camera's auto-framing toggle; releasing it (state false) sends nothing |
| CameraController.TogglePrivacyMode | src/app/camera-controller/camera-controller.ts:179-182 | pressing the button sends the camera's privacy toggle; releasing it sends nothing |
| CameraController.PressAndReleaseToggleOnce | src/app/camera-controller/camera-controller.ts:174-182 | a press and its release together send exactly the camera's own toggle, one write when the switch is bound |
| VuMeter.HitsKnots | src/app/stereo-vu-meter/vu-meter/vu-meter.ts:37-53 | the mapping passes through every calibration point |
| VuMeter.DbToAngle | src/app/stereo-vu-meter/vu-meter/vu-meter.ts:35-55 | the needle stays on the scale, rests at or below −32 dB, is pinned from +7 dB and shows 0 dB at 22.5° |
| VuMeter.DbToAngleClamps | src/app/stereo-vu-meter/vu-meter/vu-meter.ts:37-54 | at or below −32 dB the needle rests, above +7 dB it is pinned |
| VuMeter.DbToAngleBounds | src/app/stereo-vu-meter/vu-meter/vu-meter.ts:35-55 | the needle stays on the scale |
| VuMeter.SegmentOf | src/app/stereo-vu-meter/vu-meter/vu-meter.ts:37-54 | a level's segment lies between the breakpoints around it |
| VuMeter.DbToAngleIsSegment | src/app/stereo-vu-meter/vu-meter/vu-meter.ts:35-55 | the chain of ifs evaluates the segment the level falls in |
| VuMeter.DbToAngleContinuous | src/app/stereo-vu-meter/vu-meter/vu-meter.ts:38-53 | neighbouring segments agree at their breakpoint |
| VuMeter.DbToAngleMonotone | src/app/stereo-vu-meter/vu-meter/vu-meter.ts:35-55 | a louder signal never moves the needle back |
| VuMeter.TimeConstant | src/app/stereo-vu-meter/vu-meter/vu-meter.ts:57-58 | the attack constant applies when rising and the release constant otherwise |
| VuMeter.BallisticsBetween | src/app/stereo-vu-meter/vu-meter/vu-meter.ts:57-61 | with a factor in 0..1 the needle lands between where it was and its target |
| VuMeter.StepBetween | src/app/stereo-vu-meter/vu-meter/vu-meter.ts:60 | a partial step lies between its start and its target |
| VuMeter.BallisticsExtremes | src/app/stereo-vu-meter/vu-meter/vu-meter.ts:57-61 | a factor of 1 jumps to the target, and 0 leaves the needle still |
| VuMeter.Ballistics | src/app/stereo-vu-meter/vu-meter/vu-meter.ts:57-61 | with a factor in 0..1 the needle lands between where it was and its target, on the target at factor 1 and unmoved at factor 0 |
| DualVuMeter.SameAsStereo | src/app/dual-vu-meter/dual-vu-meter.ts:82-101 | the panel's mapping equals the stereo widget's at every level |
| DualVuMeter.DbToAngle | src/app/dual-vu-meter/dual-vu-meter.ts:82-101 | the panel's mapping is the stereo widget's and stays on that scale |
| DualVuMeter.DbToAngleMonotone | src/app/dual-vu-meter/dual-vu-meter.ts:82-101 | a louder signal never moves the panel's needle back |
| DualVuMeter.Init | src/app/dual-vu-meter/dual-vu-meter.ts:36-43 | both needles start at rest |
| DualVuMeter.Target | src/app/dual-vu-meter/dual-vu-meter.ts:40 | needle i's target is the mapped RMS of channel i + 1, or the accessor's throw |
| DualVuMeter.TargetsFollowRms | src/app/dual-vu-meter/dual-vu-meter.ts:38-43 | needle i follows entry i of the RMS list |
| DualVuMeter.Frame | src/app/dual-vu-meter/dual-vu-meter.ts:63-74 | a frame moves each needle one ballistics step towards its target |
| DualVuMeter.FrameStaysOnScale | src/app/dual-vu-meter/dual-vu-meter.ts:76-80 | with factors in 0..1 a frame keeps needles on the scale |
| MultiVuMeter.SegmentOf | src/app/multi-vu-meter/multi-vu-meter.ts:91-103 | a level's segment lies between the breakpoints around it |
| MultiVuMeter.DbToAngleIsSegment | src/app/multi-vu-meter/multi-vu-meter.ts:90-104 | the chain of ifs evaluates the segment the level falls in |
| MultiVuMeter.DbToAngleContinuous | src/app/multi-vu-meter/multi-vu-meter.ts:92-102 | neighbouring segments agree at their calibration angle |
| MultiVuMeter.DbToAngleClamps | src/app/multi-vu-meter/multi-vu-meter.ts:91-103 | the needle rests at the low end and is pinned at the high end |
| MultiVuMeter.DbToAngleBounds | src/app/multi-vu-meter/multi-vu-meter.ts:90-104 | the needle stays on this panel's scale |
| MultiVuMeter.DbToAngle | src/app/multi-vu-meter/multi-vu-meter.ts:90-104 | the needle stays within −50°..50°, rests at or below −24 dB and is pinned above +3.2 dB |
| MultiVuMeter.NotMonotone | src/app/multi-vu-meter/multi-vu-meter.ts:95-96 | the calibration is not monotone: −5 dB reads 17° but −3 dB reads −4° |
| MultiVuMeter.Init | src/app/multi-vu-meter/multi-vu-meter.ts:39-47 | every needle starts at −60° |
| MultiVuMeter.Target | src/app/multi-vu-meter/multi-vu-meter.ts:43 | needle i's target is the mapped RMS of channel i + 1, or the accessor's throw |
| MultiVuMeter.Peak | src/app/multi-vu-meter/multi-vu-meter.ts:44 | the peak lamp is lit exactly when channel i + 1's RMS is above +3 dB |
| MultiVuMeter.PeakMeansTopOfScale | src/app/multi-vu-meter/multi-vu-meter.ts:44 | a lit peak lamp goes with a needle target above 49° |
| MultiVuMeter.TargetsFollowRms | src/app/multi-vu-meter/multi-vu-meter.ts:41-47 | state i reads entry i of the RMS list |
| MultiVuMeter.Frame | src/app/multi-vu-meter/multi-vu-meter.ts:73-88 | a frame moves each needle one ballistics step towards its target |
| MultiVuMeter.FrameApproachesTargets | src/app/multi-vu-meter/multi-vu-meter.ts:60-64 | with factors in 0..1 a frame moves each needle towards its target without passing it |
| LedMeter.Normalize | src/app/dynamic-processor/led-meter/led-meter.ts:55-70 | the reading maps into 0..1, clamped at both ends, also on an inverse scale; an empty range gives 0 |
| LedMeter.NormalizeMonotone | src/app/dynamic-processor/led-meter/led-meter.ts:61-69 | on a normal scale a larger reading never normalises lower, on an inverse scale never higher |
| LedMeter.ActiveLedCount | src/app/dynamic-processor/led-meter/led-meter.ts:32-35 | the lit count lies in 0..ledCount, is full at 1 and zero at 0 |
| LedMeter.ActiveLedsArePrefix | src/app/dynamic-processor/led-meter/led-meter.ts:90-92 | the lit LEDs form a prefix of the bar |
| LedMeter.IsLedActive | src/app/dynamic-processor/led-meter/led-meter.ts:90-92 | a lit LED lies within the bar; at full scale every LED is lit and at zero none is |
| LedMeter.ActiveLedCountMonotone | src/app/dynamic-processor/led-meter/led-meter.ts:32-35 | a louder reading lights at least as many LEDs |
| LedMeter.LitMonotone | src/app/dynamic-processor/led-meter/led-meter.ts:34 | a larger fraction never covers fewer whole LEDs |
| LedMeter.Color | src/app/dynamic-processor/led-meter/led-meter.ts:75-85 | an LED is green below the yellow threshold, yellow below the red one and red from there |
| LedMeter.ColorsInOrder | src/app/dynamic-processor/led-meter/led-meter.ts:75-85 | along the bar colours run green, yellow, red, never back |
| LedMeter.DefaultBands | src/app/dynamic-processor/led-meter/led-meter.ts:23-24 | the default ten LEDs are six green, two yellow and two red |
| LedMeter.LedSegments | src/app/dynamic-processor/led-meter/led-meter.ts:30 | a negative count throws, otherwise there is one segment per LED |
| LedMeter.ScaleMarks | src/app/dynamic-processor/led-meter/led-meter.ts:37-49 | no marks unless the scale is shown; else max at 100%, midpoint at 50% and min at 0% |
| Knob.Clamp | src/app/graphic-eq/knob/knob.ts:49-51 | the result lies in the range, a value inside is kept, and one outside goes to the nearer end |
| Knob.Round | src/app/graphic-eq/knob/knob.ts:85 | the result is the integer within half of x, halves going up |
| Knob.Snap | src/app/graphic-eq/knob/knob.ts:85-86 | for a positive step the snapped value lies within half a step of the value |
| Knob.SnapIsNearest | src/app/graphic-eq/knob/knob.ts:84-88 | a snapped value lies within half a step of the unsnapped one |
| Knob.SnapKeepsMultiples | src/app/graphic-eq/knob/knob.ts:85 | a multiple of the step is left where it is |
| Knob.PointerDown | src/app/graphic-eq/knob/knob.ts:53-70 | pointer down starts a drag at the event position and current value, changing nothing else |
| Knob.PointerMove | src/app/graphic-eq/knob/knob.ts:72-91 | a move is ignored without a drag or from another pointer; a zero step emits NaN; otherwise the emitted value lies within the range |
| Knob.StillDragEmitsStart | src/app/graphic-eq/knob/knob.ts:76-90 | a drag that has not moved emits its start value when that is a step multiple within range |
| Knob.DragTracksPointer | src/app/graphic-eq/knob/knob.ts:81-90 | within range the emitted value lies within half a step of the value the drag travel gives |
| Knob.PointerUp | src/app/graphic-eq/knob/knob.ts:93-103 | pointer up ends any drag, changing nothing else |
| Knob.MovesAfterUpIgnored | src/app/parametric-eq/knob/parametric-knob.ts:93-104 | after pointer up every move is ignored |
| Knob.OtherPointerIgnored | src/app/parametric-eq/knob/parametric-knob.ts:72-74 | only events carrying the drag's pointer id move the knob |
| Knob.Keydown | src/app/graphic-eq/knob/knob.ts:105-120 | other keys emit nothing; an emitted value differs from the current one, lies in the range, and moves up for up/right and down for down/left |
| Knob.KeyAtEndEmitsNothing | src/app/parametric-eq/knob/parametric-knob.ts:117-120 | stepping past either end emits nothing |
| Knob.KeyUpThenDown | src/app/parametric-eq/knob/parametric-knob.ts:106-121 | inside the range a step up and then down returns to the start |
| Knob.IndicatorAngle | src/app/graphic-eq/knob/knob.ts:39-46 | with an empty range there is no angle; otherwise min is −135°, max is 135° and the midpoint 0° |
| Knob.IndicatorMonotone | src/app/parametric-eq/knob/parametric-knob.ts:41-48 | a larger value turns the indicator further clockwise |
| App.BoolTextIsNotNumber | src/app/app.ts:65-67 | "true" and "false" in any case are neither integer nor decimal text |
| App.ParseValue | src/app/app.ts:64-69 | integer text becomes exactly the integer it spells, decimal text its exact value, boolean text its boolean, and anything else stays text |
| App.IntStrIsIntText | src/app/app.ts:65 | an integer's decimal text is integer text spelling it |
| App.NatStrIsIntText | src/app/app.ts:65 | a natural number's text is integer text spelling it |
| App.NegativeIntStrIsIntText | src/app/app.ts:65 | a negative integer's text is integer text spelling it |
| App.NotBoolText | src/app/app.ts:67 | text starting with a digit or '-' is not boolean text |
| App.ParseIntText | src/app/app.ts:65 | an integer's text is classified as that integer |
| App.ParseDecimalText | src/app/app.ts:66 | "-2.5" is classified as −2.5 |
| App.DottedAddressStaysText | src/app/app.ts:68 | a dotted IP address stays text |
| App.CollectKeys | src/app/app.ts:71-73 | the keys of the map are exactly the lower-cased keys of the parameters |
| App.Collect | src/app/app.ts:71-73 | every parameter's lower-cased key is in the map, every key in the map comes from a parameter, and the last parameter's classified value sits at its key |
| App.CollectHasEveryKey | src/app/app.ts:71-73 | every parameter's lower-cased key is in the map |
| App.CollectHasOnlyParameterKeys | src/app/app.ts:71-73 | every key of the map comes from a parameter |
| App.GetQueryParameters | src/app/app.ts:54-76 | without a window the map is empty; with one it is exactly the map the parameters collect to (Collect), and every parameter's lower-cased name is a key of it |
| App.LowerIdempotent | src/app/app.ts:72 | lower-casing twice is lower-casing once |
| App.KeysAreLowerCase | src/app/app.ts:72 | every key of the map is lower case |
| App.LastParameterWins | src/app/app.ts:71-73 | a key maps to the classified value of the last parameter with that key |
| App.LaterKeyOverrides | src/app/app.ts:71-73 | keys equal up to case are merged, the later value winning |
| App.ParseIntReadsNatStr | src/app/app.ts:39 | parseInt reads a natural number's text back when a non-digit follows |
| App.ParseIntReadsNegativeNatStr | src/app/app.ts:39 | parseInt reads a negative number's text back when a non-digit follows |
| App.ParseIntReadsIntStr | src/app/app.ts:39 | parseInt reads any integer's text back, whatever non-digit text follows |
| App.ParseIntSkipsSpace | src/app/app.ts:39 | leading white space does not change what parseInt reads |
| App.JsParseInt | src/app/app.ts:39 | after leading white space and one sign, parseInt gives NaN exactly when no digit follows; a minus sign gives a value at most 0 and otherwise the value is at least 0 |
| App.PollingInterval | src/app/app.ts:36-39 | a numeric poll entry is used as is; without a poll entry the interval is 200; any other entry gives a non-zero whole number, parseInt of its text or the 200 fallback |
| App.PollText | src/app/app.ts:36-39 | a text poll entry is passed to parseInt as written; a missing or boolean entry gives text that parseInt reads as NaN |
| App.PollBooleanFallsBack | src/app/app.ts:39 | a boolean poll entry falls back to 200 |
| App.PollFromTextPrefix | src/app/app.ts:39 | a poll text starting with a non-zero integer polls at that integer |
| App.NumberText | src/app/app.ts:34 | integers below 10^21 in magnitude print their digits; any other number, including a larger integer in exponent form, prints as numberText gives it |
| App.Host | src/app/app.ts:34 | a missing host gives the built-in address; a text host is passed unchanged and a boolean one as "true" or "false" |
| App.HostTextVerbatim | src/app/app.ts:34 | a host text that is not a number or boolean reaches connect exactly as written |
| App.HostIntegerVerbatim | src/app/app.ts:34 | a canonical integer host below 10^21 in magnitude comes back as the same text, in exact arithmetic (see "Left out" for digit strings beyond 2^53) |
| App.HostLargeIntegerReprinted | src/app/app.ts:34 | an integer host of 10^21 or more in magnitude is reprinted by String(), not passed on as written |
| App.IntegerPrintsDigits | src/app/app.ts:34 | an integer below 10^21 in magnitude prints as its own digits |
| App.HostEntry | src/app/app.ts:71-73 | the last host parameter decides the host entry |
| App.Startup | src/app/app.ts:30-41 | on a service with nothing connected or pending, start-up stores the host and polling interval read from the URL, preserving validity |
| App.StartupWithoutWindow | src/app/app.ts:24-41 | without a window the app connects to the built-in address polling every 200 ms |

## Left out

- **Outside code.** The Qrwc library, the WebSocket transport, Angular's
  signal runtime and change detection, and the console are not modelled.
  Their effects appear as events, a directory value and diagnostics.
- **Timers and animation.** `setTimeout`, `clearTimeout` and
  `requestAnimationFrame` are events applied by the caller. No real time
  passes in the model.
- **Floating point.** Numbers are reals: there is no rounding error,
  overflow or signed zero. Non-finite results collapse into one `NonFinite`
  case.
- **Bandwidth and Q conversion.** `bandwidthToQ` and `qToBandwidth` in the
  response calculator are not modelled. Nothing in the modelled core calls
  them, and they are not inverse to each other as written.
- **Number text.** Turning a non-integer number, or an integer of 10^21
  or more in magnitude, into text (`Number.prototype.toString`) and `toFixed(2)` are function parameters.
  `toFixed`'s rounding of exact ties is not modelled.
- **`JSON.parse`.** The parse of the camera's `jpeg.data` is a `parse`
  parameter.
- **Non-integer counts and indexes.** Channel and snapshot counts that
  are not integers are not modelled. Nor are non-integer channel, slot
  and band indexes inside the range: the source looks them up, gets
  `undefined` and throws, while the model takes indexes as integers.
  This covers Meter.Read, Snapshot.Load and Snapshot.Save,
  GraphicEq.SetBandGain and GraphicEq.ToggleBandBypass, and the
  ParametricEq band setters.
- **`parseInt` precision.** Its rounding of very long digit strings is not
  modelled.
- **URLs.** URL decoding of query parameters happens before the model
  sees them. Lower-casing covers ASCII letters only.
- **Pass-through components.** The remaining wrappers (compressor, gate,
  limiter, pink noise, press-and-hold, responsalyzer, status) only forward
  to the binding engine modelled here.
- **Layout widgets.** The analyser charts, rack decorations, faders and
  similar widgets affect layout only.
- **Missing camera methods.** The camera controller calls `focusNear`,
  `focusFar` and `focusAuto`, which the camera component does not define.
  These calls are left out.
- **Controller forwarding.** The controller's move and zoom forwarding,
  and its CSS class toggling, are left out.
- **Parametric-knob size.** The parametric knob's `size` input is left
  out.
- **Parametric-EQ component details.** Its `dispose` and debounce timing,
  and `getComputedComponent`, are left out.
- **Global handlers.** The service's global `update` and `error` handlers
  only log, and are left out.
- Binding.SetPosition: the logarithmic map `min · (max / min)^p` is the
  abstract `logScale` parameter. The write itself is stated exactly, but
  properties of the power function (such as reading the position back)
  are proved for the linear map only.
- Meter.SetHoldTimePosition: the logarithmic case goes through the same
  abstract `logScale`; the read-back is proved for the linear map only.
- Meter.SetResponseTimePosition: the same as the hold time.
- EqResponse.PeakingCoefficients: sine, cosine and powers of ten are
  abstract. The filter properties assume only the facts listed in
  `EqResponse.Sound`: 10^0 = 1, powers of ten are positive and 10^−x is
  the inverse of 10^x, √1 = 1, log10 1 = 0 and atan2(0, 1) = 0.
- EqResponse.DecibelsAdd: the multiplicativity of the square root and
  the additivity of log10 are required at the two values involved rather
  than assumed for all inputs.
- EqResponse.FrequencyPoints: `2**x` and `log2` are abstract. The axis
  properties assume only the facts in `EqResponse.AxisSound`.
- VuMeter.BallisticsBetween: the factor `1 - exp(-dt/tau)` is a parameter
  assumed to lie in 0..1.
- DualVuMeter.FrameStaysOnScale: the same assumption about the
  ballistics factor.
- MultiVuMeter.FrameApproachesTargets: the same assumption about the
  ballistics factor.
- SplMeter.TimeWeightingDisplay: the text of the milliseconds comes from
  an abstract `numberText`.
- SplMeter.MaxHoldTimeDisplay: the two-decimal text comes from an
  abstract `fixed2`.
- App.NumberText: the text of non-integer numbers, and the exponent form
  of integers from 10^21 on, is abstract.
- App.HostIntegerVerbatim: holds in exact arithmetic. `parseInt` followed
  by `Number` rounds integers above 2^53 in magnitude to the nearest
  double, so between 2^53 and 10^21 the source may print different
  digits; that rounding is not modelled.
- Connection.SocketThrew: which addresses make the `WebSocket`
  constructor throw is not modelled. The event is applied by the caller
  right after the `connect` that started the attempt.
- Camera.Preview: the JSON parse is abstract.

=== FILE: app.dfy ===
/**
 * The application shell: classification of URL query values, the
 * lower-cased parameter map, and the host and polling interval the app
 * connects with at start-up.
 */
module App {
  import opened Base
  import Connection

  /** The Core address used when the URL names no `host`. */
  const CoreIpAddress: string := "192.168.1.220"

  /** The polling interval used when `poll` is absent or not a usable number. */
  const DefaultPolling: real := 200.0

  /** A classified query value: a JavaScript number, a boolean, or the text itself. */
  datatype QueryValue = NumVal(x: real) | BoolVal(b: bool) | StrVal(s: string)

  /** The text after an optional leading '-'. */
  function Unsigned(v: string): (d: string)
    ensures |d| <= |v|
  {
    if |v| > 0 && v[0] == '-' then v[1..] else v
  }

  /** The magnitude `n` with the sign the text starts with. */
  function Signed(v: string, n: real): real {
    if |v| > 0 && v[0] == '-' then -n else n
  }

  /** `/^-?\d+$/`. */
  predicate IsIntText(v: string) {
    var d := Unsigned(v);
    |d| > 0 && AllDigits(d)
  }

  /** The position of the first '.', if any. */
  function DotIndex(s: string): (k: Option<nat>)
    ensures k.Some? ==> k.value < |s| && s[k.value] == '.'
    ensures k.Some? ==> forall i :: 0 <= i < k.value ==> s[i] != '.'
    ensures k.None? ==> forall i :: 0 <= i < |s| ==> s[i] != '.'
    decreases |s|
  {
    if |s| == 0 then None
    else if s[0] == '.' then Some(0)
    else match DotIndex(s[1..])
      case None => None
      case Some(k) => Some(k + 1)
  }

  /** `/^-?\d+\.\d+$/`: digits, one '.', digits. */
  predicate IsDecText(v: string) {
    var d := Unsigned(v);
    var k := DotIndex(d);
    && k.Some? && 0 < k.value < |d| - 1
    && AllDigits(d[..k.value]) && AllDigits(d[k.value + 1..])
  }

  /** `/^(true|false)$/i`. */
  predicate IsBoolText(v: string) {
    Lower(v) == "true" || Lower(v) == "false"
  }

  function Pow10(n: nat): (p: nat)
    ensures p >= 1
  {
    if n == 0 then 1 else 10 * Pow10(n - 1)
  }

  /** The exact value of a decimal text: whole part plus the fraction's digits over a power of ten. */
  function DecTextValue(v: string): real
    requires IsDecText(v)
  {
    var d := Unsigned(v);
    var k := DotIndex(d).value;
    var whole, frac := d[..k], d[k + 1..];
    Signed(v, DigitsValue(whole) as real + DigitsValue(frac) as real / Pow10(|frac|) as real)
  }

  /** A boolean text starts with a letter, so it is neither an integer nor a decimal text. */
  lemma {:induction false} BoolTextIsNotNumber(v: string)
    requires IsBoolText(v)
    ensures !IsIntText(v) && !IsDecText(v)
  {
    assert |Lower(v)| > 0 && (Lower(v)[0] == 't' || Lower(v)[0] == 'f');
    assert !IsDigit(v[0]) && v[0] != '-';
    assert Unsigned(v) == v;
    var k := DotIndex(v);
    if k.Some? && 0 < k.value {
      assert v[..k.value][0] == v[0];
    }
  }

  /**
   * `parseValue`: integer text becomes that integer, decimal text its
   * value, 'true' or 'false' in any letter case the boolean, anything else
   * stays text. Numbers are exact here; `parseInt` and `parseFloat` round
   * to the nearest double.
   */
  function ParseValue(v: string): (q: QueryValue)
    ensures q.StrVal? <==> !IsIntText(v) && !IsDecText(v) && !IsBoolText(v)
    ensures q.StrVal? ==> q.s == v
    ensures q.BoolVal? <==> IsBoolText(v)
    ensures q.BoolVal? ==> (q.b <==> Lower(v) == "true")
    ensures IsIntText(v) ==> q == NumVal(Signed(v, DigitsValue(Unsigned(v)) as real))
    ensures IsDecText(v) ==> q == NumVal(DecTextValue(v))
  {
    if IsBoolText(v) then BoolTextIsNotNumber(v); BoolVal(Lower(v) == "true")
    else if IsIntText(v) then NumVal(Signed(v, DigitsValue(Unsigned(v)) as real))
    else if IsDecText(v) then NumVal(DecTextValue(v))
    else StrVal(v)
  }

  /** An integer's decimal text is integer text and spells that integer. */
  lemma IntStrIsIntText(i: int)
    ensures IsIntText(IntStr(i))
    ensures Signed(IntStr(i), DigitsValue(Unsigned(IntStr(i))) as real) == i as real
  {
    if i < 0 {
      NegativeIntStrIsIntText(i);
    } else {
      NatStrIsIntText(i);
    }
  }

  lemma {:induction false} NatStrIsIntText(n: nat)
    ensures IsIntText(NatStr(n)) && Unsigned(NatStr(n)) == NatStr(n)
    ensures Signed(NatStr(n), DigitsValue(NatStr(n)) as real) == n as real
  {
    var d := NatStr(n);
    assert IsDigit(d[0]);
    NatStrRoundTrip(n);
  }

  lemma {:induction false} NegativeIntStrIsIntText(i: int)
    requires i < 0
    ensures IsIntText(IntStr(i)) && Unsigned(IntStr(i)) == NatStr(-i)
    ensures Signed(IntStr(i), DigitsValue(Unsigned(IntStr(i))) as real) == i as real
  {
    var n: nat := -i;
    var s, d := IntStr(i), NatStr(n);
    assert s == "-" + d;
    assert s[0] == '-' && s[1..] == d;
    assert Unsigned(s) == d;
    NatStrRoundTrip(n);
    assert Signed(s, DigitsValue(d) as real) == -(n as real);
  }

  /** Text that starts with a digit or '-' is not a boolean. */
  lemma {:induction false} NotBoolText(s: string)
    requires |s| > 0 && (s[0] == '-' || IsDigit(s[0]))
    ensures !IsBoolText(s)
  {
    assert Lower(s)[0] == s[0];
  }

  /** An integer's decimal text is classified as that integer. */
  lemma {:induction false} ParseIntText(i: int)
    ensures ParseValue(IntStr(i)) == NumVal(i as real)
  {
    var s := IntStr(i);
    IntStrIsIntText(i);
    NotBoolText(s);
  }

  /** A decimal text such as "-2.5" is classified as its exact value. */
  lemma ParseDecimalText()
    ensures ParseValue("-2.5") == NumVal(-2.5)
  {
    assert Unsigned("-2.5") == "2.5";
    assert DotIndex("2.5") == Some(1);
    assert "2.5"[..1] == "2" && "2.5"[2..] == "5";
    assert IsDecText("-2.5");
  }

  /** A dotted IP address has three dots, so it stays text. */
  lemma DottedAddressStaysText()
    ensures ParseValue(CoreIpAddress) == StrVal(CoreIpAddress)
  {
    var v := CoreIpAddress;
    assert !IsDigit(v[3]);
    assert DotIndex(v) == Some(3);
    assert !IsDigit(v[3 + 1..][3]);
    assert Lower(v)[0] == '1';
  }

  /** One query parameter as the URL yields it: the decoded key and value. */
  type Param = (string, string)

  /** The map `getQueryParameters` fills, in parameter order, keyed by the lower-cased key. */
  function Collect(ps: seq<Param>): (m: map<string, QueryValue>)
    ensures forall i :: 0 <= i < |ps| ==> Lower(ps[i].0) in m
    ensures forall k :: k in m ==> exists i :: 0 <= i < |ps| && Lower(ps[i].0) == k
    ensures |ps| > 0 ==> m[Lower(ps[|ps| - 1].0)] == ParseValue(ps[|ps| - 1].1)
    decreases |ps|
  {
    if |ps| == 0 then map[]
    else
      var init, last := ps[..|ps| - 1], ps[|ps| - 1];
      var before := Collect(init);
      AddedKeyKeepsOrigins(ps, init, before, ParseValue(last.1));
      before[Lower(last.0) := ParseValue(last.1)]
  }

  /**
   * Entering the last parameter into a map whose keys are exactly those of
   * the earlier parameters gives a map whose keys are exactly those of all
   * of them.
   */
  lemma AddedKeyKeepsOrigins(ps: seq<Param>, init: seq<Param>, before: map<string, QueryValue>, v: QueryValue)
    requires |ps| > 0 && init == ps[..|ps| - 1]
    requires forall i :: 0 <= i < |init| ==> Lower(init[i].0) in before
    requires forall k :: k in before ==> exists i :: 0 <= i < |init| && Lower(init[i].0) == k
    ensures var m := before[Lower(ps[|ps| - 1].0) := v];
      && (forall i :: 0 <= i < |ps| ==> Lower(ps[i].0) in m)
      && (forall k :: k in m ==> exists i :: 0 <= i < |ps| && Lower(ps[i].0) == k)
  {
    var m := before[Lower(ps[|ps| - 1].0) := v];
    forall i | 0 <= i < |ps|
      ensures Lower(ps[i].0) in m
    {
      if i < |ps| - 1 {
        assert init[i] == ps[i];
      }
    }
    forall k | k in m
      ensures exists i :: 0 <= i < |ps| && Lower(ps[i].0) == k
    {
      if k != Lower(ps[|ps| - 1].0) {
        var i :| 0 <= i < |init| && Lower(init[i].0) == k;
        assert init[i] == ps[i];
      }
    }
  }

  /** The keys are exactly the lower-cased keys of the parameters. */
  lemma CollectKeys(ps: seq<Param>)
    ensures forall i :: 0 <= i < |ps| ==> Lower(ps[i].0) in Collect(ps)
    ensures forall k :: k in Collect(ps) ==> exists i :: 0 <= i < |ps| && Lower(ps[i].0) == k
  {
    CollectHasEveryKey(ps);
    CollectHasOnlyParameterKeys(ps);
  }

  lemma {:induction false} CollectHasEveryKey(ps: seq<Param>)
    ensures forall i :: 0 <= i < |ps| ==> Lower(ps[i].0) in Collect(ps)
    decreases |ps|
  {
    if |ps| > 0 {
      var init := ps[..|ps| - 1];
      CollectHasEveryKey(init);
      forall i | 0 <= i < |init| ensures Lower(ps[i].0) in Collect(ps) {
        assert init[i] == ps[i];
      }
    }
  }

  lemma {:induction false} CollectHasOnlyParameterKeys(ps: seq<Param>)
    ensures forall k :: k in Collect(ps) ==> exists i :: 0 <= i < |ps| && Lower(ps[i].0) == k
    decreases |ps|
  {
    if |ps| > 0 {
      var init := ps[..|ps| - 1];
      CollectHasOnlyParameterKeys(init);
      forall k | k in Collect(ps) ensures exists i :: 0 <= i < |ps| && Lower(ps[i].0) == k {
        if k != Lower(ps[|ps| - 1].0) {
          assert k in Collect(init);
          var i :| 0 <= i < |init| && Lower(init[i].0) == k;
          assert ps[i] == init[i];
        }
      }
    }
  }

  /** `getQueryParameters`: without a window (server-side rendering) the map is empty. */
  function GetQueryParameters(window: Option<seq<Param>>): (m: map<string, QueryValue>)
    ensures window.None? ==> m == map[]
    ensures window.Some? ==> forall i :: 0 <= i < |window.value| ==> Lower(window.value[i].0) in m
    ensures window.Some? ==> m == Collect(window.value)
  {
    match window
    case None => map[]
    case Some(ps) => CollectKeys(ps); Collect(ps)
  }

  /** Lower-casing is idempotent. */
  lemma LowerIdempotent(s: string)
    ensures Lower(Lower(s)) == Lower(s)
  {
  }

  /** Every key of the map is already lower case. */
  lemma {:induction false} KeysAreLowerCase(ps: seq<Param>, k: string)
    requires k in Collect(ps)
    ensures Lower(k) == k
  {
    CollectKeys(ps);
    var i :| 0 <= i < |ps| && Lower(ps[i].0) == k;
    LowerIdempotent(ps[i].0);
  }

  /**
   * A key's entry is the classified value of the LAST parameter whose key
   * lower-cases to it: later parameters override earlier ones that differ
   * only in letter case.
   */
  lemma {:induction false} LastParameterWins(ps: seq<Param>, j: int)
    requires 0 <= j < |ps|
    requires forall i :: j < i < |ps| ==> Lower(ps[i].0) != Lower(ps[j].0)
    ensures Lower(ps[j].0) in Collect(ps) && Collect(ps)[Lower(ps[j].0)] == ParseValue(ps[j].1)
    decreases |ps|
  {
    if j < |ps| - 1 {
      var init := ps[..|ps| - 1];
      assert init[j] == ps[j];
      forall i | j < i < |init| ensures Lower(init[i].0) != Lower(init[j].0) {
        assert init[i] == ps[i];
      }
      LastParameterWins(init, j);
    }
  }

  /** `?Poll=5&poll=7`: the later value wins under the lower-cased key. */
  lemma {:induction false} LaterKeyOverrides(ps: seq<Param>, k1: string, v1: string, k2: string, v2: string)
    requires Lower(k1) == Lower(k2)
    ensures Collect(ps + [(k1, v1), (k2, v2)])[Lower(k1)] == ParseValue(v2)
  {
    LastParameterWins(ps + [(k1, v1), (k2, v2)], |ps| + 1);
  }

  // ----- JavaScript parseInt(text, 10) -----

  /** The characters `parseInt` skips before the number: white space and line terminators. */
  predicate IsJsSpace(c: char) {
    || c == '\t' || c == '\n' || c == '\U{B}' || c == '\U{C}' || c == '\r' || c == ' '
    || c == '\U{A0}' || c == '\U{1680}' || '\U{2000}' <= c <= '\U{200A}'
    || c == '\U{2028}' || c == '\U{2029}' || c == '\U{202F}' || c == '\U{205F}'
    || c == '\U{3000}' || c == '\U{FEFF}'
  }

  function TrimStart(s: string): (t: string)
    ensures |t| <= |s|
    ensures |t| > 0 ==> !IsJsSpace(t[0])
    decreases |s|
  {
    if |s| > 0 && IsJsSpace(s[0]) then TrimStart(s[1..]) else s
  }

  /** The longest prefix of decimal digits. */
  function DigitPrefix(s: string): (d: string)
    ensures AllDigits(d) && |d| <= |s|
    decreases |s|
  {
    if |s| > 0 && IsDigit(s[0]) then [s[0]] + DigitPrefix(s[1..]) else []
  }

  /**
   * `parseInt(text, 10)`: skip leading white space, read an optional sign
   * and then as many digits as there are; with no digit the result is NaN
   * (`None`).
   */
  function JsParseInt(s: string): (n: Option<int>)
    ensures var t := TrimStart(s);
      var body := if |t| > 0 && (t[0] == '-' || t[0] == '+') then t[1..] else t;
      && (n.None? <==> |body| == 0 || !IsDigit(body[0]))
      && (n.Some? && |t| > 0 && t[0] == '-' ==> n.value <= 0)
      && (n.Some? && !(|t| > 0 && t[0] == '-') ==> n.value >= 0)
  {
    SignedDigits(TrimStart(s))
  }

  /** An optional sign, then the leading digits; none is NaN. */
  function SignedDigits(t: string): Option<int> {
    if |t| > 0 && t[0] == '-' then Negate(UnsignedDigits(t[1..]))
    else if |t| > 0 && t[0] == '+' then UnsignedDigits(t[1..])
    else UnsignedDigits(t)
  }

  function UnsignedDigits(t: string): Option<int> {
    var d := DigitPrefix(t);
    if |d| == 0 then None else Some(DigitsValue(d))
  }

  function Negate(n: Option<int>): Option<int> {
    match n
    case None => None
    case Some(v) => Some(-v)
  }

  /** The digits of a prefix are read as the number they spell when a non-digit follows. */
  lemma {:induction false} DigitPrefixStops(d: string, t: string)
    requires AllDigits(d)
    requires |t| == 0 || !IsDigit(t[0])
    ensures DigitPrefix(d + t) == d
    decreases |d|
  {
    if |d| > 0 {
      assert (d + t)[1..] == d[1..] + t;
      DigitPrefixStops(d[1..], t);
    } else {
      assert d + t == t;
    }
  }

  /** `parseInt` of digits followed by a non-digit is the digits' value. */
  lemma {:induction false} ParseIntDigits(d: string, t: string)
    requires |d| > 0 && AllDigits(d)
    requires |t| == 0 || !IsDigit(t[0])
    ensures JsParseInt(d + t) == Some(DigitsValue(d))
  {
    var s := d + t;
    assert s[0] == d[0];
    assert TrimStart(s) == s;
    DigitPrefixStops(d, t);
    assert UnsignedDigits(s) == Some(DigitsValue(d));
  }

  /** The same after a minus sign. */
  lemma {:induction false} ParseIntNegativeDigits(d: string, t: string, i: int)
    requires |d| > 0 && AllDigits(d) && DigitsValue(d) == -i
    requires |t| == 0 || !IsDigit(t[0])
    ensures JsParseInt("-" + d + t) == Some(i)
  {
    var s := "-" + d + t;
    assert s[0] == '-' && s[1..] == d + t;
    assert TrimStart(s) == s;
    DigitPrefixStops(d, t);
    assert UnsignedDigits(d + t) == Some(-i);
  }

  lemma {:induction false} ParseIntReadsNatStr(n: nat, t: string)
    requires |t| == 0 || !IsDigit(t[0])
    ensures JsParseInt(NatStr(n) + t) == Some(n)
  {
    ParseIntDigits(NatStr(n), t);
    NatStrRoundTrip(n);
  }

  lemma {:induction false} ParseIntReadsNegativeNatStr(i: int, t: string)
    requires i < 0 && (|t| == 0 || !IsDigit(t[0]))
    ensures JsParseInt("-" + NatStr(-i) + t) == Some(i)
  {
    NatStrRoundTrip(-i);
    ParseIntNegativeDigits(NatStr(-i), t, i);
  }

  /** `parseInt` reads an integer's text back, whatever non-digit text follows it. */
  lemma {:induction false} ParseIntReadsIntStr(i: int, t: string)
    requires |t| == 0 || !IsDigit(t[0])
    ensures JsParseInt(IntStr(i) + t) == Some(i)
  {
    if i < 0 {
      ParseIntReadsNegativeNatStr(i, t);
      assert IntStr(i) + t == "-" + NatStr(-i) + t;
    } else {
      ParseIntReadsNatStr(i, t);
    }
  }

  /** Leading white space does not change what `parseInt` reads. */
  lemma {:induction false} ParseIntSkipsSpace(c: char, s: string)
    requires IsJsSpace(c)
    ensures JsParseInt([c] + s) == JsParseInt(s)
  {
    assert ([c] + s)[1..] == s;
  }

  // ----- start-up -----

  /**
   * The polling interval of `ngOnInit`: a numeric `poll` entry is used as
   * it is, even 0; otherwise `parseInt` of its text (of '' when absent),
   * with 200 when that is NaN or 0.
   */
  function PollingInterval(entries: map<string, QueryValue>): (r: real)
    ensures "poll" in entries && entries["poll"].NumVal? ==> r == entries["poll"].x
    ensures !("poll" in entries && entries["poll"].NumVal?) ==> r != 0.0 && r == r.Floor as real
    ensures "poll" !in entries ==> r == DefaultPolling
  {
    if "poll" in entries && entries["poll"].NumVal? then entries["poll"].x
    else
      var n := JsParseInt(PollText(entries));
      if n.None? || n.value == 0 then DefaultPolling else n.value as real
  }

  /**
   * `String(pollVal ?? '')` for a `poll` entry that is not a number: a text
   * entry as it is; a missing or boolean entry gives text in which
   * `parseInt` finds no number.
   */
  function PollText(entries: map<string, QueryValue>): (text: string)
    ensures "poll" in entries && entries["poll"].StrVal? ==> text == entries["poll"].s
    ensures "poll" !in entries ==> JsParseInt(text).None?
    ensures "poll" in entries && entries["poll"].BoolVal? ==> JsParseInt(text).None?
  {
    if "poll" !in entries then ""
    else match entries["poll"]
      case BoolVal(b) =>
        var t := if b then "true" else "false";
        assert TrimStart(t) == t && DigitPrefix(t) == [];
        t
      case StrVal(s) => s
      case NumVal(_) => ""
  }

  /** A boolean poll entry has no digits, so the interval falls back to 200. */
  lemma {:induction false} PollBooleanFallsBack(entries: map<string, QueryValue>)
    requires "poll" in entries && entries["poll"].BoolVal?
    ensures PollingInterval(entries) == DefaultPolling
  {
    var t := PollText(entries);
    assert TrimStart(t) == t;
    assert DigitPrefix(t) == [];
  }

  /** A poll text that starts with a non-zero integer, such as " 42" or "42ms", polls at that integer. */
  lemma {:induction false} PollFromTextPrefix(entries: map<string, QueryValue>, n: int, t: string)
    requires n != 0 && (|t| == 0 || !IsDigit(t[0]))
    requires "poll" in entries && entries["poll"] == StrVal(IntStr(n) + t)
    ensures PollingInterval(entries) == n as real
  {
    ParseIntReadsIntStr(n, t);
  }

  /** From 10^21 in magnitude `String(x)` switches to exponent form ("1e+21"). */
  const ExponentFrom: real := 1000000000000000000000.0

  /** Whether `String(x)` prints `x` as plain integer digits. */
  predicate PrintsAsDigits(x: real) {
    x == x.Floor as real && -ExponentFrom < x < ExponentFrom
  }

  /**
   * The text of a JavaScript number: integers below 10^21 in magnitude print
   * their digits; every other value, including the exponent form of larger
   * integers, comes from `numberText`.
   */
  function NumberText(x: real, numberText: real -> string): (s: string)
    ensures PrintsAsDigits(x) ==> s == IntStr(x.Floor)
    ensures !PrintsAsDigits(x) ==> s == numberText(x)
  {
    if PrintsAsDigits(x) then IntStr(x.Floor) else numberText(x)
  }

  /** `String(entries['host'] ?? coreIpAddress)`. */
  function Host(entries: map<string, QueryValue>, numberText: real -> string): (h: string)
    ensures "host" !in entries ==> h == CoreIpAddress
    ensures "host" in entries && entries["host"].StrVal? ==> h == entries["host"].s
    ensures "host" in entries && entries["host"].BoolVal? ==> h == (if entries["host"].b then "true" else "false")
  {
    if "host" !in entries then CoreIpAddress
    else match entries["host"]
      case StrVal(s) => s
      case BoolVal(b) => if b then "true" else "false"
      case NumVal(x) => NumberText(x, numberText)
  }

  /** A host text that is not a number or boolean reaches `connect` exactly as written in the URL. */
  lemma {:induction false} HostTextVerbatim(ps: seq<Param>, key: string, v: string, numberText: real -> string)
    requires Lower(key) == "host" && ParseValue(v).StrVal?
    ensures Host(GetQueryParameters(Some(ps + [(key, v)])), numberText) == v
  {
    LastParameterWins(ps + [(key, v)], |ps|);
  }

  /** An integer host text in canonical form below 10^21 in magnitude comes back as the same text. */
  lemma {:induction false} HostIntegerVerbatim(ps: seq<Param>, key: string, i: int, numberText: real -> string)
    requires Lower(key) == "host"
    requires -ExponentFrom < i as real < ExponentFrom
    ensures Host(GetQueryParameters(Some(ps + [(key, IntStr(i))])), numberText) == IntStr(i)
  {
    HostEntry(ps, key, IntStr(i));
    ParseIntText(i);
    IntegerPrintsDigits(i, numberText);
  }

  /** A last `host` parameter decides the host entry. */
  lemma HostEntry(ps: seq<Param>, key: string, v: string)
    requires Lower(key) == "host"
    ensures var entries := GetQueryParameters(Some(ps + [(key, v)]));
      "host" in entries && entries["host"] == ParseValue(v)
  {
    LastParameterWins(ps + [(key, v)], |ps|);
  }

  /** An integer below 10^21 in magnitude prints as its own digits. */
  lemma IntegerPrintsDigits(i: int, numberText: real -> string)
    requires -ExponentFrom < i as real < ExponentFrom
    ensures NumberText(i as real, numberText) == IntStr(i)
  {
    assert (i as real).Floor == i;
  }

  /** A longer integer host is printed by `String()` in exponent form, not as the digits written. */
  lemma {:induction false} HostLargeIntegerReprinted(ps: seq<Param>, key: string, i: int, numberText: real -> string)
    requires Lower(key) == "host"
    requires i as real <= -ExponentFrom || ExponentFrom <= i as real
    ensures Host(GetQueryParameters(Some(ps + [(key, IntStr(i))])), numberText) == numberText(i as real)
  {
    LastParameterWins(ps + [(key, IntStr(i))], |ps|);
    ParseIntText(i);
  }

  /** `ngOnInit`: connect with the host and polling interval taken from the URL. */
  function Startup(s: Connection.State, window: Option<seq<Param>>, numberText: real -> string)
    : (r: (Connection.State, Connection.ConnectResult))
    ensures Connection.Valid(s) ==> Connection.Valid(r.0)
    ensures s.conn.None? && s.inFlight.None? ==>
      r.0.lastAddress == Some(Host(GetQueryParameters(window), numberText))
      && r.0.lastPolling == Some(PollingInterval(GetQueryParameters(window)))
  {
    var entries := GetQueryParameters(window);
    Connection.Connect(s, Host(entries, numberText), PollingInterval(entries))
  }

  /** Without a window the app connects to the built-in address, polling every 200 ms. */
  lemma StartupWithoutWindow(s: Connection.State, numberText: real -> string)
    ensures Startup(s, None, numberText) == Connection.Connect(s, CoreIpAddress, DefaultPolling)
  {
  }
}

=== FILE: audio_player.dfy ===
/**
 * The audio player panel: the `HH:MM:SS` text of the playback position and
 * the level and mute controls it forwards to the player component.
 */
module AudioPlayer {
  import opened Base
  import opened Control
  import opened Binding

  /** The three player bindings the panel uses: `gain` (0), `mute` (false), `progress` (0). */
  datatype Player = Player(gain: Binding, mute: Binding, progress: Binding)

  /**
   * The panel's bindings to the player component: three different controls
   * of that component, none connected yet, each with its default.
   */
  function Create(component: string): (p: Player)
    ensures p.gain.addr.component == component && p.mute.addr.component == component
    ensures p.progress.addr.component == component
    ensures p.gain.addr != p.mute.addr && p.mute.addr != p.progress.addr && p.progress.addr != p.gain.addr
    ensures !Connected(p.gain) && !Connected(p.mute) && !Connected(p.progress)
    ensures p.gain.default == NumValue(0.0) && p.mute.default == BoolValue(false) && p.progress.default == NumValue(0.0)
  {
    assert "gain"[0] != "mute"[0] && "mute"[0] != "progress"[0] && "progress"[0] != "gain"[0];
    Player(New(Address(component, "gain"), NumValue(0.0), false),
           New(Address(component, "mute"), BoolValue(false), false),
           New(Address(component, "progress"), NumValue(0.0), false))
  }

  /** JavaScript's `%` on integers: the remainder takes the sign of the dividend. */
  function JsRem(a: int, b: int): (r: int)
    requires b > 0
    ensures a >= 0 ==> 0 <= r < b
    ensures a < 0 ==> -b < r <= 0
  {
    if a >= 0 then a % b else -((-a) % b)
  }

  /** Unlike Dafny's `%`, the JavaScript remainder is odd in the dividend. */
  lemma {:induction false} JsRemOdd(a: int, b: int)
    requires b > 0
    ensures JsRem(-a, b) == -JsRem(a, b)
  {
  }

  datatype Clock = Clock(hours: int, minutes: int, seconds: int)

  /**
   * The three fields of the position: whole seconds by `Math.floor`, hours
   * by `Math.floor(t / 3600)`, minutes from `t % 3600`, seconds `t % 60`.
   */
  function Fields(position: real): Clock {
    var t := position.Floor;
    Clock(t / 3600, JsRem(t, 3600) / 60, JsRem(t, 60))
  }

  /** `toString().padStart(2, '0')` of one field. */
  function Field(n: int): string {
    Pad2(IntStr(n))
  }

  /**
   * `progress`: the fields joined by ':'. Below 100 hours the text is
   * exactly `HH:MM:SS` and reads back as the whole seconds of the position.
   */
  function Progress(position: real): (text: string)
    ensures 0.0 <= position < 360000.0 ==> |text| == 8 && ReadClock(text) == Some(position.Floor)
  {
    var c := Fields(position);
    if 0.0 <= position < 360000.0 then
      FieldsDecompose(position);
      ReadClockOfFields(c.hours, c.minutes, c.seconds);
      Field(c.hours) + ":" + Field(c.minutes) + ":" + Field(c.seconds)
    else
      Field(c.hours) + ":" + Field(c.minutes) + ":" + Field(c.seconds)
  }

  /** For a non-negative position the fields are a base-60 split of the whole seconds. */
  lemma {:induction false} FieldsDecompose(position: real)
    requires position >= 0.0
    ensures var c := Fields(position);
      && c.hours >= 0 && 0 <= c.minutes < 60 && 0 <= c.seconds < 60
      && c.hours * 3600 + c.minutes * 60 + c.seconds == position.Floor
  {
    var t := position.Floor;
    var h, a := t / 3600, t % 3600;
    var m, s := a / 60, a % 60;
    assert t == 3600 * h + a;
    assert a == 60 * m + s;
    RemainderOfSum(60 * h + m, s, t);
  }

  /** `60·q + s` with `0 <= s < 60` leaves remainder `s`. */
  lemma {:induction false} RemainderOfSum(q: int, s: int, t: int)
    requires 0 <= s < 60 && t == 60 * q + s
    ensures t % 60 == s
  {
  }

  /** Fractions of a second are dropped, never rounded up. */
  lemma {:induction false} FractionTruncated()
    ensures Fields(59.9) == Clock(0, 0, 59)
    ensures Progress(59.9) == "00:00:59"
  {
    assert (59.9).Floor == 59;
    assert NatStr(59) == NatStr(5) + [DigitChar(9)];
  }

  /** A field below 100 is written with exactly two digits. */
  lemma {:induction false} FieldTwoDigits(n: int)
    requires 0 <= n < 100
    ensures |Field(n)| == 2 && AllDigits(Field(n))
    ensures DigitsValue(Field(n)) == n
  {
    NatStrRoundTrip(n);
    if n < 10 {
      LeadingZeroValue(NatStr(n));
      assert Field(n) == "0" + NatStr(n);
    } else {
      assert NatStr(n) == NatStr(n / 10) + [DigitChar(n % 10)];
    }
  }

  /**
   * Reads `HH:MM:SS` text back into whole seconds: eight characters, digit
   * pairs separated by ':'.
   */
  function ReadClock(s: string): (r: Option<int>)
    ensures r.Some? ==> |s| == 8 && s[2] == ':' && s[5] == ':'
  {
    if |s| == 8 && s[2] == ':' && s[5] == ':' && AllDigits(s[0..2]) && AllDigits(s[3..5]) && AllDigits(s[6..8])
    then Some(DigitsValue(s[0..2]) * 3600 + DigitsValue(s[3..5]) * 60 + DigitsValue(s[6..8]))
    else None
  }

  /**
   * Below 100 hours the text is exactly `HH:MM:SS` and reads back as the
   * whole seconds of the position.
   */
  lemma {:induction false} ProgressRoundTrip(position: real)
    requires 0.0 <= position < 360000.0
    ensures |Progress(position)| == 8
    ensures ReadClock(Progress(position)) == Some(position.Floor)
  {
    FieldsDecompose(position);
    var c := Fields(position);
    ReadClockOfFields(c.hours, c.minutes, c.seconds);
  }

  /** Fields within their ranges are read back as the seconds they denote. */
  lemma {:induction false} ReadClockOfFields(h: int, m: int, s: int)
    requires 0 <= h < 100 && 0 <= m < 60 && 0 <= s < 60
    ensures var text := Field(h) + ":" + Field(m) + ":" + Field(s);
      |text| == 8 && ReadClock(text) == Some(h * 3600 + m * 60 + s)
  {
    FieldTwoDigits(h);
    FieldTwoDigits(m);
    FieldTwoDigits(s);
    ReadClockOfJoin(Field(h), Field(m), Field(s), h, m, s);
  }

  /** Three digit pairs joined by ':' read back as hours, minutes and seconds. */
  lemma {:induction false} ReadClockOfJoin(a: string, b: string, c: string, h: int, m: int, s: int)
    requires |a| == 2 && |b| == 2 && |c| == 2
    requires AllDigits(a) && AllDigits(b) && AllDigits(c)
    requires DigitsValue(a) == h && DigitsValue(b) == m && DigitsValue(c) == s
    ensures var text := a + ":" + b + ":" + c;
      |text| == 8 && ReadClock(text) == Some(h * 3600 + m * 60 + s)
  {
    var text := a + ":" + b + ":" + c;
    assert text[0..2] == a;
    assert text[3..5] == b;
    assert text[6..8] == c;
  }

  function OnLevelChange(p: Player, value: real): (m: Mutation)
    ensures m.writes == [] <==> !Connected(p.gain)
    ensures Connected(p.gain) ==> m.writes == [Write(p.gain.addr, Num(value))]
  {
    SetValue(p.gain, Num(value))
  }

  /** `toggleMute()`: the player's `MuteToggle`, the negation of the mute flag. */
  function ToggleMute(p: Player): (m: Mutation)
    ensures m.writes == [] <==> !Connected(p.mute)
    ensures Connected(p.mute) ==> m.writes == [Write(p.mute.addr, Flag(!BoolView(p.mute)))]
  {
    Toggle(p.mute)
  }

  /** The level and mute controls of a created player are different controls. */
  lemma {:induction false} CreatedControlsDistinct(component: string)
    ensures Create(component).gain.addr != Create(component).mute.addr
    ensures Create(component).progress.addr != Create(component).gain.addr
  {
    assert "gain"[0] != "mute"[0];
    assert "progress"[0] != "gain"[0];
  }
}

=== FILE: base.dfy ===
/**
 * Small shared vocabulary: an optional value, decimal text of integers
 * (the `toString()` of a JavaScript integer-valued number), and ASCII
 * letter-case folding.
 */
module Base {

  /** A value that may be absent (`undefined` / `null` in the source). */
  datatype Option<+T> = None | Some(value: T) {
    function GetOr(default: T): T {
      match this
      case Some(v) => v
      case None => default
    }
  }

  predicate IsDigit(c: char) {
    '0' <= c <= '9'
  }

  predicate AllDigits(s: string) {
    forall i :: 0 <= i < |s| ==> IsDigit(s[i])
  }

  function DigitChar(d: nat): (c: char)
    requires d < 10
    ensures IsDigit(c)
  {
    ['0', '1', '2', '3', '4', '5', '6', '7', '8', '9'][d]
  }

  function DigitValue(c: char): (d: nat)
    requires IsDigit(c)
    ensures d < 10
  {
    (c as int - '0' as int) as nat
  }

  lemma DigitRoundTrip(d: nat)
    requires d < 10
    ensures DigitValue(DigitChar(d)) == d
  {
  }

  /** Decimal text of a natural number, most significant digit first, no leading zeros. */
  function NatStr(n: nat): (s: string)
    ensures |s| >= 1
    ensures AllDigits(s)
    ensures n >= 10 <==> |s| >= 2
    decreases n
  {
    if n < 10 then [DigitChar(n)] else NatStr(n / 10) + [DigitChar(n % 10)]
  }

  /** Decimal text of an integer: a '-' before the digits of a negative number. */
  function IntStr(i: int): (s: string)
    ensures |s| >= 1
    ensures i >= 0 ==> s == NatStr(i)
    ensures i < 0 ==> s == "-" + NatStr(-i)
  {
    if i < 0 then "-" + NatStr(-i) else NatStr(i)
  }

  /** The number a string of decimal digits denotes. */
  function DigitsValue(s: string): nat
    requires AllDigits(s)
    decreases |s|
  {
    if |s| == 0 then 0 else DigitsValue(s[..|s| - 1]) * 10 + DigitValue(s[|s| - 1])
  }

  /** `DigitsValue` reads back what `NatStr` writes. */
  lemma {:induction false} NatStrRoundTrip(n: nat)
    ensures DigitsValue(NatStr(n)) == n
    decreases n
  {
    var s := NatStr(n);
    if n < 10 {
      DigitRoundTrip(n);
    } else {
      NatStrRoundTrip(n / 10);
      assert s[..|s| - 1] == NatStr(n / 10);
      DigitRoundTrip(n % 10);
    }
  }

  /** Different numbers have different decimal texts. */
  lemma NatStrInjective(m: nat, n: nat)
    requires NatStr(m) == NatStr(n)
    ensures m == n
  {
    NatStrRoundTrip(m);
    NatStrRoundTrip(n);
  }

  /** A common prefix can be cancelled. */
  lemma PrefixCancel(p: string, s: string, t: string)
    requires p + s == p + t
    ensures s == t
  {
    assert s == (p + s)[|p|..];
    assert t == (p + t)[|p|..];
  }

  /** Leading zeros do not change the value of a digit string. */
  lemma {:induction false} LeadingZeroValue(s: string)
    requires AllDigits(s)
    ensures AllDigits("0" + s)
    ensures DigitsValue("0" + s) == DigitsValue(s)
    decreases |s|
  {
    var t := "0" + s;
    assert AllDigits(t) by {
      forall i | 0 <= i < |t| ensures IsDigit(t[i]) {
        if i > 0 { assert t[i] == s[i - 1]; }
      }
    }
    if |s| > 0 {
      var p := s[..|s| - 1];
      LeadingZeroValue(p);
      assert t[..|t| - 1] == "0" + p;
    }
  }

  /** `padStart(2, '0')`: one leading zero in front of a one-character text. */
  function Pad2(s: string): (r: string)
    ensures |s| >= 2 ==> r == s
    ensures |s| < 2 ==> |r| == 2 && r[0] == '0'
    ensures |r| >= |s|
  {
    if |s| < 2 then seq(2 - |s|, _ => '0') + s else s
  }

  /** Case folding of the ASCII letters; every other character is kept. */
  function LowerChar(c: char): (r: char)
    ensures 'A' <= c <= 'Z' ==> 'a' <= r <= 'z'
    ensures !('A' <= c <= 'Z') ==> r == c
  {
    if 'A' <= c <= 'Z' then (c as int - 'A' as int + 'a' as int) as char else c
  }

  function Lower(s: string): (r: string)
    ensures |r| == |s|
    ensures forall i :: 0 <= i < |s| ==> r[i] == LowerChar(s[i])
  {
    seq(|s|, i requires 0 <= i < |s| => LowerChar(s[i]))
  }

  function Min(a: real, b: real): real {
    if a <= b then a else b
  }

  function Max(a: real, b: real): real {
    if a >= b then a else b
  }

  // ----- order facts for real products and quotients -----

  lemma DivideMonotone(a: real, b: real, c: real)
    requires a <= b && c > 0.0
    ensures a / c <= b / c
  {
    assert b / c - a / c == (b - a) / c;
  }

  lemma DivideStrict(a: real, b: real, c: real)
    requires a < b && c > 0.0
    ensures a / c < b / c
  {
    assert b / c - a / c == (b - a) / c;
  }

  lemma DivideSelf(d: real)
    requires d > 0.0
    ensures d / d == 1.0
  {
  }

  /** A fraction in [0, 1] of a non-negative amount is at most that amount. */
  lemma MulBetween(a: real, d: real)
    requires 0.0 <= a <= 1.0 && d >= 0.0
    ensures 0.0 <= a * d <= d
  {
    assert d - a * d == (1.0 - a) * d;
  }

  lemma MulMonotone(x: real, y: real, c: real)
    requires x <= y && c > 0.0
    ensures x * c <= y * c
  {
    assert y * c - x * c == (y - x) * c;
  }

  lemma MulStrict(x: real, y: real, c: real)
    requires x < y && c > 0.0
    ensures x * c < y * c
  {
    assert y * c - x * c == (y - x) * c;
  }
}

=== FILE: binding.dfy ===
/**
 * The control-binding engine: `bindControl(component, control, default, useLog)`
 * as an explicit record. The record holds the bound control, its state
 * snapshot, the cleanup the source keeps in `cleanupFn`, and the log of
 * listener installs and removals the binding has made on the transport.
 */
module Binding {
  import opened Base
  import opened Control

  /** The primary value of a binding; its shape is fixed by the default value. */
  datatype Primary = BoolValue(b: bool) | TextValue(s: string) | ListValue(xs: seq<real>) | NumValue(x: real)

  datatype Shape = BoolShape | TextShape | ListShape | NumShape

  function ShapeOf(p: Primary): Shape {
    match p
    case BoolValue(_) => BoolShape
    case TextValue(_) => TextShape
    case ListValue(_) => ListShape
    case NumValue(_) => NumShape
  }

  /** One `updateHandler` closure, installed on the control with identity `control`. */
  datatype Handler = Handler(id: nat, control: nat)

  datatype ListenerEvent = Install(h: Handler) | Release(h: Handler)

  /** The handlers still registered after replaying `events` in order. */
  function Active(events: seq<ListenerEvent>): set<Handler>
    decreases |events|
  {
    if |events| == 0 then {}
    else
      var before := Active(events[..|events| - 1]);
      match events[|events| - 1]
      case Install(h) => before + {h}
      case Release(h) => before - {h}
  }

  /** Replaying one more event adds or removes exactly its handler. */
  lemma ActiveAppend(events: seq<ListenerEvent>, e: ListenerEvent)
    ensures e.Install? ==> Active(events + [e]) == Active(events) + {e.h}
    ensures e.Release? ==> Active(events + [e]) == Active(events) - {e.h}
  {
    assert (events + [e])[..|events|] == events;
  }

  function HandlerSet(h: Option<Handler>): set<Handler> {
    if h.Some? then {h.value} else {}
  }

  datatype Binding = Binding(
    addr: Address,
    default: Primary,
    useLog: bool,
    control: Option<RemoteControl>,
    state: Option<ControlState>,
    cleanup: Option<Handler>,
    nextHandler: nat,
    events: seq<ListenerEvent>)

  /**
   * What every reachable binding satisfies: control and state are set
   * together, at most the handler the cleanup would remove is registered,
   * and that handler listens to the bound control.
   */
  predicate Valid(b: Binding) {
    && (b.control.None? <==> b.state.None?)
    && Active(b.events) <= HandlerSet(b.cleanup)
    && (forall h :: h in Active(b.events) ==> b.control.Some? && h.control == b.control.value.id)
    && (b.cleanup.Some? ==> b.cleanup.value.id < b.nextHandler)
  }

  /** A binding as `bindControl` creates it, before its effect has run. */
  function New(addr: Address, default: Primary, useLog: bool): (b: Binding)
    ensures Valid(b)
    ensures b.addr == addr && b.default == default && b.useLog == useLog
    ensures !Connected(b) && Active(b.events) == {}
  {
    Binding(addr, default, useLog, None, None, None, 0, [])
  }

  /** The binding effect, run whenever the component directory signal changes. */
  function Rebind(b: Binding, dir: Directory): (r: Binding)
    ensures r.addr == b.addr && r.default == b.default && r.useLog == b.useLog
    ensures Valid(b) ==> Valid(r)
    ensures Connected(r) <==> Lookup(dir, b.addr).Some?
    ensures Lookup(dir, b.addr).None? ==> r.state.None? && (Valid(b) ==> Active(r.events) == {})
    ensures Lookup(dir, b.addr).Some? ==>
      && r.control == Lookup(dir, b.addr)
      && r.state == Some(Lookup(dir, b.addr).value.state)
      && (Valid(b) ==> Active(r.events) == {Handler(b.nextHandler, Lookup(dir, b.addr).value.id)})
  {
    var released := if b.cleanup.Some? then b.events + [Release(b.cleanup.value)] else b.events;
    assert Active(released) == Active(b.events) - HandlerSet(b.cleanup) by {
      if b.cleanup.Some? {
        ActiveAppend(b.events, Release(b.cleanup.value));
      }
    }
    match Lookup(dir, b.addr)
    case None =>
      b.(control := None, state := None, cleanup := None, events := released)
    case Some(c) =>
      var h := Handler(b.nextHandler, c.id);
      ActiveAppend(released, Install(h));
      b.(control := Some(c), state := Some(c.state), cleanup := Some(h),
         nextHandler := b.nextHandler + 1, events := released + [Install(h)])
  }

  /** The events one rebind appends: the old handler's removal first, then at most one install. */
  lemma RebindReleasesBeforeInstall(b: Binding, dir: Directory)
    ensures var r := Rebind(b, dir);
      && |b.events| <= |r.events| <= |b.events| + 2
      && r.events[..|b.events|] == b.events
      && (forall k :: |b.events| <= k < |r.events| && r.events[k].Release? ==>
            Some(r.events[k].h) == b.cleanup)
      && (forall k :: |b.events| <= k < |r.events| && r.events[k].Install? ==>
            k == |r.events| - 1 && r.events[k].h.id == b.nextHandler)
      && (b.cleanup.Some? ==> r.events[|b.events|] == Release(b.cleanup.value))
  {
  }

  /** A transport update event for the control with identity `controlId`. */
  function OnUpdate(b: Binding, controlId: nat, newState: ControlState): (r: Binding)
    requires Valid(b)
    ensures Valid(r)
    ensures r.control == b.control && r.events == b.events
    ensures (exists h :: h in Active(b.events) && h.control == controlId) ==> r.state == Some(newState)
    ensures !(exists h :: h in Active(b.events) && h.control == controlId) ==> r == b
  {
    if exists h :: h in Active(b.events) && h.control == controlId then b.(state := Some(newState)) else b
  }

  /** `destroy()`: runs the stored cleanup; the source never clears `cleanupFn`. */
  function Destroy(b: Binding): (r: Binding)
    requires Valid(b)
    ensures Valid(r)
    ensures Active(r.events) == {}
    ensures r.control == b.control && r.state == b.state && r.cleanup == b.cleanup
  {
    if b.cleanup.Some? then
      ActiveAppend(b.events, Release(b.cleanup.value));
      b.(events := b.events + [Release(b.cleanup.value)])
    else b
  }

  // ----- derived views -----

  predicate Connected(b: Binding) {
    b.control.Some?
  }

  function ValueView(b: Binding): real {
    if b.state.Some? then b.state.value.Value else 0.0
  }

  function PositionView(b: Binding): real {
    if b.state.Some? then b.state.value.Position else 0.0
  }

  function StringView(b: Binding): string {
    if b.state.Some? then b.state.value.String else ""
  }

  function LegendView(b: Binding): string {
    if b.state.Some? then b.state.value.Legend else ""
  }

  function BoolView(b: Binding): bool {
    if b.state.Some? then b.state.value.Bool else false
  }

  function MinView(b: Binding): real {
    if b.state.Some? then b.state.value.ValueMin.GetOr(0.0) else 0.0
  }

  function MaxView(b: Binding): real {
    if b.state.Some? then b.state.value.ValueMax.GetOr(1.0) else 1.0
  }

  function ValuesView(b: Binding): seq<real> {
    if b.state.Some? then b.state.value.Values.GetOr([]) else []
  }

  /** The callable binding itself: the default while there is no state, else the field the default's type selects. */
  function PrimaryView(b: Binding): (r: Primary)
    ensures ShapeOf(r) == ShapeOf(b.default)
    ensures b.state.None? ==> r == b.default
    ensures b.state.Some? && b.default.BoolValue? ==> r == BoolValue(BoolView(b))
    ensures b.state.Some? && b.default.TextValue? ==> r == TextValue(StringView(b))
    ensures b.state.Some? && b.default.ListValue? ==> r == ListValue(ValuesView(b))
    ensures b.state.Some? && b.default.NumValue? ==> r == NumValue(ValueView(b))
  {
    match b.state
    case None => b.default
    case Some(s) =>
      match b.default
      case BoolValue(_) => BoolValue(s.Bool)
      case TextValue(_) => TextValue(s.String)
      case ListValue(_) => ListValue(s.Values.GetOr([]))
      case NumValue(_) => NumValue(s.Value)
  }

  /** With no state every view shows its fixed fallback. */
  lemma UnboundFallbacks(b: Binding)
    requires Valid(b) && !Connected(b)
    ensures PrimaryView(b) == b.default
    ensures ValueView(b) == 0.0 && PositionView(b) == 0.0
    ensures StringView(b) == "" && LegendView(b) == ""
    ensures BoolView(b) == false
    ensures MinView(b) == 0.0 && MaxView(b) == 1.0
    ensures ValuesView(b) == []
  {
  }

  // ----- mutators -----

  datatype Diagnostic = NotConnected | PositionOutOfRange | MissingRange

  /** The writes a mutator sends and the diagnostic it logs instead of writing. */
  datatype Mutation = Mutation(writes: seq<Write>, diagnostic: Option<Diagnostic>)

  /** `setValue(v)`: one write to the bound control, or a warning when unbound. */
  function SetValue(b: Binding, v: WriteValue): (m: Mutation)
    ensures m.writes == [] <==> !Connected(b)
    ensures m.writes != [] ==> m.writes == [Write(b.addr, v)] && m.diagnostic.None?
    ensures m.writes == [] ==> m.diagnostic == Some(NotConnected)
  {
    if b.control.None? then Mutation([], Some(NotConnected)) else Mutation([Write(b.addr, v)], None)
  }

  /** Linear position mapping `min + p·(max − min)`. */
  function LinearValue(lo: real, hi: real, p: real): (v: real)
    ensures p == 0.0 ==> v == lo
    ensures p == 1.0 ==> v == hi
    ensures 0.0 <= p <= 1.0 && lo <= hi ==> lo <= v <= hi
    ensures 0.0 <= p <= 1.0 && hi <= lo ==> hi <= v <= lo
  {
    var v := lo + p * (hi - lo);
    LinearBetween(lo, hi, p, v);
    v
  }

  lemma LinearBetween(lo: real, hi: real, p: real, v: real)
    requires v == lo + p * (hi - lo)
    ensures 0.0 <= p <= 1.0 && lo <= hi ==> lo <= v <= hi
    ensures 0.0 <= p <= 1.0 && hi <= lo ==> hi <= v <= lo
  {
    if 0.0 <= p <= 1.0 {
      if lo <= hi {
        MulNonneg(p, hi - lo);
        MulNonneg(1.0 - p, hi - lo);
      } else {
        MulNonneg(p, lo - hi);
        MulNonneg(1.0 - p, lo - hi);
      }
    }
  }

  /** The linear mapping hits both ends and stays between them. */
  lemma LinearValueBounds(lo: real, hi: real, p: real)
    requires 0.0 <= p <= 1.0
    ensures LinearValue(lo, hi, 0.0) == lo
    ensures LinearValue(lo, hi, 1.0) == hi
    ensures lo <= hi ==> lo <= LinearValue(lo, hi, p) <= hi
    ensures hi <= lo ==> hi <= LinearValue(lo, hi, p) <= lo
  {
  }

  lemma MulNonneg(a: real, b: real)
    requires a >= 0.0 && b >= 0.0
    ensures a * b >= 0.0
  {
  }

  /** Reading the position back off the written value gives the position written. */
  lemma LinearValueInverse(lo: real, hi: real, p: real)
    requires lo != hi
    ensures (LinearValue(lo, hi, p) - lo) / (hi - lo) == p
  {
    assert LinearValue(lo, hi, p) - lo == p * (hi - lo);
  }

  /** The control's state is known and carries both `ValueMin` and `ValueMax`. */
  predicate HasRange(b: Binding) {
    b.state.Some? && b.state.value.ValueMin.Some? && b.state.value.ValueMax.Some?
  }

  /** The value position `p` maps to on a control with a range: logarithmic or linear as configured. */
  function PositionValue(b: Binding, p: real, logScale: (real, real, real) -> real): real
    requires HasRange(b)
  {
    var lo := b.state.value.ValueMin.value;
    var hi := b.state.value.ValueMax.value;
    if b.useLog then logScale(lo, hi, p) else LinearValue(lo, hi, p)
  }

  /**
   * `setPosition(p)`: the guards in the source's order, then the linear
   * mapping, or `logScale(min, max, p)` standing for `min·(max/min)^p`.
   */
  function SetPosition(b: Binding, p: real, logScale: (real, real, real) -> real): (m: Mutation)
    ensures !Connected(b) ==> m == Mutation([], Some(NotConnected))
    ensures b.state.None? ==> m == Mutation([], Some(NotConnected))
    ensures Connected(b) && b.state.Some? && (p < 0.0 || p > 1.0) ==> m == Mutation([], Some(PositionOutOfRange))
    ensures Connected(b) && b.state.Some? && 0.0 <= p <= 1.0 && !HasRange(b) ==> m == Mutation([], Some(MissingRange))
    ensures Connected(b) && HasRange(b) && 0.0 <= p <= 1.0 ==>
      var lo := b.state.value.ValueMin.value;
      var hi := b.state.value.ValueMax.value;
      m == Mutation([Write(b.addr, Num(if b.useLog then logScale(lo, hi, p) else LinearValue(lo, hi, p)))], None)
    ensures m.writes == [] <==> m.diagnostic.Some?
    ensures m.writes != [] ==>
      && Connected(b) && b.state.Some? && 0.0 <= p <= 1.0
      && b.state.value.ValueMin.Some? && b.state.value.ValueMax.Some?
      && |m.writes| == 1 && m.writes[0].target == b.addr && m.writes[0].value.Num?
      && var lo := b.state.value.ValueMin.value;
         var hi := b.state.value.ValueMax.value;
         var v := m.writes[0].value.x;
         && (b.useLog ==> v == logScale(lo, hi, p))
         && (!b.useLog ==> (lo <= hi ==> lo <= v <= hi) && (p == 0.0 ==> v == lo) && (p == 1.0 ==> v == hi))
  {
    if b.control.None? || b.state.None? then Mutation([], Some(NotConnected))
    else if p < 0.0 || p > 1.0 then Mutation([], Some(PositionOutOfRange))
    else
      var s := b.state.value;
      if s.ValueMin.None? || s.ValueMax.None? then Mutation([], Some(MissingRange))
      else
        var lo := s.ValueMin.value;
        var hi := s.ValueMax.value;
        var v := if b.useLog then logScale(lo, hi, p) else LinearValue(lo, hi, p);
        Mutation([Write(b.addr, Num(v))], None)
  }

  /**
   * The linear mapping round-trips: on a connected control with a proper
   * range, the value `setPosition(p)` writes sits at fraction `p` of the
   * range, so reading the position back off it gives `p`.
   */
  lemma SetPositionReadsBack(b: Binding, p: real, logScale: (real, real, real) -> real)
    requires Connected(b) && b.state.Some? && !b.useLog && 0.0 <= p <= 1.0
    requires b.state.value.ValueMin.Some? && b.state.value.ValueMax.Some?
    requires b.state.value.ValueMin.value != b.state.value.ValueMax.value
    ensures var m := SetPosition(b, p, logScale);
      var lo := b.state.value.ValueMin.value;
      var hi := b.state.value.ValueMax.value;
      && m.diagnostic.None? && |m.writes| == 1 && m.writes[0].value.Num?
      && (m.writes[0].value.x - lo) / (hi - lo) == p
  {
    LinearValueInverse(b.state.value.ValueMin.value, b.state.value.ValueMax.value, p);
  }

  /** A connected control with range −100..20 reaches −40 at position 0.5. */
  lemma SetPositionHalfway(b: Binding, logScale: (real, real, real) -> real)
    requires Connected(b) && b.state.Some? && !b.useLog
    requires b.state.value.ValueMin == Some(-100.0) && b.state.value.ValueMax == Some(20.0)
    ensures SetPosition(b, 0.5, logScale).writes == [Write(b.addr, Num(-40.0))]
  {
  }

  /** `trigger()`: true now, false once the 100 ms release timer fires. */
  function Trigger(b: Binding): (m: Mutation)
    ensures !Connected(b) ==> m == Mutation([], Some(NotConnected))
    ensures Connected(b) ==> m == Mutation([Write(b.addr, Flag(true)), Write(b.addr, Flag(false))], None)
  {
    if b.control.None? then Mutation([], Some(NotConnected))
    else Mutation([Write(b.addr, Flag(true)), Write(b.addr, Flag(false))], None)
  }

  /** Writing the negation of the current boolean view: every `Toggle*` of the components. */
  function Toggle(b: Binding): (m: Mutation)
    ensures m.writes == [] <==> !Connected(b)
    ensures Connected(b) ==> m.writes == [Write(b.addr, Flag(!BoolView(b)))]
  {
    SetValue(b, Flag(!BoolView(b)))
  }

  /**
   * Once the control reports the toggled value back, toggling again writes
   * the original value: two toggles restore the control.
   */
  lemma ToggleTwiceRestores(b: Binding)
    requires Valid(b) && Connected(b) && b.cleanup.Some? && b.cleanup.value in Active(b.events)
    ensures var s := b.state.value;
            var echoed := OnUpdate(b, b.control.value.id, s.(Bool := !s.Bool));
            && Toggle(b).writes == [Write(b.addr, Flag(!s.Bool))]
            && Toggle(echoed).writes == [Write(b.addr, Flag(s.Bool))]
  {
    var h := b.cleanup.value;
    assert h in Active(b.events) && h.control == b.control.value.id;
  }

  /** Two `destroy()` calls remove nothing more than one does. */
  lemma DestroyTwice(b: Binding)
    requires Valid(b)
    ensures Active(Destroy(Destroy(b)).events) == Active(Destroy(b).events) == {}
    ensures Connected(Destroy(Destroy(b))) == Connected(b)
  {
  }
}

=== FILE: camera.dfy ===
/**
 * The PTZ camera component: eight direction controls named after the
 * direction strings, zoom, the home preset, two toggles, and the preview
 * text taken from the camera's JSON image data.
 */
module Camera {
  import opened Base
  import opened Control
  import opened Binding

  datatype Direction = Up | Down | Left | LeftUp | LeftDown | Right | RightUp | RightDown

  /** The string value of each direction, which is also its control name. */
  function DirectionName(d: Direction): string {
    match d
    case Up => "tilt.up"
    case Down => "tilt.down"
    case Left => "pan.left"
    case LeftUp => "pan.left.tilt.up"
    case LeftDown => "pan.left.tilt.down"
    case Right => "pan.right"
    case RightUp => "pan.right.tilt.up"
    case RightDown => "pan.right.tilt.down"
  }

  /** Reads a direction back from its control name. */
  function DirectionOfName(n: string): (d: Option<Direction>)
    ensures d.Some? ==> DirectionName(d.value) == n
  {
    if n == "tilt.up" then Some(Up)
    else if n == "tilt.down" then Some(Down)
    else if n == "pan.left" then Some(Left)
    else if n == "pan.left.tilt.up" then Some(LeftUp)
    else if n == "pan.left.tilt.down" then Some(LeftDown)
    else if n == "pan.right" then Some(Right)
    else if n == "pan.right.tilt.up" then Some(RightUp)
    else if n == "pan.right.tilt.down" then Some(RightDown)
    else None
  }

  /** The direction names are a bijection onto their strings. */
  lemma DirectionNameRoundTrip(d: Direction)
    ensures DirectionOfName(DirectionName(d)) == Some(d)
  {
  }

  lemma DirectionNamesDistinct(d1: Direction, d2: Direction)
    requires DirectionName(d1) == DirectionName(d2)
    ensures d1 == d2
  {
    DirectionNameRoundTrip(d1);
    DirectionNameRoundTrip(d2);
  }

  datatype Camera = Camera(
    jpegData: Binding, autoFrame: Binding, privacy: Binding, autoFocus: Binding,
    presetHomeLoad: Binding, zoomIn: Binding, zoomOut: Binding,
    panLeft: Binding, panRight: Binding, tiltUp: Binding, tiltDown: Binding,
    panLeftTiltUp: Binding, panLeftTiltDown: Binding, panRightTiltUp: Binding, panRightTiltDown: Binding)

  /** The `switch` of `move`: the binding each direction sets. */
  function DirectionBinding(c: Camera, d: Direction): Binding {
    match d
    case Left => c.panLeft
    case Right => c.panRight
    case Up => c.tiltUp
    case Down => c.tiltDown
    case LeftUp => c.panLeftTiltUp
    case LeftDown => c.panLeftTiltDown
    case RightUp => c.panRightTiltUp
    case RightDown => c.panRightTiltDown
  }

  function Flag0(component: string, control: string): Binding {
    New(Address(component, control), BoolValue(false), false)
  }

  function Create(component: string): (c: Camera)
    ensures c.jpegData == New(Address(component, "jpeg.data"), TextValue(""), false)
    ensures c.autoFrame == Flag0(component, "autoframe.enable")
    ensures c.privacy == Flag0(component, "toggle.privacy")
    ensures c.autoFocus == Flag0(component, "focus.auto")
    ensures c.presetHomeLoad == Flag0(component, "preset.home.load")
    ensures c.zoomIn == Flag0(component, "zoom.in") && c.zoomOut == Flag0(component, "zoom.out")
    ensures forall d :: DirectionBinding(c, d) == Flag0(component, DirectionName(d))
  {
    Camera(
      New(Address(component, "jpeg.data"), TextValue(""), false),
      Flag0(component, "autoframe.enable"),
      Flag0(component, "toggle.privacy"),
      Flag0(component, "focus.auto"),
      Flag0(component, "preset.home.load"),
      Flag0(component, "zoom.in"),
      Flag0(component, "zoom.out"),
      Flag0(component, DirectionName(Left)),
      Flag0(component, DirectionName(Right)),
      Flag0(component, DirectionName(Up)),
      Flag0(component, DirectionName(Down)),
      Flag0(component, DirectionName(LeftUp)),
      Flag0(component, DirectionName(LeftDown)),
      Flag0(component, DirectionName(RightUp)),
      Flag0(component, DirectionName(RightDown)))
  }

  /** `move(d, state)`: the switch sets exactly the binding of `d`. */
  function Move(c: Camera, d: Direction, state: bool): (m: Mutation)
    ensures Connected(DirectionBinding(c, d)) ==> m.writes == [Write(DirectionBinding(c, d).addr, Flag(state))]
    ensures !Connected(DirectionBinding(c, d)) ==> m.writes == []
  {
    SetValue(DirectionBinding(c, d), Flag(state))
  }

  /** On a constructed camera `move(d, s)` reaches the control named `d` and no other direction's control. */
  lemma MoveTargetsOnlyItsDirection(component: string, d: Direction, e: Direction, state: bool)
    requires d != e
    ensures var c := Create(component);
      && (forall w :: w in Move(c, d, state).writes ==> w == Write(Address(component, DirectionName(d)), Flag(state)))
      && (forall w :: w in Move(c, d, state).writes ==> w.target != DirectionBinding(c, e).addr)
  {
    var c := Create(component);
    if DirectionName(d) == DirectionName(e) {
      DirectionNamesDistinct(d, e);
    }
  }

  function ZoomIn(c: Camera, state: bool): (m: Mutation)
    ensures Connected(c.zoomIn) ==> m.writes == [Write(c.zoomIn.addr, Flag(state))]
    ensures !Connected(c.zoomIn) ==> m.writes == []
  {
    SetValue(c.zoomIn, Flag(state))
  }

  function ZoomOut(c: Camera, state: bool): (m: Mutation)
    ensures Connected(c.zoomOut) ==> m.writes == [Write(c.zoomOut.addr, Flag(state))]
    ensures !Connected(c.zoomOut) ==> m.writes == []
  {
    SetValue(c.zoomOut, Flag(state))
  }

  /** `home()`: a momentary pulse on `preset.home.load`. */
  function Home(c: Camera): (m: Mutation)
    ensures Connected(c.presetHomeLoad) ==>
      m.writes == [Write(c.presetHomeLoad.addr, Flag(true)), Write(c.presetHomeLoad.addr, Flag(false))]
    ensures !Connected(c.presetHomeLoad) ==> m.writes == []
  {
    Trigger(c.presetHomeLoad)
  }

  function ToggleAutoFraming(c: Camera): (m: Mutation)
    ensures Connected(c.autoFrame) ==> m.writes == [Write(c.autoFrame.addr, Flag(!BoolView(c.autoFrame)))]
    ensures !Connected(c.autoFrame) ==> m.writes == []
  {
    Toggle(c.autoFrame)
  }

  function TogglePrivacy(c: Camera): (m: Mutation)
    ensures Connected(c.privacy) ==> m.writes == [Write(c.privacy.addr, Flag(!BoolView(c.privacy)))]
    ensures !Connected(c.privacy) ==> m.writes == []
  {
    Toggle(c.privacy)
  }

  /**
   * What `JSON.parse(data).IconData` yields: a parse failure, or a parsed
   * object whose `IconData` may be missing.
   */
  datatype Parsed = Unparsable | Parsed(iconData: Option<string>)

  /**
   * `preview`: no JSON is parsed for empty data; a parse failure gives '';
   * otherwise the `IconData` field, possibly `undefined` (None).
   */
  function Preview(c: Camera, parse: string -> Parsed): (p: Option<string>)
    ensures StringView(c.jpegData) == "" ==> p == Some("")
    ensures StringView(c.jpegData) != "" && parse(StringView(c.jpegData)).Unparsable? ==> p == Some("")
    ensures StringView(c.jpegData) != "" && parse(StringView(c.jpegData)).Parsed? ==>
      p == parse(StringView(c.jpegData)).iconData
  {
    var data := StringView(c.jpegData);
    if data == "" then Some("")
    else match parse(data)
      case Unparsable => Some("")
      case Parsed(icon) => icon
  }

  /** Before the first directory arrives the preview is empty, whatever the parser. */
  lemma UnboundPreviewIsEmpty(component: string, parse: string -> Parsed)
    ensures Preview(Create(component), parse) == Some("")
  {
  }
}

=== FILE: camera_controller.dfy ===
/**
 * The camera controller's preset buttons: a short press recalls a preset,
 * holding it for 2.5 s saves it. Each preset keeps at most one pending
 * hold timer; timer expiry is an explicit event.
 */
module CameraController {
  import opened Base
  import opened Control
  import opened Binding
  import Camera

  const PresetCount: int := 9
  const HoldDurationMs: nat := 2500

  /** What reaches the snapshot controller: `Save(n)` on expiry, `Load(n)` on a short press. */
  datatype Effect = Saved(preset: int) | Recalled(preset: int)

  /**
   * `pending` is `presetHoldTimers` (preset to timer id); `timers` are the
   * scheduled, not yet cleared timeouts (id to the preset they save);
   * `nextTimer` is the id the next `setTimeout` returns.
   */
  datatype Controller = Controller(
    pending: map<int, nat>,
    timers: map<nat, int>,
    nextTimer: nat,
    effects: seq<Effect>)

  predicate ValidPreset(n: int) {
    1 <= n <= PresetCount
  }

  /**
   * Pending entries and scheduled timers mirror each other, ids are
   * positive and below the next id, and only presets 1..9 have entries.
   */
  ghost predicate Valid(c: Controller) {
    && c.nextTimer >= 1
    && (forall n :: n in c.pending ==> ValidPreset(n) && c.pending[n] in c.timers && c.timers[c.pending[n]] == n)
    && (forall t :: t in c.timers ==> 1 <= t < c.nextTimer && c.timers[t] in c.pending && c.pending[c.timers[t]] == t)
  }

  function Init(): (c: Controller)
    ensures Valid(c) && c.pending == map[] && c.effects == []
  {
    Controller(map[], map[], 1, [])
  }

  /** `clearPresetTimer(n)`: a truthy stored id is cleared and the entry removed. */
  function ClearTimer(c: Controller, n: int): (r: Controller)
    requires Valid(c)
    ensures Valid(r)
    ensures n !in r.pending && r.effects == c.effects && r.nextTimer == c.nextTimer
    ensures forall m :: m != n ==> (m in r.pending <==> m in c.pending) && (m in r.pending ==> r.pending[m] == c.pending[m])
  {
    if n in c.pending && c.pending[n] != 0 then
      var t := c.pending[n];
      c.(pending := c.pending - {n}, timers := c.timers - {t})
    else c
  }

  /** `onPresetPress(n)`: outside 1..9 nothing; else cancel any hold and start a fresh one. */
  function Press(c: Controller, n: int): (r: Controller)
    requires Valid(c)
    ensures Valid(r)
    ensures !ValidPreset(n) ==> r == c
    ensures ValidPreset(n) ==> n in r.pending && r.pending[n] == c.nextTimer && r.nextTimer == c.nextTimer + 1
    ensures r.effects == c.effects
    ensures forall m :: m != n ==> (m in r.pending <==> m in c.pending) && (m in r.pending ==> r.pending[m] == c.pending[m])
  {
    if n < 1 || n > PresetCount then c
    else
      var cleared := ClearTimer(c, n);
      var t := cleared.nextTimer;
      cleared.(pending := cleared.pending[n := t], timers := cleared.timers[t := n], nextTimer := t + 1)
  }

  /** `onPresetRelease(n)`: with a hold pending, cancel it and recall; otherwise nothing. */
  function Release(c: Controller, n: int): (r: Controller)
    requires Valid(c)
    ensures Valid(r)
    ensures !ValidPreset(n) || n !in c.pending ==> r == c
    ensures ValidPreset(n) && n in c.pending ==> n !in r.pending && r.effects == c.effects + [Recalled(n)]
    ensures forall m :: m != n ==> (m in r.pending <==> m in c.pending) && (m in r.pending ==> r.pending[m] == c.pending[m])
  {
    if n < 1 || n > PresetCount then c
    else if n in c.pending then
      var cleared := ClearTimer(c, n);
      cleared.(effects := cleared.effects + [Recalled(n)])
    else c
  }

  /**
   * The timeout with id `t` fires. A cleared timeout never fires, so an
   * unknown id changes nothing; otherwise its preset is saved and its
   * entry removed.
   */
  function Expire(c: Controller, t: nat): (r: Controller)
    requires Valid(c)
    ensures Valid(r)
    ensures t !in c.timers ==> r == c
    ensures t in c.timers ==> c.timers[t] !in r.pending && r.effects == c.effects + [Saved(c.timers[t])]
    ensures t in c.timers ==> forall m :: m != c.timers[t] ==>
      (m in r.pending <==> m in c.pending) && (m in r.pending ==> r.pending[m] == c.pending[m])
  {
    if t in c.timers then
      var n := c.timers[t];
      c.(pending := c.pending - {n}, timers := c.timers - {t}, effects := c.effects + [Saved(n)])
    else c
  }

  /** `ngOnDestroy()`: every pending hold is cancelled and the map emptied. */
  function Destroy(c: Controller): (r: Controller)
    requires Valid(c)
    ensures Valid(r) && r.pending == map[] && r.timers == map[] && r.effects == c.effects
  {
    c.(pending := map[], timers := map[])
  }

  /** A short press: release before expiry recalls once, and the cancelled timer can no longer save. */
  lemma ShortPressRecalls(c: Controller, n: int)
    requires Valid(c) && ValidPreset(n)
    ensures var pressed := Press(c, n);
      var t := pressed.pending[n];
      var released := Release(pressed, n);
      && released.effects == c.effects + [Recalled(n)]
      && Expire(released, t) == released
      && n !in released.pending
  {
  }

  /** A long press: expiry saves once, and the later release does nothing. */
  lemma LongPressSaves(c: Controller, n: int)
    requires Valid(c) && ValidPreset(n)
    ensures var pressed := Press(c, n);
      var t := pressed.pending[n];
      var expired := Expire(pressed, t);
      && expired.effects == c.effects + [Saved(n)]
      && Release(expired, n) == expired
      && n !in expired.pending
  {
  }

  /** Presses and releases of a preset outside 1..9 change nothing. */
  lemma InvalidPresetIgnored(c: Controller, n: int)
    requires Valid(c) && !ValidPreset(n)
    ensures Press(c, n) == c && Release(c, n) == c
  {
  }

  /** `previewImage`: the privacy picture, the JPEG data URL, or the offline picture. */
  function PreviewImage(privacy: bool, preview: Option<string>): (url: string)
    ensures privacy ==> url == "assets/images/camera/camera-privacy-small.webp"
    ensures !privacy && preview.Some? && preview.value != "" ==> url == "data:image/jpeg;base64," + preview.value
    ensures !privacy && (preview.None? || preview.value == "") ==> url == "assets/images/camera/camera-offline-small.webp"
  {
    if privacy then "assets/images/camera/camera-privacy-small.webp"
    else if preview.Some? && |preview.value| > 0 then "data:image/jpeg;base64," + preview.value
    else "assets/images/camera/camera-offline-small.webp"
  }

  /** The data URL carries the preview unchanged after its fixed prefix. */
  lemma PreviewImageCarriesData(p: string)
    requires p != ""
    ensures var url := PreviewImage(false, Some(p));
      |url| > 23 && url[..23] == "data:image/jpeg;base64," && url[23..] == p
  {
  }

  /**
   * `toggleAutoFraming(state, event)`: the button's press (`state` true)
   * toggles the camera's auto-framing; its release (`state` false) only
   * updates the button's look and sends nothing.
   */
  function ToggleAutoFraming(cam: Camera.Camera, state: bool): (m: Mutation)
    ensures !state ==> m == Mutation([], None)
    ensures state && Connected(cam.autoFrame) ==> m.writes == [Write(cam.autoFrame.addr, Flag(!BoolView(cam.autoFrame)))]
    ensures state && !Connected(cam.autoFrame) ==> m.writes == []
  {
    if state then Camera.ToggleAutoFraming(cam) else Mutation([], None)
  }

  /** `togglePrivacyMode(state, event)`: as auto-framing, for the privacy switch. */
  function TogglePrivacyMode(cam: Camera.Camera, state: bool): (m: Mutation)
    ensures !state ==> m == Mutation([], None)
    ensures state && Connected(cam.privacy) ==> m.writes == [Write(cam.privacy.addr, Flag(!BoolView(cam.privacy)))]
    ensures state && !Connected(cam.privacy) ==> m.writes == []
  {
    if state then Camera.TogglePrivacy(cam) else Mutation([], None)
  }

  /**
   * A press and its release of either button together flip the camera's
   * switch exactly once: the press sends the camera's own toggle and the
   * release adds nothing.
   */
  lemma PressAndReleaseToggleOnce(cam: Camera.Camera)
    ensures ToggleAutoFraming(cam, true).writes + ToggleAutoFraming(cam, false).writes
      == Camera.ToggleAutoFraming(cam).writes
    ensures TogglePrivacyMode(cam, true).writes + TogglePrivacyMode(cam, false).writes
      == Camera.TogglePrivacy(cam).writes
    ensures Connected(cam.autoFrame) ==> |ToggleAutoFraming(cam, true).writes + ToggleAutoFraming(cam, false).writes| == 1
    ensures Connected(cam.privacy) ==> |TogglePrivacyMode(cam, true).writes + TogglePrivacyMode(cam, false).writes| == 1
  {
    assert ToggleAutoFraming(cam, true).writes + [] == ToggleAutoFraming(cam, true).writes;
    assert TogglePrivacyMode(cam, true).writes + [] == TogglePrivacyMode(cam, true).writes;
  }
}

=== FILE: connection.dfy ===
/**
 * The connection manager of `QrwcAngularService`: at most one transport,
 * one in-flight connect attempt shared by concurrent callers, and reconnect
 * with an exponential backoff computed in integers. Awaiting the handshake,
 * timers and the socket are not modelled; their outcomes arrive as events.
 */
module Connection {
  import opened Base
  import opened Control

  /** `reconnectDelay`, the first backoff step, in milliseconds. */
  const BaseDelay: nat := 5000
  /** The backoff cap in milliseconds. */
  const MaxDelay: nat := 30000
  /** The polling interval used when none was stored. */
  const DefaultPollingInterval: real := 350.0

  function Pow2(n: nat): (p: nat)
    ensures p >= 1
  {
    if n == 0 then 1 else 2 * Pow2(n - 1)
  }

  lemma {:induction false} Pow2AtLeastEight(n: nat)
    requires n >= 3
    ensures Pow2(n) >= 8
  {
    if n > 3 {
      Pow2AtLeastEight(n - 1);
    }
  }

  /** `min(reconnectDelay · 2^attempts, 30000)` */
  function BackoffDelay(attempts: nat): (d: nat)
    ensures BaseDelay <= d <= MaxDelay
  {
    if BaseDelay * Pow2(attempts) <= MaxDelay then BaseDelay * Pow2(attempts) else MaxDelay
  }

  /** The delay doubles from 5000 until it reaches the 30000 cap, and stays there. */
  lemma BackoffValues(n: nat)
    ensures BackoffDelay(0) == 5000
    ensures BackoffDelay(1) == 10000
    ensures BackoffDelay(2) == 20000
    ensures n >= 3 ==> BackoffDelay(n) == 30000
  {
    if n >= 3 {
      Pow2AtLeastEight(n);
    }
  }

  /** Later attempts never wait less. */
  lemma BackoffMonotone(m: nat, n: nat)
    requires m <= n
    ensures BackoffDelay(m) <= BackoffDelay(n)
  {
    if m < 3 {
      BackoffValues(n);
      BackoffValues(m);
      if n < 3 {
        assert m == 0 || m == 1 || m == 2;
      }
    } else {
      BackoffValues(m);
      BackoffValues(n);
    }
  }

  /** One connect attempt: the promise held in `connectPromise`. */
  datatype Attempt = Attempt(id: nat, address: string, polling: real)

  /**
   * The service's fields. `heldRejected` marks an in-flight promise that has
   * already rejected and that no `finally` block will clear any more.
   */
  datatype State = State(
    conn: Option<nat>,
    inFlight: Option<Attempt>,
    heldRejected: bool,
    lastAddress: Option<string>,
    lastPolling: Option<real>,
    reconnectAttempts: nat,
    initialized: bool,
    directory: Directory,
    nextId: nat,
    scheduled: seq<nat>)

  /** The service as constructed: nothing connected, nothing stored. */
  function Init(): (s: State)
    ensures Valid(s) && !s.initialized && s.directory == map[]
  {
    State(None, None, false, None, None, 0, false, map[], 0, [])
  }

  /**
   * `initialized` is set exactly while a connection is held, only a held
   * promise can be a settled rejection, and every identity was handed out.
   */
  predicate Valid(s: State) {
    && (s.initialized <==> s.conn.Some?)
    && (s.heldRejected ==> s.inFlight.Some? && s.conn.None?)
    && (s.conn.Some? ==> s.conn.value < s.nextId)
    && (s.inFlight.Some? ==> s.inFlight.value.id < s.nextId)
  }

  /** What `connect` hands back to its caller. */
  datatype ConnectResult = Existing(conn: nat) | Joined(attempt: nat) | Started(attempt: nat)

  /**
   * `connect(address, polling)`: the existing connection, else the in-flight
   * attempt, else a fresh attempt that first records the address and polling
   * interval for later reconnects.
   */
  function Connect(s: State, address: string, polling: real): (r: (State, ConnectResult))
    ensures Valid(s) ==> Valid(r.0)
    ensures s.conn.Some? ==> r == (s, Existing(s.conn.value))
    ensures s.conn.None? && s.inFlight.Some? ==> r == (s, Joined(s.inFlight.value.id))
    ensures s.conn.None? && s.inFlight.None? ==>
      && r.1 == Started(s.nextId)
      && r.0.inFlight == Some(Attempt(s.nextId, address, polling))
      && r.0.lastAddress == Some(address) && r.0.lastPolling == Some(polling)
      && r.0.nextId == s.nextId + 1
      && r.0 == s.(inFlight := r.0.inFlight, lastAddress := r.0.lastAddress,
                   lastPolling := r.0.lastPolling, nextId := r.0.nextId)
    ensures r.1.Started? <==> s.conn.None? && s.inFlight.None?
  {
    if s.conn.Some? then (s, Existing(s.conn.value))
    else if s.inFlight.Some? then (s, Joined(s.inFlight.value.id))
    else
      var a := Attempt(s.nextId, address, polling);
      (s.(lastAddress := Some(address), lastPolling := Some(polling), inFlight := Some(a), nextId := s.nextId + 1),
       Started(a.id))
  }

  /** Two `connect` calls before the first settles start one attempt, and the second joins it. */
  lemma ConcurrentConnectsCollapse(s: State, a1: string, p1: real, a2: string, p2: real)
    requires s.conn.None? && s.inFlight.None?
    ensures var (s1, r1) := Connect(s, a1, p1);
            var (s2, r2) := Connect(s1, a2, p2);
            && r1 == Started(s.nextId) && r2 == Joined(s.nextId)
            && s2 == s1
            && s2.lastAddress == Some(a1) && s2.lastPolling == Some(p1)
  {
  }

  /**
   * The attempt with identity `id` resolved with the transport's component
   * directory: publish it, mark the service initialized, keep the
   * connection, reset the backoff, and clear the in-flight marker.
   */
  function AttemptSucceeded(s: State, id: nat, dir: Directory): (r: State)
    requires id < s.nextId
    ensures Valid(s) ==> Valid(r)
    ensures r.directory == dir && r.initialized && r.conn == Some(id)
    ensures r.reconnectAttempts == 0 && r.inFlight.None? && !r.heldRejected
    ensures r.lastAddress == s.lastAddress && r.lastPolling == s.lastPolling
    ensures r.scheduled == s.scheduled && r.nextId == s.nextId
  {
    s.(directory := dir, conn := Some(id), initialized := true, reconnectAttempts := 0,
       inFlight := None, heldRejected := false)
  }

  /**
   * An attempt rejected after `connect` returned: its `finally` block sets
   * `connectPromise` to null, whichever promise is held by then, and nothing
   * else changes.
   */
  function AttemptFailed(s: State): (r: State)
    ensures Valid(s) ==> Valid(r)
    ensures r.inFlight.None? && !r.heldRejected
    ensures r == s.(inFlight := None, heldRejected := false)
  {
    s.(inFlight := None, heldRejected := false)
  }

  /**
   * `new WebSocket(...)` threw inside the attempt that `connect` just
   * started (an address that makes no valid URL). The attempt's body runs
   * synchronously up to the throw, so its `finally` clears `connectPromise`
   * before `connect` stores the returned promise there. That promise has
   * already rejected and stays held: no later `finally` belongs to it.
   */
  function SocketThrew(s: State): (r: State)
    ensures Valid(s) && s.conn.None? ==> Valid(r)
    ensures r.heldRejected <==> s.inFlight.Some?
    ensures r.inFlight == s.inFlight
    ensures r == s.(heldRejected := r.heldRejected)
  {
    s.(heldRejected := s.inFlight.Some?)
  }

  /** `setTimeout(tryReconnect, nextReconnectDelay())`: schedule with the current delay, then count the attempt. */
  function ScheduleReconnect(s: State): (r: State)
    ensures Valid(s) ==> Valid(r)
    ensures r.scheduled == s.scheduled + [BackoffDelay(s.reconnectAttempts)]
    ensures r.reconnectAttempts == s.reconnectAttempts + 1
    ensures r == s.(scheduled := r.scheduled, reconnectAttempts := r.reconnectAttempts)
  {
    s.(scheduled := s.scheduled + [BackoffDelay(s.reconnectAttempts)], reconnectAttempts := s.reconnectAttempts + 1)
  }

  /**
   * The transport's `disconnected` event: not initialized, no connection,
   * one reconnect scheduled; the directory is left as it was.
   */
  function TransportDropped(s: State): (r: State)
    ensures Valid(s) ==> Valid(r)
    ensures !r.initialized && r.conn.None?
    ensures r.directory == s.directory
    ensures r.scheduled == s.scheduled + [BackoffDelay(s.reconnectAttempts)]
    ensures r.inFlight == s.inFlight && r.heldRejected == s.heldRejected
    ensures r.lastAddress == s.lastAddress && r.lastPolling == s.lastPolling
  {
    ScheduleReconnect(s.(initialized := false, conn := None))
  }

  /**
   * The promise the reconnect loop awaited rejected, and its `catch`
   * schedules the next try. A pending attempt's `finally` has cleared the
   * marker first; a rejection already held stays held.
   */
  function ReconnectAttemptFailed(s: State): (r: State)
    ensures Valid(s) ==> Valid(r)
    ensures !s.heldRejected ==> r.inFlight.None? && !r.heldRejected
    ensures s.heldRejected ==> r.inFlight == s.inFlight && r.heldRejected
    ensures r.scheduled == s.scheduled + [BackoffDelay(s.reconnectAttempts)]
    ensures r.reconnectAttempts == s.reconnectAttempts + 1
    ensures r.conn == s.conn && r.directory == s.directory && r.initialized == s.initialized
    ensures r.lastAddress == s.lastAddress && r.lastPolling == s.lastPolling
  {
    if s.heldRejected then ScheduleReconnect(s) else ScheduleReconnect(AttemptFailed(s))
  }

  /** `disconnect()`: drop the connection, the flag, the directory and the in-flight marker. */
  function Disconnect(s: State): (r: State)
    ensures Valid(s) ==> Valid(r)
    ensures r.conn.None? && !r.initialized && r.directory == map[] && r.inFlight.None? && !r.heldRejected
    ensures r.lastAddress == s.lastAddress && r.lastPolling == s.lastPolling
    ensures r.reconnectAttempts == s.reconnectAttempts && r.scheduled == s.scheduled
  {
    s.(conn := None, initialized := false, directory := map[], inFlight := None, heldRejected := false)
  }

  /** Calling `disconnect()` again changes nothing. */
  lemma DisconnectIdempotent(s: State)
    ensures Disconnect(Disconnect(s)) == Disconnect(s)
  {
  }

  /**
   * `disconnect()` forgets the in-flight promise but does not cancel the
   * attempt: if it later resolves, the service is connected again.
   */
  lemma DisconnectDoesNotCancelAttempt(s: State, address: string, polling: real, dir: Directory)
    requires s.conn.None? && s.inFlight.None?
    ensures var (s1, r1) := Connect(s, address, polling);
            var s2 := AttemptSucceeded(Disconnect(s1), r1.attempt, dir);
            s2.initialized && s2.conn == Some(r1.attempt) && s2.directory == dir
  {
  }

  datatype ReconnectResult = Aborted | Reconnecting(result: ConnectResult)

  /**
   * `tryReconnect()`: abort without scheduling when no usable address was
   * stored (missing or empty: the source tests truthiness), else connect with
   * the stored address and the stored polling interval or 350.
   */
  function TryReconnect(s: State): (r: (State, ReconnectResult))
    ensures Valid(s) ==> Valid(r.0)
    ensures s.lastAddress.None? || s.lastAddress == Some("") ==> r == (s, Aborted)
    ensures s.lastAddress.Some? && s.lastAddress != Some("") ==>
      var (s', c) := Connect(s, s.lastAddress.value, s.lastPolling.GetOr(DefaultPollingInterval));
      r == (s', Reconnecting(c))
    ensures r.0.scheduled == s.scheduled
  {
    if s.lastAddress.None? || s.lastAddress.value == "" then (s, Aborted)
    else
      var (s', c) := Connect(s, s.lastAddress.value, s.lastPolling.GetOr(DefaultPollingInterval));
      (s', Reconnecting(c))
  }

  /** After a drop the reconnect reuses the stored address and polling interval. */
  lemma ReconnectAfterDrop(s: State, address: string, polling: real, dir: Directory)
    requires Valid(s) && s.conn.None? && s.inFlight.None? && address != ""
    ensures var (s1, r1) := Connect(s, address, polling);
            var s2 := TransportDropped(AttemptSucceeded(s1, r1.attempt, dir));
            var (s3, r3) := TryReconnect(s2);
            && s2.scheduled == s.scheduled + [BackoffDelay(0)]
            && r3 == Reconnecting(Started(s.nextId + 1))
            && s3.inFlight == Some(Attempt(s.nextId + 1, address, polling))
            && s3.directory == dir
  {
  }

  /** `n` failed reconnects in a row, each scheduling the next. */
  function FailRepeatedly(s: State, n: nat): State
    decreases n
  {
    if n == 0 then s else FailRepeatedly(ReconnectAttemptFailed(s), n - 1)
  }

  /** The delays of `n` consecutive reconnect schedules starting from attempt count `a`. */
  function Delays(a: nat, n: nat): (d: seq<int>)
    ensures |d| == n
    ensures forall k :: 0 <= k < n ==> BaseDelay <= d[k] <= MaxDelay
    ensures forall k, l :: 0 <= k <= l < n ==> d[k] <= d[l]
  {
    BackoffMonotoneEverywhere();
    seq(n, k requires 0 <= k => BackoffDelay(a + k))
  }

  /** `BackoffMonotone` for every pair of attempt counts. */
  lemma BackoffMonotoneEverywhere()
    ensures forall m: nat, n: nat :: m <= n ==> BackoffDelay(m) <= BackoffDelay(n)
  {
    forall m: nat, n: nat | m <= n
      ensures BackoffDelay(m) <= BackoffDelay(n)
    {
      BackoffMonotone(m, n);
    }
  }

  /** The scheduled delays of consecutive failures follow the backoff from the current count. */
  lemma {:induction false} FailRepeatedlyDelays(s: State, n: nat)
    ensures FailRepeatedly(s, n).scheduled == s.scheduled + Delays(s.reconnectAttempts, n)
    ensures FailRepeatedly(s, n).reconnectAttempts == s.reconnectAttempts + n
    decreases n
  {
    if n > 0 {
      var s1 := ReconnectAttemptFailed(s);
      FailRepeatedlyDelays(s1, n - 1);
      assert Delays(s.reconnectAttempts, n) == [BackoffDelay(s.reconnectAttempts)] + Delays(s1.reconnectAttempts, n - 1);
    }
  }

  /** From a fresh count the delays read 5000, 10000, 20000, then 30000 forever, never decreasing. */
  lemma BackoffSequence(n: nat)
    ensures var d := Delays(0, n);
      && (forall k :: 0 <= k < n ==> BaseDelay <= d[k] <= MaxDelay)
      && (forall k, l :: 0 <= k <= l < n ==> d[k] <= d[l])
      && (n >= 3 ==> d[..3] == [5000, 10000, 20000])
      && (forall k :: 3 <= k < n ==> d[k] == 30000)
  {
    var d := Delays(0, n);
    forall k, l | 0 <= k <= l < n
      ensures d[k] <= d[l]
    {
      BackoffMonotone(k, l);
    }
    forall k | 3 <= k < n
      ensures d[k] == 30000
    {
      BackoffValues(k);
    }
    BackoffValues(0);
  }

  /**
   * While a settled rejection is held, every `connect` and every reconnect
   * hands it back, however many reconnects fail in between: nothing but
   * `disconnect()` releases it.
   */
  lemma {:induction false} HeldRejectionBlocksConnect(s: State, n: nat, address: string, polling: real)
    requires Valid(s) && s.heldRejected
    ensures var t := FailRepeatedly(s, n);
      && Valid(t) && t.heldRejected && t.inFlight == s.inFlight
      && Connect(t, address, polling) == (t, Joined(s.inFlight.value.id))
      && TryReconnect(t).0 == t
      && TryReconnect(t).1 in {Aborted, Reconnecting(Joined(s.inFlight.value.id))}
    decreases n
  {
    if n > 0 {
      HeldRejectionBlocksConnect(ReconnectAttemptFailed(s), n - 1, address, polling);
    }
  }

  /**
   * A connect whose socket constructor throws leaves its rejected attempt
   * held: the next connect joins it instead of trying again, and only after
   * `disconnect()` does a connect start a fresh attempt.
   */
  lemma SocketThrowBlocksUntilDisconnect(s: State, address: string, polling: real, a2: string, p2: real)
    requires Valid(s) && s.conn.None? && s.inFlight.None?
    ensures var (s1, r1) := Connect(s, address, polling);
      var s2 := SocketThrew(s1);
      && r1 == Started(s.nextId)
      && Valid(s2) && s2.heldRejected
      && Connect(s2, a2, p2) == (s2, Joined(s.nextId))
      && Connect(Disconnect(s2), a2, p2).1 == Started(s.nextId + 1)
  {
  }
}

=== FILE: control.dfy ===
/**
 * The remote side as the binding engine sees it: components hold named
 * controls, each control carries a state snapshot, and every write a widget
 * makes goes out as one entry of a write log (the `control.update(v)` calls).
 */
module Control {
  import opened Base

  /** A control is addressed by its component's name and its own name. */
  datatype Address = Address(component: string, control: string)

  /**
   * A control's state snapshot. `ValueMin`, `ValueMax` and `Values` may be
   * missing; the other fields are always reported.
   */
  datatype ControlState = ControlState(
    Value: real,
    Position: real,
    String: string,
    Legend: string,
    Bool: bool,
    ValueMin: Option<real>,
    ValueMax: Option<real>,
    Values: Option<seq<real>>)

  /** A control object of the transport; `id` stands for object identity. */
  datatype RemoteControl = RemoteControl(id: nat, state: ControlState)

  /** The component directory: component name to its controls by name. */
  type Directory = map<string, map<string, RemoteControl>>

  /** `components?.[component]?.controls[control]` */
  function Lookup(dir: Directory, addr: Address): (r: Option<RemoteControl>)
    ensures r.Some? <==> addr.component in dir && addr.control in dir[addr.component]
    ensures r.Some? ==> r.value == dir[addr.component][addr.control]
  {
    if addr.component in dir && addr.control in dir[addr.component]
    then Some(dir[addr.component][addr.control])
    else None
  }

  /** What `control.update(v)` can carry. */
  datatype WriteValue = Num(x: real) | Flag(b: bool) | Text(s: string)

  /** One `control.update(v)` call, on the control found at `target`. */
  datatype Write = Write(target: Address, value: WriteValue)
}

=== FILE: dual_vu_meter.dfy ===
/**
 * The dual VU meter panel: two needles driven by the RMS levels of a
 * two-channel meter component, each with its own current angle.
 */
module DualVuMeter {
  import opened Binding
  import Meter
  import VuMeter

  const ChannelCount: int := 2

  /** Both needles start at rest. */
  const RestAngle: real := -60.0

  /** This panel's own copy of `dbToAngle`: the same calibration as the stereo widget's. */
  function DbToAngle(db: real): (a: real)
    ensures a == VuMeter.DbToAngle(db)
    ensures VuMeter.MinAngle <= a <= VuMeter.MaxAngle
  {
    if db <= -32.0 then -60.0
    else if db <= -30.0 then -60.0 + (db + 32.0) * (2.0 / 2.0)
    else if db <= -20.0 then -58.0 + (db + 30.0) * (10.5 / 10.0)
    else if db <= -10.0 then -47.5 + (db + 20.0) * (11.5 / 10.0)
    else if db <= -7.0 then -36.0 + (db + 10.0) * (12.8 / 3.0)
    else if db <= -5.0 then -23.2 + (db + 7.0) * (12.9 / 2.0)
    else if db <= -4.0 then -10.3 + (db + 5.0) * (7.6 / 1.0)
    else if db <= -3.0 then -2.7 + (db + 4.0) * (7.3 / 1.0)
    else if db <= -2.0 then 4.6 + (db + 3.0) * (5.6 / 1.0)
    else if db <= -1.0 then 10.2 + (db + 2.0) * (6.6 / 1.0)
    else if db <= 0.0 then 16.8 + (db + 1.0) * (5.7 / 1.0)
    else if db <= 1.0 then 22.5 + db * (5.0 / 1.0)
    else if db <= 2.0 then 27.5 + (db - 1.0) * (6.0 / 1.0)
    else if db <= 3.0 then 33.5 + (db - 2.0) * (5.7 / 1.0)
    else if db <= 4.0 then 39.2 + (db - 3.0) * (5.0 / 1.0)
    else if db <= 5.0 then 44.2 + (db - 4.0) * (4.8 / 1.0)
    else if db <= 7.0 then 49.0 + (db - 5.0) * (9.0 / 2.0)
    else 58.0
  }

  /** The panel's mapping is the stereo widget's mapping, so it shares its clamping, range, continuity and monotonicity. */
  lemma SameAsStereo(db: real)
    ensures DbToAngle(db) == VuMeter.DbToAngle(db)
    ensures VuMeter.MinAngle <= DbToAngle(db) <= VuMeter.MaxAngle
    ensures db <= -32.0 ==> DbToAngle(db) == -60.0
    ensures db > 7.0 ==> DbToAngle(db) == 58.0
  {
    VuMeter.DbToAngleBounds(db);
  }

  lemma DbToAngleMonotone(a: real, b: real)
    requires a <= b
    ensures DbToAngle(a) <= DbToAngle(b)
  {
    SameAsStereo(a);
    SameAsStereo(b);
    VuMeter.DbToAngleMonotone(a, b);
  }

  /** The panel: its meter component (`StereoRmsMeter`, 2 channels) and the needles' current angles. */
  datatype Panel = Panel(meter: Meter.Meter, angles: seq<real>)

  predicate Valid(p: Panel) {
    |p.meter.channels| == ChannelCount && |p.angles| == ChannelCount
  }

  function Init(meter: Meter.Meter): (p: Panel)
    ensures p.angles == [RestAngle, RestAngle]
  {
    Panel(meter, [RestAngle, RestAngle])
  }

  /** `targetAngle` of state `i`: `dbToAngle(getRms(i + 1))`, or the accessor's throw. */
  function Target(p: Panel, i: int): (t: Meter.Reading)
    ensures t.OutOfRange? <==> !(0 <= i < |p.meter.channels|)
    ensures t.Level? ==> t.x == DbToAngle(ValueView(p.meter.channels[i].rms))
  {
    match Meter.Read(p.meter, Meter.RmsRole, i + 1)
    case Level(x) => Meter.Level(DbToAngle(x))
    case OutOfRange => Meter.OutOfRange
  }

  /** Needle `i` follows the RMS list's entry `i`: channel `i + 1`. */
  lemma TargetsFollowRms(p: Panel, i: int)
    requires Valid(p) && 0 <= i < ChannelCount
    ensures Target(p, i) == Meter.Level(DbToAngle(Meter.Levels(p.meter, Meter.RmsRole)[i]))
  {
  }

  /** One animation frame: every needle takes one ballistics step towards its target. */
  function Frame(p: Panel, dt: real, alpha: (real, real) -> real): (r: Panel)
    requires Valid(p)
    ensures Valid(r) && r.meter == p.meter
    ensures forall i :: 0 <= i < ChannelCount ==>
      r.angles[i] == VuMeter.Ballistics(p.angles[i], Target(p, i).x, dt, alpha)
  {
    p.(angles := seq(ChannelCount, i requires 0 <= i < ChannelCount =>
      VuMeter.Ballistics(p.angles[i], Target(p, i).x, dt, alpha)))
  }

  /** With factors in [0, 1], a frame keeps every needle that was on the scale on the scale. */
  lemma FrameStaysOnScale(p: Panel, dt: real, alpha: (real, real) -> real)
    requires Valid(p)
    requires forall tau :: 0.0 <= alpha(dt, tau) <= 1.0
    requires forall i :: 0 <= i < ChannelCount ==> VuMeter.MinAngle <= p.angles[i] <= VuMeter.MaxAngle
    ensures forall i :: 0 <= i < ChannelCount ==> VuMeter.MinAngle <= Frame(p, dt, alpha).angles[i] <= VuMeter.MaxAngle
  {
    forall i | 0 <= i < ChannelCount
      ensures VuMeter.MinAngle <= Frame(p, dt, alpha).angles[i] <= VuMeter.MaxAngle
    {
      var t := Target(p, i).x;
      SameAsStereo(ValueView(p.meter.channels[i].rms));
      VuMeter.BallisticsBetween(p.angles[i], t, dt, alpha);
    }
  }
}

=== FILE: eq_response.dfy ===
/**
 * The parametric-EQ response calculator: a logarithmic frequency axis, one
 * biquad per band (peaking, low shelf, high shelf) evaluated on the unit
 * circle, the cascade of all bands as a complex product, and the magnitude
 * in dB and phase in degrees of that product at every point of the axis.
 *
 * Arithmetic is on real numbers. The transcendental functions are supplied
 * as a `Math` record; the facts a property needs about them are stated by
 * `Sound` and `AxisSound`. Every division by zero of the source yields a
 * non-finite number that then spreads through the cascade; the model
 * collapses all of these (NaN, +Infinity, -Infinity) into `NonFinite`.
 */
module EqResponse {
  import opened Base

  /** `Math.PI` as a double. */
  const Pi: real := 3.141592653589793
  /** The sample rate every caller uses (the `sampleRate` default). */
  const SampleRate: real := 48000.0
  /** The shelf slope constant in the shelf alpha. */
  const ShelfSlope: real := 0.4

  /** `Math.sin`, `Math.cos`, `Math.sqrt`, `10 ** x`, `2 ** x`, `Math.log2`, `Math.log10`, `Math.atan2`. */
  datatype Math = Math(
    sin: real -> real,
    cos: real -> real,
    sqrt: real -> real,
    pow10: real -> real,
    pow2: real -> real,
    log2: real -> real,
    log10: real -> real,
    atan2: (real, real) -> real)

  /** The facts about `10 ** x`, `Math.sqrt`, `Math.log10` and `Math.atan2` the filter properties rely on. */
  ghost predicate Sound(m: Math) {
    && m.pow10(0.0) == 1.0
    && (forall x :: m.pow10(x) > 0.0)
    && (forall x :: m.pow10(-x) * m.pow10(x) == 1.0)
    && m.sqrt(1.0) == 1.0
    && m.log10(1.0) == 0.0
    && m.atan2(0.0, 1.0) == 0.0
  }

  /** The facts about `2 ** x` and `Math.log2` the frequency-axis properties rely on. */
  ghost predicate AxisSound(m: Math) {
    && m.pow2(0.0) == 1.0
    && Pow2Increasing(m)
    && (forall x :: x > 0.0 ==> m.pow2(m.log2(x)) == x)
  }

  /** `2 ** x` is strictly increasing. */
  ghost predicate Pow2Increasing(m: Math) {
    forall x, y :: x < y ==> m.pow2(x) < m.pow2(y)
  }

  datatype Complex = Complex(re: real, im: real)

  const One: Complex := Complex(1.0, 0.0)

  function Mul(x: Complex, y: Complex): Complex {
    Complex(x.re * y.re - x.im * y.im, x.re * y.im + x.im * y.re)
  }

  function Add(x: Complex, y: Complex): Complex {
    Complex(x.re + y.re, x.im + y.im)
  }

  function Scale(k: real, x: Complex): Complex {
    Complex(k * x.re, k * x.im)
  }

  function NormSq(z: Complex): real {
    z.re * z.re + z.im * z.im
  }

  /**
   * `calculateResponse`: the quotient `num / den`, computed as
   * `num · conj(den) / |den|²`; non-finite when `|den|²` is zero.
   */
  function Divide(num: Complex, den: Complex): (r: Option<Complex>)
    ensures r.None? <==> NormSq(den) == 0.0
    ensures r.Some? ==> Mul(r.value, den) == num
  {
    if NormSq(den) == 0.0 then None else Some(Quotient(num, den))
  }

  function Quotient(num: Complex, den: Complex): (q: Complex)
    requires NormSq(den) != 0.0
    ensures Mul(q, den) == num
  {
    var d := NormSq(den);
    var q := Complex((num.re * den.re + num.im * den.im) / d, (num.im * den.re - num.re * den.im) / d);
    DivideExact(num, den, d, q);
    q
  }

  lemma {:induction false} DivideExact(num: Complex, den: Complex, d: real, q: Complex)
    requires d == NormSq(den) && d != 0.0
    requires q == Complex((num.re * den.re + num.im * den.im) / d, (num.im * den.re - num.re * den.im) / d)
    ensures Mul(q, den) == num
  {
    var a, b := num.re * den.re + num.im * den.im, num.im * den.re - num.re * den.im;
    assert q.re * d == a;
    assert q.im * d == b;
    calc {
      (q.re * den.re - q.im * den.im) * d;
      (q.re * d) * den.re - (q.im * d) * den.im;
      a * den.re - b * den.im;
      num.re * d;
    }
    calc {
      (q.re * den.im + q.im * den.re) * d;
      (q.re * d) * den.im + (q.im * d) * den.re;
      a * den.im + b * den.re;
      num.im * d;
    }
  }

  /** A value divided by itself is one. */
  lemma {:induction false} DivideSelf(z: Complex)
    requires NormSq(z) != 0.0
    ensures Divide(z, z) == Some(One)
  {
    var d := NormSq(z);
    assert z.re * z.re + z.im * z.im == d;
    assert z.im * z.re - z.re * z.im == 0.0;
    assert d / d == 1.0;
    assert (z.re * z.re + z.im * z.im) / d == 1.0;
    assert (z.im * z.re - z.re * z.im) / d == 0.0;
    assert Quotient(z, z) == One;
  }

  /** The filter types the calculator knows; other numbers have no calculator. */
  datatype FilterType = Parametric | LowShelf | HighShelf

  /** The numeric enum values 1, 2 and 3. */
  function FilterTypeOf(code: real): (t: Option<FilterType>)
    ensures t == Some(Parametric) <==> code == 1.0
    ensures t == Some(LowShelf) <==> code == 2.0
    ensures t == Some(HighShelf) <==> code == 3.0
  {
    if code == 1.0 then Some(Parametric)
    else if code == 2.0 then Some(LowShelf)
    else if code == 3.0 then Some(HighShelf)
    else None
  }

  function FilterTypeCode(t: FilterType): real {
    match t
    case Parametric => 1.0
    case LowShelf => 2.0
    case HighShelf => 3.0
  }

  lemma {:induction false} FilterTypeRoundTrip(t: FilterType)
    ensures FilterTypeOf(FilterTypeCode(t)) == Some(t)
  {
  }

  /** A band as the component hands it over: `Type` is the raw number read from the control. */
  datatype Band = Band(frequency: real, gain: real, q: real, typeCode: real)

  /** The six coefficients of one biquad section. */
  datatype Biquad = Biquad(b0: real, b1: real, b2: real, a0: real, a1: real, a2: real)

  /**
   * The source's expanded form of `p0 + p1·z + p2·z²` at `z = e1 + i·e2`:
   * real part `p0 + p1·e1 + p2·(e1² − e2²)`, imaginary part `p1·e2 + 2·p2·e1·e2`.
   */
  function Expanded(p0: real, p1: real, p2: real, e1: real, e2: real): Complex {
    Complex(p0 + p1 * e1 + p2 * (e1 * e1 - e2 * e2), p1 * e2 + p2 * 2.0 * e1 * e2)
  }

  /** `b0 + b1·z + b2·z²` and `a0 + a1·z + a2·z²` at `z = e1 + i·e2`. */
  function Numerator(c: Biquad, e1: real, e2: real): Complex {
    Expanded(c.b0, c.b1, c.b2, e1, e2)
  }

  function Denominator(c: Biquad, e1: real, e2: real): Complex {
    Expanded(c.a0, c.a1, c.a2, e1, e2)
  }

  /** A quadratic `p0 + p1·z + p2·z²` evaluated with complex arithmetic. */
  function Quadratic(p0: real, p1: real, p2: real, z: Complex): Complex {
    Add(Add(Complex(p0, 0.0), Scale(p1, z)), Scale(p2, Mul(z, z)))
  }

  /** The source's expanded real and imaginary parts are the two quadratics at `z = e1 + i·e2`. */
  lemma {:induction false} NumeratorDenominatorArePolynomials(c: Biquad, e1: real, e2: real)
    ensures Numerator(c, e1, e2) == Quadratic(c.b0, c.b1, c.b2, Complex(e1, e2))
    ensures Denominator(c, e1, e2) == Quadratic(c.a0, c.a1, c.a2, Complex(e1, e2))
  {
    ExpandedIsQuadratic(c.b0, c.b1, c.b2, e1, e2);
    ExpandedIsQuadratic(c.a0, c.a1, c.a2, e1, e2);
  }

  /** Expanding `p0 + p1·z + p2·z²` by hand agrees with complex arithmetic. */
  lemma {:induction false} ExpandedIsQuadratic(p0: real, p1: real, p2: real, e1: real, e2: real)
    ensures Expanded(p0, p1, p2, e1, e2) == Quadratic(p0, p1, p2, Complex(e1, e2))
  {
    var z := Complex(e1, e2);
    assert Mul(z, z) == Complex(e1 * e1 - e2 * e2, e1 * e2 + e2 * e1);
    assert p2 * (e1 * e2 + e2 * e1) == p2 * 2.0 * e1 * e2;
  }

  /** `2π·f / 48000` */
  function Omega(f: real): real {
    2.0 * Pi * f / SampleRate
  }

  /**
   * `calculateBiquadResponse`'s coefficients; non-finite when `Q` or the gain
   * factor `A` is zero. The numerator departs from 1 by `A²` times as much as
   * the denominator does, which is what makes the band a boost of `A²` at its
   * centre.
   */
  function PeakingCoefficients(m: Math, band: Band): (r: Option<Biquad>)
    ensures r.None? <==> band.q == 0.0 || m.pow10(band.gain / 40.0) == 0.0
    ensures r.Some? ==> r.value.b1 == r.value.a1
    ensures r.Some? ==> r.value.b0 + r.value.b2 == 2.0 && r.value.a0 + r.value.a2 == 2.0
    ensures r.Some? ==> var a := m.pow10(band.gain / 40.0);
      && r.value.b0 - 1.0 == a * a * (r.value.a0 - 1.0)
      && r.value.b2 - 1.0 == a * a * (r.value.a2 - 1.0)
  {
    var w0 := Omega(band.frequency);
    var a := m.pow10(band.gain / 40.0);
    if band.q == 0.0 || a == 0.0 then None
    else
      var alpha := m.sin(w0) / (2.0 * band.q);
      var c := m.cos(w0);
      PeakingScale(alpha, a);
      Some(Biquad(1.0 + alpha * a, -2.0 * c, 1.0 - alpha * a, 1.0 + alpha / a, -2.0 * c, 1.0 - alpha / a))
  }

  lemma {:induction false} PeakingScale(alpha: real, a: real)
    requires a != 0.0
    ensures (1.0 + alpha * a) - 1.0 == a * a * ((1.0 + alpha / a) - 1.0)
    ensures (1.0 - alpha * a) - 1.0 == a * a * ((1.0 - alpha / a) - 1.0)
  {
    assert (alpha / a) * a == alpha;
    assert a * a * (alpha / a) == a * ((alpha / a) * a);
  }

  /** Boost and cut by the same amount are inverse filters: their coefficient sets are swapped. */
  lemma {:induction false} PeakingBoostCutSwap(m: Math, band: Band)
    requires Sound(m)
    requires band.q != 0.0
    ensures var boost := PeakingCoefficients(m, band);
            var cut := PeakingCoefficients(m, band.(gain := -band.gain));
            && boost.Some? && cut.Some?
            && cut.value == Biquad(boost.value.a0, boost.value.a1, boost.value.a2,
                                   boost.value.b0, boost.value.b1, boost.value.b2)
  {
    var a := m.pow10(band.gain / 40.0);
    var a' := m.pow10(-band.gain / 40.0);
    assert -band.gain / 40.0 == -(band.gain / 40.0);
    assert a' * a == 1.0;
    assert a > 0.0 && a' > 0.0;
    var alpha := m.sin(Omega(band.frequency)) / (2.0 * band.q);
    assert alpha * a' == alpha / a by {
      assert a' == 1.0 / a;
    }
    assert alpha / a' == alpha * a by {
      assert a == 1.0 / a';
    }
  }

  /** `(sin ω0 / 2) · √((A + 1/A − 1) · (1 / 0.4))`, the shelf alpha. */
  function ShelfAlpha(m: Math, w0: real, a: real): real
    requires a != 0.0
  {
    (m.sin(w0) / 2.0) * m.sqrt((a + 1.0 / a - 1.0) * (1.0 / ShelfSlope))
  }

  /** For a positive gain factor the square root in the shelf alpha is taken of at least 2.5. */
  lemma {:induction false} ShelfRadicandPositive(a: real)
    requires a > 0.0
    ensures (a + 1.0 / a - 1.0) * (1.0 / ShelfSlope) >= 2.5
  {
    var inv := 1.0 / a;
    assert a * inv == 1.0;
    // a + 1/a >= 2 because (a - 1)² >= 0.
    assert (a - 1.0) * (a - 1.0) >= 0.0;
    assert a * a + 1.0 >= 2.0 * a;
    assert (a * a + 1.0) * inv == a + inv;
    assert a + inv >= 2.0 by {
      assert (a * a + 1.0) * inv >= (2.0 * a) * inv;
    }
  }

  /**
   * `calculateLowShelfResponse`'s coefficients; non-finite when the gain factor
   * `A` is zero. At `z = 1` (DC) the numerator is `A²` times the denominator,
   * and at `z = −1` (half the sample rate) the two agree: the shelf lifts the
   * bottom of the spectrum by `A²` and leaves the top alone.
   */
  function LowShelfCoefficients(m: Math, band: Band): (r: Option<Biquad>)
    ensures r.None? <==> m.pow10(band.gain / 40.0) == 0.0
    ensures r.Some? ==> var a := m.pow10(band.gain / 40.0);
      && Numerator(r.value, 1.0, 0.0) == Scale(a * a, Denominator(r.value, 1.0, 0.0))
      && Numerator(r.value, -1.0, 0.0) == Denominator(r.value, -1.0, 0.0)
  {
    var a := m.pow10(band.gain / 40.0);
    if a == 0.0 then None
    else
      var w0 := Omega(band.frequency);
      var alpha := ShelfAlpha(m, w0, a);
      var c := m.cos(w0);
      var s := 2.0 * m.sqrt(a) * alpha;
      Some(Biquad(
        a * (a + 1.0 - (a - 1.0) * c + s),
        2.0 * a * (a - 1.0 - (a + 1.0) * c),
        a * (a + 1.0 - (a - 1.0) * c - s),
        a + 1.0 + (a - 1.0) * c + s,
        -2.0 * (a - 1.0 + (a + 1.0) * c),
        a + 1.0 + (a - 1.0) * c - s))
  }

  /**
   * `calculateHighShelfResponse`'s coefficients; non-finite when the gain
   * factor `A` is zero. The mirror of the low shelf: at `z = 1` numerator and
   * denominator agree, and at `z = −1` the numerator is `A²` times the
   * denominator.
   */
  function HighShelfCoefficients(m: Math, band: Band): (r: Option<Biquad>)
    ensures r.None? <==> m.pow10(band.gain / 40.0) == 0.0
    ensures r.Some? ==> var a := m.pow10(band.gain / 40.0);
      && Numerator(r.value, 1.0, 0.0) == Denominator(r.value, 1.0, 0.0)
      && Numerator(r.value, -1.0, 0.0) == Scale(a * a, Denominator(r.value, -1.0, 0.0))
  {
    var a := m.pow10(band.gain / 40.0);
    if a == 0.0 then None
    else
      var w0 := Omega(band.frequency);
      var alpha := ShelfAlpha(m, w0, a);
      var c := m.cos(w0);
      var s := 2.0 * m.sqrt(a) * alpha;
      Some(Biquad(
        a * (a + 1.0 + (a - 1.0) * c + s),
        -2.0 * a * (a - 1.0 + (a + 1.0) * c),
        a * (a + 1.0 + (a - 1.0) * c - s),
        a + 1.0 - (a - 1.0) * c + s,
        2.0 * (a - 1.0 - (a + 1.0) * c),
        a + 1.0 - (a - 1.0) * c - s))
  }

  /** The coefficients of a band of a known type. */
  function Coefficients(m: Math, t: FilterType, band: Band): Option<Biquad> {
    match t
    case Parametric => PeakingCoefficients(m, band)
    case LowShelf => LowShelfCoefficients(m, band)
    case HighShelf => HighShelfCoefficients(m, band)
  }

  predicate Transparent(c: Biquad) {
    c.b0 == c.a0 && c.b1 == c.a1 && c.b2 == c.a2
  }

  /** At 0 dB every filter type has numerator equal to denominator. */
  lemma {:induction false} ZeroGainTransparent(m: Math, t: FilterType, band: Band)
    requires Sound(m)
    requires band.gain == 0.0
    requires t == Parametric ==> band.q != 0.0
    ensures Coefficients(m, t, band).Some?
    ensures Transparent(Coefficients(m, t, band).value)
  {
    assert band.gain / 40.0 == 0.0;
    assert m.pow10(band.gain / 40.0) == 1.0;
    match t
    case Parametric =>
    case LowShelf => ShelvesAtUnity(m, band);
    case HighShelf => ShelvesAtUnity(m, band);
  }

  /** With `A = √A = 1` both shelves' numerators equal their denominators. */
  lemma {:induction false} ShelvesAtUnity(m: Math, band: Band)
    requires m.pow10(band.gain / 40.0) == 1.0 && m.sqrt(1.0) == 1.0
    ensures LowShelfCoefficients(m, band).Some? && Transparent(LowShelfCoefficients(m, band).value)
    ensures HighShelfCoefficients(m, band).Some? && Transparent(HighShelfCoefficients(m, band).value)
  {
    var w0 := Omega(band.frequency);
    var c := m.cos(w0);
    var s := 2.0 * m.sqrt(1.0) * ShelfAlpha(m, w0, 1.0);
    assert (1.0 - 1.0) * c == 0.0;
    assert (1.0 + 1.0) * c == 2.0 * c;
    assert LowShelfCoefficients(m, band).value == Biquad(
      1.0 * (2.0 - 0.0 + s), 2.0 * 1.0 * (0.0 - 2.0 * c), 1.0 * (2.0 - 0.0 - s),
      2.0 + 0.0 + s, -2.0 * (0.0 + 2.0 * c), 2.0 + 0.0 - s);
    assert HighShelfCoefficients(m, band).value == Biquad(
      1.0 * (2.0 + 0.0 + s), -2.0 * 1.0 * (0.0 + 2.0 * c), 1.0 * (2.0 + 0.0 - s),
      2.0 - 0.0 + s, 2.0 * (0.0 - 2.0 * c), 2.0 - 0.0 - s);
  }

  /** How one band, or the whole cascade, evaluates at one frequency. */
  datatype Outcome = Finite(z: Complex) | NonFinite | Threw

  /** The coefficients of a band, when its type is known and they are finite. */
  function BandBiquad(m: Math, band: Band): Option<Biquad> {
    match FilterTypeOf(band.typeCode)
    case None => None
    case Some(t) => Coefficients(m, t, band)
  }

  /** The band has finite coefficients and its denominator does not vanish at `f`. */
  predicate BandDefined(m: Math, band: Band, f: real) {
    var c := BandBiquad(m, band);
    c.Some? && NormSq(Denominator(c.value, m.cos(Omega(f)), m.sin(Omega(f)))) != 0.0
  }

  /**
   * One band's response at `f`: the calculator registered for its type, or a
   * `TypeError` (calling `undefined`) when its type has none. A finite
   * response is the quotient of numerator by denominator at `e^{iω}`.
   */
  function BandResponse(m: Math, band: Band, f: real): (r: Outcome)
    ensures r.Threw? <==> FilterTypeOf(band.typeCode).None?
    ensures r.NonFinite? <==> FilterTypeOf(band.typeCode).Some? && !BandDefined(m, band, f)
    ensures r.Finite? <==> BandDefined(m, band, f)
    ensures r.Finite? ==> var c := BandBiquad(m, band).value; var w := Omega(f);
      Mul(r.z, Denominator(c, m.cos(w), m.sin(w))) == Numerator(c, m.cos(w), m.sin(w))
  {
    match FilterTypeOf(band.typeCode)
    case None => Threw
    case Some(t) =>
      match Coefficients(m, t, band)
      case None => NonFinite
      case Some(c) =>
        var w := Omega(f);
        match Divide(Numerator(c, m.cos(w), m.sin(w)), Denominator(c, m.cos(w), m.sin(w)))
        case None => NonFinite
        case Some(z) => Finite(z)
  }

  /** A 0 dB band of a known type passes the signal unchanged wherever its response is finite. */
  lemma {:induction false} ZeroGainBandIsOne(m: Math, band: Band, f: real)
    requires Sound(m)
    requires band.gain == 0.0
    requires FilterTypeOf(band.typeCode).Some?
    requires FilterTypeOf(band.typeCode) == Some(Parametric) ==> band.q != 0.0
    ensures BandResponse(m, band, f) == Finite(One) || BandResponse(m, band, f) == NonFinite
    ensures BandDefined(m, band, f) ==> BandResponse(m, band, f) == Finite(One)
    ensures !BandDefined(m, band, f) ==> BandResponse(m, band, f) == NonFinite
  {
    var t := FilterTypeOf(band.typeCode).value;
    ZeroGainTransparent(m, t, band);
    var w := Omega(f);
    TransparentIsOne(Coefficients(m, t, band).value, m.cos(w), m.sin(w));
  }

  /** A filter whose numerator equals its denominator passes every point unchanged, or is non-finite there. */
  lemma {:induction false} TransparentIsOne(c: Biquad, e1: real, e2: real)
    requires Transparent(c)
    ensures var r := Divide(Numerator(c, e1, e2), Denominator(c, e1, e2));
      r == Some(One) || r == None
  {
    var den := Denominator(c, e1, e2);
    assert Numerator(c, e1, e2) == den;
    if NormSq(den) != 0.0 {
      DivideSelf(den);
    }
  }

  /** One step of the cascade: a throw ends the loop; non-finite values absorb finite ones. */
  function Combine(acc: Outcome, r: Outcome): Outcome {
    if acc.Threw? || r.Threw? then Threw
    else if acc.NonFinite? || r.NonFinite? then NonFinite
    else Finite(Mul(acc.z, r.z))
  }

  /** The running product of `sumEQBands` over the bands' responses, starting from 1 + 0i. */
  function Product(rs: seq<Outcome>): (r: Outcome)
    ensures r.Threw? <==> exists i :: 0 <= i < |rs| && rs[i].Threw?
    ensures r.Finite? <==> forall i :: 0 <= i < |rs| ==> rs[i].Finite?
    ensures rs == [] ==> r == Finite(One)
    decreases |rs|
  {
    if |rs| == 0 then Finite(One)
    else
      var init := rs[..|rs| - 1];
      assert forall i :: 0 <= i < |init| ==> init[i] == rs[i];
      Combine(Product(init), rs[|rs| - 1])
  }

  /** One is the unit of the complex product. */
  lemma {:induction false} MulOne(z: Complex)
    ensures Mul(One, z) == z && Mul(z, One) == z
  {
  }

  /** The complex product is associative. */
  lemma {:induction false} MulAssociative(x: Complex, y: Complex, z: Complex)
    ensures Mul(Mul(x, y), z) == Mul(x, Mul(y, z))
  {
    var l, r := Mul(Mul(x, y), z), Mul(x, Mul(y, z));
    assert l.re == x.re * y.re * z.re - x.im * y.im * z.re - x.re * y.im * z.im - x.im * y.re * z.im;
    assert r.re == x.re * y.re * z.re - x.im * y.im * z.re - x.re * y.im * z.im - x.im * y.re * z.im;
    assert l.im == x.re * y.re * z.im - x.im * y.im * z.im + x.re * y.im * z.re + x.im * y.re * z.re;
    assert r.im == x.re * y.re * z.im - x.im * y.im * z.im + x.re * y.im * z.re + x.im * y.re * z.re;
  }

  /** `Combine` is associative and has the unit product as identity. */
  lemma {:induction false} CombineAssociative(a: Outcome, b: Outcome, c: Outcome)
    ensures Combine(Combine(a, b), c) == Combine(a, Combine(b, c))
  {
    if a.Finite? && b.Finite? && c.Finite? {
      MulAssociative(a.z, b.z, c.z);
    }
  }

  /** A single factor is its own product. */
  lemma {:induction false} ProductSingle(x: Outcome)
    ensures Product([x]) == Combine(Finite(One), x)
    ensures x.Finite? ==> Product([x]) == x
  {
    assert [x][..0] == [];
    if x.Finite? {
      MulOne(x.z);
    }
  }

  /** Appending a factor multiplies it into the running product. */
  lemma {:induction false} ProductAppend(rs: seq<Outcome>, x: Outcome)
    ensures Product(rs + [x]) == Combine(Product(rs), x)
  {
    assert (rs + [x])[..|rs|] == rs;
  }

  /** The product of a concatenation is the product of the two parts' products. */
  lemma {:induction false} ProductConcat(a: seq<Outcome>, b: seq<Outcome>)
    ensures Product(a + b) == Combine(Product(a), Product(b))
    decreases |b|
  {
    if |b| == 0 {
      assert a + b == a;
      var p := Product(a);
      if p.Finite? {
        MulOne(p.z);
      }
    } else {
      var init, x := b[..|b| - 1], b[|b| - 1];
      assert b == init + [x];
      assert a + b == (a + init) + [x];
      ProductAppend(a + init, x);
      ProductConcat(a, init);
      ProductAppend(init, x);
      CombineAssociative(Product(a), Product(init), x);
    }
  }

  /** The responses of every band at `f`, in band order. */
  function Responses(m: Math, bands: seq<Band>, f: real): (rs: seq<Outcome>)
    ensures |rs| == |bands|
    ensures forall i :: 0 <= i < |bands| ==> rs[i] == BandResponse(m, bands[i], f)
  {
    seq(|bands|, i requires 0 <= i < |bands| => BandResponse(m, bands[i], f))
  }

  /** `sumEQBands` before the magnitude and phase are taken. */
  function Cascade(m: Math, bands: seq<Band>, f: real): (r: Outcome)
    ensures r.Threw? <==> exists i :: 0 <= i < |bands| && FilterTypeOf(bands[i].typeCode).None?
    ensures r.Finite? <==> forall i :: 0 <= i < |bands| ==> BandResponse(m, bands[i], f).Finite?
    ensures r.Finite? <==> forall i :: 0 <= i < |bands| ==> BandDefined(m, bands[i], f)
    ensures bands == [] ==> r == Finite(One)
  {
    var rs := Responses(m, bands, f);
    assert forall i :: 0 <= i < |bands| ==> (rs[i].Threw? <==> FilterTypeOf(bands[i].typeCode).None?);
    Product(rs)
  }

  /** Adding a band to the cascade multiplies its response into the total. */
  lemma {:induction false} CascadeAppend(m: Math, bands: seq<Band>, band: Band, f: real)
    ensures Cascade(m, bands + [band], f) == Combine(Cascade(m, bands, f), BandResponse(m, band, f))
  {
    assert Responses(m, bands + [band], f) == Responses(m, bands, f) + [BandResponse(m, band, f)];
    ProductAppend(Responses(m, bands, f), BandResponse(m, band, f));
  }

  /** The cascade of two groups of bands is the product of the two groups' cascades. */
  lemma {:induction false} CascadeSplit(m: Math, a: seq<Band>, b: seq<Band>, f: real)
    ensures Cascade(m, a + b, f) == Combine(Cascade(m, a, f), Cascade(m, b, f))
  {
    ResponsesConcat(m, a, b, f);
    ProductConcat(Responses(m, a, f), Responses(m, b, f));
  }

  lemma {:induction false} ResponsesConcat(m: Math, a: seq<Band>, b: seq<Band>, f: real)
    ensures Responses(m, a + b, f) == Responses(m, a, f) + Responses(m, b, f)
  {
    var l, r := Responses(m, a + b, f), Responses(m, a, f) + Responses(m, b, f);
    forall i | 0 <= i < |l|
      ensures l[i] == r[i]
    {
      if i < |a| {
        assert (a + b)[i] == a[i];
      } else {
        assert (a + b)[i] == b[i - |a|];
      }
    }
  }

  /** A product of factors that are each one or non-finite is one or non-finite. */
  lemma {:induction false} ProductOfOnes(rs: seq<Outcome>)
    requires forall i :: 0 <= i < |rs| ==> rs[i] == Finite(One) || rs[i] == NonFinite
    ensures Product(rs) == Finite(One) || Product(rs) == NonFinite
    decreases |rs|
  {
    if |rs| > 0 {
      var init := rs[..|rs| - 1];
      ProductOfOnes(init);
      assert Mul(One, One) == One;
    }
  }

  /** A cascade of 0 dB bands of known types is the identity wherever it is finite. */
  lemma {:induction false} ZeroGainCascadeIsOne(m: Math, bands: seq<Band>, f: real)
    requires Sound(m)
    requires forall i :: 0 <= i < |bands| ==> bands[i].gain == 0.0 && FilterTypeOf(bands[i].typeCode).Some?
    requires forall i :: 0 <= i < |bands| ==> FilterTypeOf(bands[i].typeCode) == Some(Parametric) ==> bands[i].q != 0.0
    ensures Cascade(m, bands, f) == Finite(One) || Cascade(m, bands, f) == NonFinite
    ensures (forall i :: 0 <= i < |bands| ==> BandDefined(m, bands[i], f)) ==> Cascade(m, bands, f) == Finite(One)
  {
    var rs := Responses(m, bands, f);
    forall i | 0 <= i < |rs|
      ensures rs[i] == Finite(One) || rs[i] == NonFinite
    {
      ZeroGainBandIsOne(m, bands[i], f);
    }
    ProductOfOnes(rs);
  }

  /** The point of the plotted curve: magnitude in dB and phase in degrees, when finite. */
  datatype Point = Point(frequency: real, magnitude: Option<real>, phase: Option<real>)

  /**
   * `20·log10(√(re² + im²))` and `atan2(−im, re)·180/π`; the magnitude of a
   * zero product is `-Infinity`, and a non-finite product leaves both non-finite.
   */
  function PointOf(m: Math, f: real, total: Outcome): (p: Point)
    requires !total.Threw?
    ensures p.frequency == f
    ensures p.magnitude.Some? <==> total.Finite? && NormSq(total.z) != 0.0
    ensures p.phase.Some? <==> total.Finite?
    ensures total.Finite? ==> p.magnitude == Magnitude(m, total.z) && p.phase == Some(Phase(m, total.z))
  {
    match total
    case Finite(z) => Point(f, Magnitude(m, z), Some(Phase(m, z)))
    case NonFinite => Point(f, None, None)
  }

  /** The level of `z` in dB, `20·log10 |z|`; none for zero, whose logarithm is `-Infinity`. */
  function Magnitude(m: Math, z: Complex): (r: Option<real>)
    ensures r.None? <==> NormSq(z) == 0.0
  {
    if NormSq(z) == 0.0 then None else Some(20.0 * m.log10(m.sqrt(NormSq(z))))
  }

  /** `|x·y|² = |x|²·|y|²`. */
  lemma {:induction false} NormSqMultiplicative(x: Complex, y: Complex)
    ensures NormSq(Mul(x, y)) == NormSq(x) * NormSq(y)
  {
    var a, b, c, d := x.re, x.im, y.re, y.im;
    calc {
      NormSq(Mul(x, y));
      (a * c - b * d) * (a * c - b * d) + (a * d + b * c) * (a * d + b * c);
      a * a * c * c + b * b * d * d + a * a * d * d + b * b * c * c;
      (a * a + b * b) * (c * c + d * d);
    }
  }

  /**
   * Levels in dB add up along the cascade: when `Math.sqrt` and `Math.log10`
   * behave as the square root and the logarithm at the values involved, the
   * level of a product is the sum of the levels of its factors.
   */
  lemma {:induction false} DecibelsAdd(m: Math, x: Complex, y: Complex)
    requires NormSq(x) != 0.0 && NormSq(y) != 0.0
    requires m.sqrt(NormSq(x) * NormSq(y)) == m.sqrt(NormSq(x)) * m.sqrt(NormSq(y))
    requires m.log10(m.sqrt(NormSq(x)) * m.sqrt(NormSq(y))) == m.log10(m.sqrt(NormSq(x))) + m.log10(m.sqrt(NormSq(y)))
    ensures Magnitude(m, Mul(x, y)).Some?
    ensures Magnitude(m, Mul(x, y)).value == Magnitude(m, x).value + Magnitude(m, y).value
  {
    NormSqMultiplicative(x, y);
    assert NormSq(x) * NormSq(y) != 0.0;
  }

  function Phase(m: Math, z: Complex): real {
    m.atan2(-z.im, z.re) * (180.0 / Pi)
  }

  /** The unit product reads 0 dB and 0 degrees. */
  lemma {:induction false} UnitIsZeroDecibels(m: Math, f: real)
    requires Sound(m)
    ensures PointOf(m, f, Finite(One)).magnitude == Some(0.0)
    ensures PointOf(m, f, Finite(One)).phase == Some(0.0)
  {
    assert -One.im == 0.0;
  }

  /** `calculateFilterResponse`: the curve over the axis, or the `TypeError` of an unknown band type. */
  datatype Curve = Curve(points: seq<Point>) | CurveThrew

  /** `invert` is accepted and ignored. */
  function FilterResponse(m: Math, axis: seq<real>, bands: seq<Band>, invert: bool): (r: Curve)
    ensures r.CurveThrew? <==> |axis| > 0 && exists i :: 0 <= i < |bands| && FilterTypeOf(bands[i].typeCode).None?
    ensures r.Curve? ==> |r.points| == |axis|
    ensures r.Curve? ==> forall k :: 0 <= k < |axis| ==> r.points[k].frequency == axis[k]
    ensures r.Curve? ==> forall k :: 0 <= k < |axis| ==> r.points[k] == PointOf(m, axis[k], Cascade(m, bands, axis[k]))
  {
    if |axis| > 0 && exists i :: 0 <= i < |bands| && FilterTypeOf(bands[i].typeCode).None? then CurveThrew
    else Curve(seq(|axis|, k requires 0 <= k < |axis| => PointOf(m, axis[k], Cascade(m, bands, axis[k]))))
  }

  /** Every band is defined at `f`: the cascade there is a finite product. */
  predicate AllDefined(m: Math, bands: seq<Band>, f: real) {
    forall i :: 0 <= i < |bands| ==> BandDefined(m, bands[i], f)
  }

  /**
   * A curve of 0 dB bands is flat at 0 dB wherever it is finite, and at every
   * point where every band's denominator is non-zero it reads exactly 0 dB
   * and 0 degrees.
   */
  lemma {:induction false} FlatBandsFlatCurve(m: Math, axis: seq<real>, bands: seq<Band>)
    requires Sound(m)
    requires forall i :: 0 <= i < |bands| ==> bands[i].gain == 0.0 && FilterTypeOf(bands[i].typeCode).Some?
    requires forall i :: 0 <= i < |bands| ==> FilterTypeOf(bands[i].typeCode) == Some(Parametric) ==> bands[i].q != 0.0
    ensures FilterResponse(m, axis, bands, false).Curve?
    ensures forall k :: 0 <= k < |axis| ==>
      FilterResponse(m, axis, bands, false).points[k].magnitude in {None, Some(0.0)}
    ensures forall k :: 0 <= k < |axis| && AllDefined(m, bands, axis[k]) ==>
      && FilterResponse(m, axis, bands, false).points[k].magnitude == Some(0.0)
      && FilterResponse(m, axis, bands, false).points[k].phase == Some(0.0)
  {
    var r := FilterResponse(m, axis, bands, false);
    forall k | 0 <= k < |axis|
      ensures r.points[k].magnitude in {None, Some(0.0)}
      ensures AllDefined(m, bands, axis[k]) ==> r.points[k].magnitude == Some(0.0) && r.points[k].phase == Some(0.0)
    {
      ZeroGainCascadeIsOne(m, bands, axis[k]);
      UnitIsZeroDecibels(m, axis[k]);
    }
  }

  predicate StrictlyIncreasing(s: seq<real>) {
    forall i, j :: 0 <= i < j < |s| ==> s[i] < s[j]
  }

  /**
   * The frequency axis: `start · 2^(i/resolution)` for every integer
   * `0 <= i <= log2(end/start) · resolution`, then `end` unless the last
   * point already equals it.
   */
  method FrequencyPoints(m: Math, start: real, end: real, resolution: real) returns (fs: seq<real>)
    requires start > 0.0 && end > 0.0 && resolution > 0.0
    ensures IsAxis(m, start, end, resolution, fs)
  {
    var n := PointCount(m.log2(end / start) * resolution);
    var points := ComputedPoints(m, start, end, resolution, n);
    ClosedAxisPrefix(m, start, resolution, n, points, end);
    fs := CloseAxis(points, end);
  }

  /**
   * What the axis is, whatever `2 ** x` and `Math.log2` return: the first
   * `n` points `start · 2^(i/resolution)`, then `end` unless the last of
   * them already equals it. The last point is always `end`.
   */
  predicate IsAxis(m: Math, start: real, end: real, resolution: real, fs: seq<real>)
    requires start > 0.0 && resolution > 0.0
  {
    var n := PointCount(m.log2(end / start) * resolution);
    && |fs| >= 1 && fs[|fs| - 1] == end
    && n <= |fs| <= n + 1
    && (forall i :: 0 <= i < n ==> fs[i] == start * m.pow2(i as real / resolution))
    && (|fs| == n <==> n > 0 && start * m.pow2((n - 1) as real / resolution) == end)
  }

  /** Under `AxisSound` every axis increases strictly. */
  lemma {:induction false} AxisIncreasing(m: Math, start: real, end: real, resolution: real, fs: seq<real>)
    requires AxisSound(m) && start > 0.0 && end > 0.0 && resolution > 0.0
    requires IsAxis(m, start, end, resolution, fs)
    ensures StrictlyIncreasing(fs)
  {
    var n := PointCount(m.log2(end / start) * resolution);
    AxisSplits(m, start, end, resolution, fs);
    GridOrdered(m, start, end, resolution, fs[..n]);
    if |fs| == n + 1 {
      AppendAbove(fs[..n], end);
    }
  }

  /** An axis is its first `n` points, followed by `end` when that differs from the last of them. */
  lemma {:induction false} AxisSplits(m: Math, start: real, end: real, resolution: real, fs: seq<real>)
    requires start > 0.0 && resolution > 0.0
    requires IsAxis(m, start, end, resolution, fs)
    ensures var n := PointCount(m.log2(end / start) * resolution);
      && (forall k :: 0 <= k < |fs[..n]| ==> fs[..n][k] == start * m.pow2(k as real / resolution))
      && (|fs| == n ==> fs == fs[..n])
      && (|fs| == n + 1 ==> fs == fs[..n] + [end] && (n == 0 || fs[..n][n - 1] != end))
  {
    var n := PointCount(m.log2(end / start) * resolution);
    if |fs| == n + 1 {
      assert fs == fs[..n] + [end];
      if n > 0 {
        assert fs[n - 1] == start * m.pow2((n - 1) as real / resolution);
      }
    }
  }

  /** Closing the computed points keeps them as a prefix and adds `end` only when it is new. */
  lemma {:induction false} ClosedAxisPrefix(m: Math, start: real, resolution: real, n: nat, points: seq<real>, end: real)
    requires resolution > 0.0 && |points| == n
    requires forall k :: 0 <= k < n ==> points[k] == start * m.pow2(k as real / resolution)
    ensures var fs := CloseAxis(points, end);
      && n <= |fs| <= n + 1
      && (forall i :: 0 <= i < n ==> fs[i] == start * m.pow2(i as real / resolution))
      && (|fs| == n <==> n > 0 && start * m.pow2((n - 1) as real / resolution) == end)
  {
    if n > 0 {
      assert points[n - 1] == start * m.pow2((n - 1) as real / resolution);
    }
  }

  /** The closing step of the axis: `end` is appended unless the last point already equals it. */
  function CloseAxis(points: seq<real>, end: real): (fs: seq<real>)
    ensures |fs| >= 1 && fs[|fs| - 1] == end
    ensures |points| <= |fs| <= |points| + 1
    ensures forall k :: 0 <= k < |points| ==> fs[k] == points[k]
    ensures |fs| == |points| <==> |points| > 0 && points[|points| - 1] == end
  {
    if |points| == 0 || points[|points| - 1] != end then points + [end] else points
  }

  /** The `for` loop of the axis: the first `n` points. */
  method ComputedPoints(m: Math, start: real, end: real, resolution: real, n: nat) returns (fs: seq<real>)
    requires start > 0.0 && end > 0.0 && resolution > 0.0
    requires n == PointCount(m.log2(end / start) * resolution)
    ensures |fs| == n
    ensures forall k :: 0 <= k < n ==> fs[k] == start * m.pow2(k as real / resolution)
  {
    fs := [];
    var i := 0;
    while i < n
      invariant 0 <= i <= n
      invariant |fs| == i
      invariant forall k :: 0 <= k < i ==> fs[k] == start * m.pow2(k as real / resolution)
    {
      fs := fs + [start * m.pow2(i as real / resolution)];
      i := i + 1;
    }
  }

  /** Under `AxisSound` the computed points increase strictly and never pass `end`. */
  lemma {:induction false} GridOrdered(m: Math, start: real, end: real, resolution: real, fs: seq<real>)
    requires AxisSound(m) && start > 0.0 && end > 0.0 && resolution > 0.0
    requires |fs| == PointCount(m.log2(end / start) * resolution)
    requires forall k :: 0 <= k < |fs| ==> fs[k] == start * m.pow2(k as real / resolution)
    ensures StrictlyIncreasing(fs)
    ensures forall k :: 0 <= k < |fs| ==> fs[k] <= end
  {
    forall i, j | 0 <= i < j < |fs|
      ensures fs[i] < fs[j]
    {
      AxisPointsIncrease(m, start, resolution, i, j);
    }
    forall k | 0 <= k < |fs|
      ensures fs[k] <= end
    {
      AxisPointWithinEnd(m, start, end, resolution, k);
    }
  }

  /** Appending a bound that differs from the last point keeps the axis strictly increasing. */
  lemma {:induction false} AppendAbove(s: seq<real>, end: real)
    requires StrictlyIncreasing(s)
    requires forall k :: 0 <= k < |s| ==> s[k] <= end
    requires |s| == 0 || s[|s| - 1] != end
    ensures StrictlyIncreasing(s + [end])
  {
    var t := s + [end];
    forall i, j | 0 <= i < j < |t|
      ensures t[i] < t[j]
    {
      if j == |s| && i < |s| - 1 {
        assert s[i] < s[|s| - 1];
      }
    }
  }

  /**
   * When `end` is not below `start` the axis has a computed point, and the
   * first one is `start · 2^0 = start`: it holds of every sequence that
   * starts with the computed points, so of the result of `FrequencyPoints`.
   */
  lemma {:induction false} FirstPointIsStart(m: Math, start: real, end: real, resolution: real, points: seq<real>)
    requires AxisSound(m) && start > 0.0 && resolution > 0.0 && m.log2(end / start) >= 0.0
    requires |points| >= PointCount(m.log2(end / start) * resolution)
    requires forall k :: 0 <= k < PointCount(m.log2(end / start) * resolution) ==>
      points[k] == start * m.pow2(k as real / resolution)
    ensures |points| > 0 && points[0] == start
  {
    MulMonotone(0.0, m.log2(end / start), resolution);
    assert (0 as real) / resolution == 0.0;
    assert points[0] == start * m.pow2(0.0);
  }

  /** The number of integers `i` with `0 <= i <= numBands`. */
  function PointCount(numBands: real): (n: nat)
    ensures numBands < 0.0 ==> n == 0
    ensures numBands >= 0.0 ==> (n - 1) as real <= numBands < n as real
  {
    if numBands < 0.0 then 0 else numBands.Floor + 1
  }

  lemma {:induction false} AxisPointWithinEnd(m: Math, start: real, end: real, resolution: real, i: nat)
    requires AxisSound(m)
    requires start > 0.0 && end > 0.0 && resolution > 0.0
    requires i < PointCount(m.log2(end / start) * resolution)
    ensures start * m.pow2(i as real / resolution) <= end
  {
    var x := i as real / resolution;
    var top := m.log2(end / start);
    IndexWithinTop(i as real, top, resolution);
    assert m.pow2(top) == end / start;
    assert m.pow2(x) <= m.pow2(top);
    ScaleBack(m.pow2(x), end, start);
  }

  lemma {:induction false} IndexWithinTop(i: real, top: real, resolution: real)
    requires resolution > 0.0 && i <= top * resolution
    ensures i / resolution <= top
  {
    DivideMonotone(i, top * resolution, resolution);
    assert (top * resolution) / resolution == top;
  }

  lemma {:induction false} ScaleBack(p: real, end: real, start: real)
    requires start > 0.0 && p <= end / start
    ensures start * p <= end
  {
    MulMonotone(p, end / start, start);
    assert (end / start) * start == end;
  }

  lemma {:induction false} AxisPointsIncrease(m: Math, start: real, resolution: real, k: nat, i: nat)
    requires Pow2Increasing(m) && start > 0.0 && resolution > 0.0 && k < i
    ensures start * m.pow2(k as real / resolution) < start * m.pow2(i as real / resolution)
  {
    DivideStrict(k as real, i as real, resolution);
    MulStrict(m.pow2(k as real / resolution), m.pow2(i as real / resolution), start);
  }
}

=== FILE: frequency_title.dfy ===
/**
 * `formatFrequency`, the band titles of the graphic equalizer, over
 * frequencies in tenths of a hertz, and a reader that takes a title back to
 * its frequency.
 */
module FrequencyTitle {
  import opened Base

  /** The frequencies a title identifies exactly: below 1 kHz, or a whole multiple of 10 Hz. */
  predicate Exact(d: nat) {
    d < 10000 || d % 100 == 0
  }

  /** An integer part and its fraction digits; no point when there are no fraction digits. */
  function WithFraction(n: nat, digits: string): string {
    if digits == "" then NatStr(n) else NatStr(n) + "." + digits
  }

  /** The fraction digits of `f` tenths, none when `f` is 0. */
  function TenthDigits(f: nat): string
    requires f < 10
  {
    if f == 0 then "" else [DigitChar(f)]
  }

  /** The fraction digits of `f` hundredths with trailing zeros dropped. */
  function HundredthDigits(f: nat): string
    requires f < 100
  {
    if f == 0 then "" else if f % 10 == 0 then [DigitChar(f / 10)] else [DigitChar(f / 10), DigitChar(f % 10)]
  }

  /** The text of `u / 10` as `toString()` prints it: no trailing ".0". */
  function Tenths(u: nat): string {
    WithFraction(u / 10, TenthDigits(u % 10))
  }

  /** The text of `c / 100` after `toFixed(2)` and `parseFloat`: trailing zeros dropped. */
  function Hundredths(c: nat): string {
    WithFraction(c / 100, HundredthDigits(c % 100))
  }

  /**
   * `formatFrequency`: below 1 kHz the frequency in hertz; from 1 kHz on
   * the kilohertz rounded to two decimals, with a "k".
   */
  function FormatFrequency(d: nat): (t: string)
    ensures |t| > 0 && (t[|t| - 1] == 'k' <==> d >= 10000)
  {
    if d >= 10000 then Hundredths((d + 50) / 100) + "k"
    else TenthsEndsInDigit(d); Tenths(d)
  }

  /** The first index of `c` in `s`, or `|s|` when there is none. */
  function Find(s: string, c: char): (i: nat)
    ensures i <= |s|
    ensures i < |s| ==> s[i] == c
    ensures forall j :: 0 <= j < i ==> s[j] != c
    decreases |s|
  {
    if |s| == 0 then 0 else if s[0] == c then 0 else 1 + Find(s[1..], c)
  }

  lemma {:induction false} FindAfterDigits(p: string, r: string)
    requires AllDigits(p)
    ensures Find(p + "." + r, '.') == |p|
  {
    var s := p + "." + r;
    assert s[|p|] == '.';
    assert forall j :: 0 <= j < |p| ==> s[j] == p[j];
  }

  lemma {:induction false} FindInDigits(p: string)
    requires AllDigits(p)
    ensures Find(p, '.') == |p|
  {
  }

  /** Reads a decimal text back into its integer part and its fraction digits. */
  function ParseDecimal(s: string): Option<(nat, string)> {
    var i := Find(s, '.');
    if i == |s| then
      if |s| > 0 && AllDigits(s) then Some((DigitsValue(s), "")) else None
    else
      var ip, fp := s[..i], s[i + 1..];
      if |ip| > 0 && AllDigits(ip) && |fp| > 0 && AllDigits(fp) then Some((DigitsValue(ip), fp)) else None
  }

  /** The value of at most `places` fraction digits, in units of 10^-places. */
  function FractionValue(fp: string, places: nat): Option<nat> {
    if |fp| > places || !AllDigits(fp) then None
    else if |fp| == 0 then Some(0)
    else if |fp| == places then Some(DigitsValue(fp))
    else Some(DigitsValue(fp) * 10)
  }

  /**
   * Reads a title back into tenths of a hertz: a "k" title as hundredths of
   * a kilohertz, so always a whole multiple of 10 Hz, anything else as
   * tenths of a hertz; text that is no title reads as nothing.
   */
  function ParseFrequency(t: string): (r: Option<nat>)
    ensures r.Some? ==> |t| > 0
    ensures r.Some? && t[|t| - 1] == 'k' ==> r.value % 100 == 0 && Exact(r.value)
  {
    if |t| > 0 && t[|t| - 1] == 'k' then
      match ParseDecimal(t[..|t| - 1])
      case None => None
      case Some(p) =>
        match FractionValue(p.1, 2)
        case None => None
        case Some(f) => Some((p.0 * 100 + f) * 100)
    else
      match ParseDecimal(t)
      case None => None
      case Some(p) =>
        match FractionValue(p.1, 1)
        case None => None
        case Some(f) => Some(p.0 * 10 + f)
  }

  lemma {:induction false} ParseWhole(n: nat)
    ensures ParseDecimal(NatStr(n)) == Some((n, ""))
  {
    FindInDigits(NatStr(n));
    NatStrRoundTrip(n);
  }

  lemma {:induction false} ParseFraction(n: nat, fp: string)
    requires |fp| > 0 && AllDigits(fp)
    ensures ParseDecimal(NatStr(n) + "." + fp) == Some((n, fp))
  {
    var s := NatStr(n) + "." + fp;
    FindAfterDigits(NatStr(n), fp);
    assert s[..|NatStr(n)|] == NatStr(n);
    assert s[|NatStr(n)| + 1..] == fp;
    NatStrRoundTrip(n);
  }

  /** `ParseDecimal` splits what `WithFraction` joins. */
  lemma {:induction false} WithFractionRoundTrip(n: nat, digits: string)
    requires AllDigits(digits)
    ensures ParseDecimal(WithFraction(n, digits)) == Some((n, digits))
  {
    if digits == "" {
      ParseWhole(n);
    } else {
      ParseFraction(n, digits);
    }
  }

  lemma {:induction false} OneDigitValue(a: nat)
    requires a < 10
    ensures AllDigits([DigitChar(a)]) && DigitsValue([DigitChar(a)]) == a
  {
    var fp := [DigitChar(a)];
    DigitRoundTrip(a);
    assert DigitsValue(fp) == DigitsValue(fp[..0]) * 10 + DigitValue(fp[0]);
  }

  lemma {:induction false} TwoDigitValue(a: nat, b: nat)
    requires a < 10 && b < 10
    ensures AllDigits([DigitChar(a), DigitChar(b)]) && DigitsValue([DigitChar(a), DigitChar(b)]) == a * 10 + b
  {
    var fp := [DigitChar(a), DigitChar(b)];
    OneDigitValue(a);
    assert fp[..1] == [DigitChar(a)];
    DigitRoundTrip(b);
    assert DigitsValue(fp) == DigitsValue(fp[..1]) * 10 + DigitValue(fp[1]);
  }

  lemma {:induction false} TenthDigitsValue(f: nat)
    requires f < 10
    ensures AllDigits(TenthDigits(f)) && FractionValue(TenthDigits(f), 1) == Some(f)
  {
    if f != 0 {
      OneDigitValue(f);
    }
  }

  lemma {:induction false} HundredthDigitsValue(f: nat)
    requires f < 100
    ensures AllDigits(HundredthDigits(f)) && FractionValue(HundredthDigits(f), 2) == Some(f)
  {
    if f != 0 {
      if f % 10 == 0 {
        OneDigitValue(f / 10);
      } else {
        TwoDigitValue(f / 10, f % 10);
      }
    }
  }

  lemma {:induction false} TenthsRoundTrip(u: nat)
    ensures ParseDecimal(Tenths(u)) == Some((u / 10, TenthDigits(u % 10)))
    ensures FractionValue(TenthDigits(u % 10), 1) == Some(u % 10)
  {
    TenthDigitsValue(u % 10);
    WithFractionRoundTrip(u / 10, TenthDigits(u % 10));
  }

  lemma {:induction false} HundredthsRoundTrip(c: nat)
    ensures ParseDecimal(Hundredths(c)) == Some((c / 100, HundredthDigits(c % 100)))
    ensures FractionValue(HundredthDigits(c % 100), 2) == Some(c % 100)
  {
    HundredthDigitsValue(c % 100);
    WithFractionRoundTrip(c / 100, HundredthDigits(c % 100));
  }

  /** A title below 1 kHz ends in a digit. */
  lemma {:induction false} TenthsEndsInDigit(u: nat)
    ensures |Tenths(u)| > 0 && IsDigit(Tenths(u)[|Tenths(u)| - 1])
  {
    var t := Tenths(u);
    if u % 10 != 0 {
      assert t[|t| - 1] == DigitChar(u % 10);
    } else {
      assert t[|t| - 1] == NatStr(u / 10)[|NatStr(u / 10)| - 1];
    }
  }

  /** The title ends in "k" exactly when the frequency is at least 1 kHz. */
  lemma {:induction false} KiloSuffix(d: nat)
    ensures var t := FormatFrequency(d);
      |t| > 0 && (t[|t| - 1] == 'k' <==> d >= 10000)
  {
    if d < 10000 {
      TenthsEndsInDigit(d);
    }
  }

  /** `ParseFrequency` reads back every frequency a title identifies exactly. */
  lemma {:induction false} FormatRoundTrip(d: nat)
    requires Exact(d)
    ensures ParseFrequency(FormatFrequency(d)) == Some(d)
  {
    if d >= 10000 {
      KiloRoundTrip(d);
    } else {
      HertzRoundTrip(d);
    }
  }

  lemma {:induction false} KiloRoundTrip(d: nat)
    requires d >= 10000 && d % 100 == 0
    ensures ParseFrequency(FormatFrequency(d)) == Some(d)
  {
    var c := (d + 50) / 100;
    assert c == d / 100;
    assert FormatFrequency(d) == Hundredths(c) + "k";
    HundredthsRoundTrip(c);
    ParseKilo(Hundredths(c), c / 100, HundredthDigits(c % 100), c % 100);
  }

  /** A decimal with a two-digit fraction followed by "k" reads as that many hundredths of a kilohertz. */
  lemma {:induction false} ParseKilo(t: string, whole: nat, digits: string, f: nat)
    requires ParseDecimal(t) == Some((whole, digits)) && FractionValue(digits, 2) == Some(f)
    ensures ParseFrequency(t + "k") == Some((whole * 100 + f) * 100)
  {
    assert (t + "k")[..|t|] == t;
  }

  lemma {:induction false} HertzRoundTrip(d: nat)
    requires d < 10000
    ensures ParseFrequency(FormatFrequency(d)) == Some(d)
  {
    KiloSuffix(d);
    TenthsRoundTrip(d);
  }

  /** Two exactly identified frequencies with one title are the same frequency. */
  lemma {:induction false} FormatInjective(d1: nat, d2: nat)
    requires Exact(d1) && Exact(d2)
    requires FormatFrequency(d1) == FormatFrequency(d2)
    ensures d1 == d2
  {
    FormatRoundTrip(d1);
    FormatRoundTrip(d2);
  }
}

=== FILE: gain.dfy ===
/**
 * The gain component: the shared strip with its gain control named `gain`,
 * the stepper bindings, and toggles that negate the callable binding itself.
 */
module Gain {
  import opened Base
  import opened Control
  import opened Binding
  import Strip

  datatype Gain = Gain(
    strip: Strip.Strip,
    stepperHoldOff: Binding, stepperTime: Binding, stepperValue: Binding,
    stepperIncrease: Binding, stepperDecrease: Binding)

  function Create(component: string): (g: Gain)
    ensures g.strip == Strip.Create(component, "gain")
    ensures g.stepperHoldOff == New(Address(component, "stepper.hold.off"), NumValue(0.0), false)
    ensures g.stepperTime == New(Address(component, "stepper.time"), NumValue(0.0), false)
    ensures g.stepperValue == New(Address(component, "stepper.value"), NumValue(0.0), false)
    ensures g.stepperIncrease == New(Address(component, "stepper.increase"), BoolValue(false), false)
    ensures g.stepperDecrease == New(Address(component, "stepper.decrease"), BoolValue(false), false)
  {
    Gain(Strip.Create(component, "gain"),
         New(Address(component, "stepper.hold.off"), NumValue(0.0), false),
         New(Address(component, "stepper.time"), NumValue(0.0), false),
         New(Address(component, "stepper.value"), NumValue(0.0), false),
         New(Address(component, "stepper.increase"), BoolValue(false), false),
         New(Address(component, "stepper.decrease"), BoolValue(false), false))
  }

  /** `position`: the gain binding's position view, 0 while unbound. */
  function Position(g: Gain): (p: real)
    ensures g.strip.gain.state.None? ==> p == 0.0
    ensures g.strip.gain.state.Some? ==> p == g.strip.gain.state.value.Position
  {
    PositionView(g.strip.gain)
  }

  /** `SetGain(dB)`: the strip's dB window. */
  function SetGain(g: Gain, dB: real): (m: Mutation)
    ensures !Strip.InGainWindow(dB) ==> m.writes == []
    ensures Strip.InGainWindow(dB) && Connected(g.strip.gain) ==> m.writes == [Write(g.strip.gain.addr, Num(dB))]
  {
    Strip.SetGain(g.strip, dB)
  }

  /** JavaScript truthiness of a primary value, as `!` reads it. */
  predicate Truthy(p: Primary) {
    match p
    case BoolValue(b) => b
    case TextValue(s) => s != ""
    case ListValue(_) => true
    case NumValue(x) => x != 0.0
  }

  /** `ToggleBypass` / `ToggleInvert` / `ToggleMute`: write `!binding()`, the negated primary view. */
  function ToggleSwitch(g: Gain, w: Strip.Switch): (m: Mutation)
    ensures var b := Strip.SwitchBinding(g.strip, w);
      && (Connected(b) ==> m.writes == [Write(b.addr, Flag(!Truthy(PrimaryView(b))))])
      && (!Connected(b) ==> m.writes == [])
  {
    var b := Strip.SwitchBinding(g.strip, w);
    SetValue(b, Flag(!Truthy(PrimaryView(b))))
  }

  /**
   * For a switch with a boolean default, negating the primary view is the
   * same as negating the boolean view: the gain component toggles exactly
   * like the equalizers do.
   */
  lemma ToggleSwitchIsBoolToggle(g: Gain, w: Strip.Switch)
    requires Strip.SwitchBinding(g.strip, w).default == BoolValue(false)
    ensures ToggleSwitch(g, w) == Strip.ToggleSwitch(g.strip, w)
  {
  }

  /** `SetBypass` / `SetInvert` / `SetMute`. */
  function SetSwitch(g: Gain, w: Strip.Switch, state: bool): (m: Mutation)
    ensures var b := Strip.SwitchBinding(g.strip, w);
      Connected(b) ==> m.writes == [Write(b.addr, Flag(state))]
  {
    Strip.SetSwitch(g.strip, w, state)
  }

  /** `Increase(state)` and `Decrease(state)`: the pressed state, forwarded. */
  function Increase(g: Gain, state: bool): (m: Mutation)
    ensures Connected(g.stepperIncrease) ==> m.writes == [Write(g.stepperIncrease.addr, Flag(state))]
    ensures !Connected(g.stepperIncrease) ==> m.writes == []
  {
    SetValue(g.stepperIncrease, Flag(state))
  }

  function Decrease(g: Gain, state: bool): (m: Mutation)
    ensures Connected(g.stepperDecrease) ==> m.writes == [Write(g.stepperDecrease.addr, Flag(state))]
    ensures !Connected(g.stepperDecrease) ==> m.writes == []
  {
    SetValue(g.stepperDecrease, Flag(state))
  }

  datatype Stepper = HoldOff | Time | StepValue

  function StepperBinding(g: Gain, k: Stepper): Binding {
    match k
    case HoldOff => g.stepperHoldOff
    case Time => g.stepperTime
    case StepValue => g.stepperValue
  }

  /** `SetStepperHoldoff`, `SetStepperTime`, `SetStepperValue`. */
  function SetStepper(g: Gain, k: Stepper, value: real): (m: Mutation)
    ensures Connected(StepperBinding(g, k)) ==> m.writes == [Write(StepperBinding(g, k).addr, Num(value))]
    ensures !Connected(StepperBinding(g, k)) ==> m.writes == []
  {
    SetValue(StepperBinding(g, k), Num(value))
  }

  /** On a constructed component every stepper setter writes only to its own control. */
  lemma StepperSettersDistinct(component: string, k1: Stepper, k2: Stepper)
    requires k1 != k2
    ensures StepperBinding(Create(component), k1).addr != StepperBinding(Create(component), k2).addr
    ensures StepperBinding(Create(component), k1).addr != Create(component).strip.gain.addr
  {
  }
}

=== FILE: graphic_eq.dfy ===
/**
 * The graphic equalizer component: the 31 band bindings named after their
 * titles, and the band and component-wide operations.
 */
module GraphicEq {
  import opened Base
  import opened Control
  import opened Binding
  import Strip
  import opened FrequencyTitle
  import opened GraphicEqTables

  /** One band: its two bindings, its title and its frequency. */
  datatype GeqBand = GeqBand(bypass: Binding, gain: Binding, title: string, frequency: real)

  datatype GraphicEq = GraphicEq(strip: Strip.Strip, bands: seq<GeqBand>, bandwidth: real)

  /** The control names of a band: the title, then "Hz.bypass" or "Hz.gain". */
  function BypassName(title: string): string {
    title + "Hz.bypass"
  }

  function GainName(title: string): string {
    title + "Hz.gain"
  }

  function NewBand(component: string, d: nat): (b: GeqBand)
    ensures b.title == FormatFrequency(d) && b.frequency == Hertz(d)
    ensures b.bypass == New(Address(component, BypassName(b.title)), BoolValue(false), false)
    ensures b.gain == New(Address(component, GainName(b.title)), NumValue(0.0), false)
  {
    var title := FormatFrequency(d);
    GeqBand(
      New(Address(component, BypassName(title)), BoolValue(false), false),
      New(Address(component, GainName(title)), NumValue(0.0), false),
      title, Hertz(d))
  }

  /** Band `i` is the 31-band table's entry `i`, bound under its title. */
  predicate Named(g: GraphicEq, component: string) {
    && |g.bands| == |Table(ThirtyOne)|
    && g.strip == Strip.Create(component, "master.gain")
    && forall i :: 0 <= i < |g.bands| ==>
      && g.bands[i].title == FormatFrequency(Table(ThirtyOne)[i])
      && g.bands[i].frequency == Hertz(Table(ThirtyOne)[i])
      && g.bands[i].bypass.addr == Address(component, BypassName(g.bands[i].title))
      && g.bands[i].gain.addr == Address(component, GainName(g.bands[i].title))
  }

  /** The constructor: the component-wide bindings and the 31 bands. */
  function Create(component: string): (g: GraphicEq)
    ensures Named(g, component)
    ensures g.bandwidth == Bandwidth(ThirtyOne)
    ensures forall i :: 0 <= i < |g.bands| ==> g.bands[i] == NewBand(component, Table(ThirtyOne)[i])
  {
    var t := Table(ThirtyOne);
    GraphicEq(Strip.Create(component, "master.gain"),
              seq(|t|, i requires 0 <= i < |t| => NewBand(component, t[i])),
              Bandwidth(ThirtyOne))
  }

  lemma SuffixCancel(s: string, t: string, x: string)
    requires s + x == t + x
    ensures s == t
  {
    assert s == (s + x)[..|s|];
    assert t == (t + x)[..|t|];
  }

  /** Different bands and different roles have different control names. */
  lemma BandNamesDistinct(g: GraphicEq, component: string, i: int, j: int)
    requires Named(g, component)
    requires 0 <= i < |g.bands| && 0 <= j < |g.bands|
    ensures g.bands[i].bypass.addr != g.bands[j].gain.addr
    ensures i != j ==> g.bands[i].bypass.addr != g.bands[j].bypass.addr
    ensures i != j ==> g.bands[i].gain.addr != g.bands[j].gain.addr
  {
    var bi, bj := BypassName(g.bands[i].title), GainName(g.bands[j].title);
    assert bi[|bi| - 1] == 's' && bj[|bj| - 1] == 'n';
    if i != j {
      TablesWellFormed(ThirtyOne);
      var di, dj := Table(ThirtyOne)[i], Table(ThirtyOne)[j];
      assert di != dj;
      if BypassName(g.bands[i].title) == BypassName(g.bands[j].title) {
        SuffixCancel(g.bands[i].title, g.bands[j].title, "Hz.bypass");
        FormatInjective(di, dj);
      }
      if GainName(g.bands[i].title) == GainName(g.bands[j].title) {
        SuffixCancel(g.bands[i].title, g.bands[j].title, "Hz.gain");
        FormatInjective(di, dj);
      }
    }
  }

  /** No band's gain control is the component's master gain. */
  lemma BandGainIsNotMaster(title: string)
    ensures GainName(title) != "master.gain"
  {
    var n := GainName(title);
    if |n| == |"master.gain"| {
      assert n[|n| - 6] == 'z';
    }
  }

  /** A band index outside the list reads `undefined` and the call throws. */
  datatype Outcome = Done(m: Mutation) | Threw

  /** `setGain(band, value)`. */
  function SetBandGain(g: GraphicEq, band: int, value: real): (o: Outcome)
    ensures o.Threw? <==> !(0 <= band < |g.bands|)
    ensures o.Done? && Connected(g.bands[band].gain) ==> o.m.writes == [Write(g.bands[band].gain.addr, Num(value))]
    ensures o.Done? && !Connected(g.bands[band].gain) ==> o.m.writes == []
  {
    if 0 <= band < |g.bands| then Done(SetValue(g.bands[band].gain, Num(value))) else Threw
  }

  /** `toggleBypass(band)`: the negation of that band's bypass view. */
  function ToggleBandBypass(g: GraphicEq, band: int): (o: Outcome)
    ensures o.Threw? <==> !(0 <= band < |g.bands|)
    ensures o.Done? && Connected(g.bands[band].bypass) ==>
      o.m.writes == [Write(g.bands[band].bypass.addr, Flag(!BoolView(g.bands[band].bypass)))]
    ensures o.Done? && !Connected(g.bands[band].bypass) ==> o.m.writes == []
  {
    if 0 <= band < |g.bands| then Done(Toggle(g.bands[band].bypass)) else Threw
  }

  /** What `flat()` sends: a zero to each bound band gain, in band order. */
  function ZeroWrites(bands: seq<GeqBand>): (ws: seq<Write>)
    ensures |ws| <= |bands|
    ensures forall w :: w in ws ==> w.value == Num(0.0)
    decreases |bands|
  {
    if |bands| == 0 then []
    else ZeroWrites(bands[..|bands| - 1]) + SetValue(bands[|bands| - 1].gain, Num(0.0)).writes
  }

  /** `flat()`: `setGain(i, 0)` for every band in turn. */
  method Flat(g: GraphicEq) returns (writes: seq<Write>)
    ensures writes == ZeroWrites(g.bands)
    ensures forall w :: w in writes ==> w.value == Num(0.0)
  {
    writes := [];
    var i := 0;
    while i < |g.bands|
      invariant 0 <= i <= |g.bands|
      invariant writes == ZeroWrites(g.bands[..i])
    {
      var o := SetBandGain(g, i, 0.0);
      writes := writes + o.m.writes;
      assert g.bands[..i + 1][..i] == g.bands[..i];
      i := i + 1;
    }
    assert g.bands[..i] == g.bands;
  }

  /** Every zero goes to some band's gain, and every bound band gain gets one. */
  lemma {:induction false} ZeroWritesTargets(bands: seq<GeqBand>)
    ensures forall w :: w in ZeroWrites(bands) ==> exists i :: 0 <= i < |bands| && w.target == bands[i].gain.addr
    ensures forall i :: 0 <= i < |bands| && Connected(bands[i].gain) ==>
      Write(bands[i].gain.addr, Num(0.0)) in ZeroWrites(bands)
    decreases |bands|
  {
    if |bands| > 0 {
      var init := bands[..|bands| - 1];
      ZeroWritesTargets(init);
      forall w | w in ZeroWrites(bands)
        ensures exists i :: 0 <= i < |bands| && w.target == bands[i].gain.addr
      {
        if w in ZeroWrites(init) {
          var i :| 0 <= i < |init| && w.target == init[i].gain.addr;
          assert bands[i] == init[i];
        } else {
          assert w.target == bands[|bands| - 1].gain.addr;
        }
      }
      forall i | 0 <= i < |bands| && Connected(bands[i].gain)
        ensures Write(bands[i].gain.addr, Num(0.0)) in ZeroWrites(bands)
      {
        if i < |init| {
          assert bands[i] == init[i];
        }
      }
    }
  }

  /** `flat()` never touches a bypass control or the master gain. */
  lemma FlatTouchesOnlyBandGains(g: GraphicEq, component: string)
    requires Named(g, component)
    ensures forall w, j :: w in ZeroWrites(g.bands) && 0 <= j < |g.bands| ==> w.target != g.bands[j].bypass.addr
    ensures forall w :: w in ZeroWrites(g.bands) ==> w.target != g.strip.gain.addr
  {
    ZeroWritesTargets(g.bands);
    forall w | w in ZeroWrites(g.bands)
      ensures forall j :: 0 <= j < |g.bands| ==> w.target != g.bands[j].bypass.addr
      ensures w.target != g.strip.gain.addr
    {
      var i :| 0 <= i < |g.bands| && w.target == g.bands[i].gain.addr;
      forall j | 0 <= j < |g.bands| ensures w.target != g.bands[j].bypass.addr {
        BandNamesDistinct(g, component, j, i);
      }
      BandGainIsNotMaster(g.bands[i].title);
    }
  }

  /** `SetGain(dB)` on the master gain. */
  function SetGain(g: GraphicEq, dB: real): (m: Mutation)
    ensures !Strip.InGainWindow(dB) ==> m.writes == []
    ensures Strip.InGainWindow(dB) && Connected(g.strip.gain) ==> m.writes == [Write(g.strip.gain.addr, Num(dB))]
  {
    Strip.SetGain(g.strip, dB)
  }

  /** `ToggleBypass`, `ToggleInvert`, `ToggleMute`. */
  function ToggleSwitch(g: GraphicEq, w: Strip.Switch): (m: Mutation)
    ensures var b := Strip.SwitchBinding(g.strip, w);
      Connected(b) ==> m.writes == [Write(b.addr, Flag(!BoolView(b)))]
  {
    Strip.ToggleSwitch(g.strip, w)
  }
}

=== FILE: graphic_eq_tables.dfy ===
/**
 * The graphic equalizer's band tables: for each configuration the centre
 * frequencies, split into chunks of at most sixteen, and the
 * bandwidth. Frequencies are kept exactly, in tenths of a hertz (31.5 Hz is
 * 315), so that the tables can be stated without floating point.
 */
module GraphicEqTables {
  import opened FrequencyTitle

  /** The configurations, named by their band counts. */
  datatype Size = Six | Eleven | Sixteen | ThirtyOne | SixtyOne

  function BandCountOf(sz: Size): nat {
    match sz
    case Six => 6
    case Eleven => 11
    case Sixteen => 16
    case ThirtyOne => 31
    case SixtyOne => 61
  }

  /** How many chunks each configuration's list is split into; small chunks keep each ordering proof cheap. */
  function ChunkCount(sz: Size): nat {
    match sz
    case Six => 1
    case Eleven => 1
    case Sixteen => 2
    case ThirtyOne => 3
    case SixtyOne => 5
  }

  /** Chunk `r` of a configuration's centre-frequency list, in tenths of a hertz. */
  function Chunk(sz: Size, r: nat): seq<nat> {
    match (sz, r)
    case (Six, 0) => [160, 630, 2500, 10000, 40000, 160000]
    case (Eleven, 0) => [160, 315, 630, 1250, 2500, 5000, 10000, 20000, 40000, 80000, 160000]
    case (Sixteen, 0) => [160, 250, 400, 630, 1000, 1600, 2500, 4000, 6300, 10000, 16000, 25000, 40000, 63000]
    case (Sixteen, 1) => [100000, 160000]
    case (ThirtyOne, 0) => [160, 200, 250, 315, 400, 500, 630, 800, 1000, 1250, 1600, 2000, 2500, 3150, 4000]
    case (ThirtyOne, 1) => [5000, 6300, 8000, 10000, 12500, 16000, 20000, 25000, 31500, 40000, 50000, 63000]
    case (ThirtyOne, 2) => [80000, 100000, 125000, 160000]
    case (SixtyOne, 0) => [160, 180, 200, 224, 250, 280, 315, 355, 400, 450, 500, 560, 630, 710, 800, 900]
    case (SixtyOne, 1) => [1000, 1120, 1250, 1400, 1600, 1800, 2000, 2240, 2500, 2800, 3150, 3550, 4000, 4500]
    case (SixtyOne, 2) => [5000, 5600, 6300, 7100, 8000, 9000, 10000, 11200, 12500, 14000, 16000, 18000, 20000]
    case (SixtyOne, 3) => [22400, 25000, 28000, 31500, 35500, 40000, 45000, 50000, 56000, 63000, 71000, 80000]
    case (SixtyOne, 4) => [90000, 100000, 112000, 125000, 140000, 160000]
    case _ => []
  }

  /** Chunks `r` onwards, joined. */
  function ChunksFrom(sz: Size, r: nat): seq<nat>
    decreases ChunkCount(sz) - r
  {
    if r >= ChunkCount(sz) then [] else Chunk(sz, r) + ChunksFrom(sz, r + 1)
  }

  /** The centre frequencies of each configuration, in tenths of a hertz. */
  function Table(sz: Size): seq<nat> {
    ChunksFrom(sz, 0)
  }

  /** A frequency in tenths of a hertz, as the number the source holds. */
  function Hertz(d: nat): real {
    d as real / 10.0
  }

  /** Each configuration's bandwidth: 12 octaves shared out over its bands. */
  function Bandwidth(sz: Size): (bw: real)
    ensures bw * BandCountOf(sz) as real == 12.0
  {
    12.0 / BandCountOf(sz) as real
  }

  predicate StrictlyIncreasing(s: seq<nat>) {
    forall i, j :: 0 <= i < j < |s| ==> s[i] < s[j]
  }

  /** Entries `i` onwards are identified exactly and each is below the next. */
  predicate CheckedFrom(s: seq<nat>, i: nat)
    decreases |s| - i
  {
    i >= |s| || (Exact(s[i]) && (i + 1 < |s| ==> s[i] < s[i + 1]) && CheckedFrom(s, i + 1))
  }

  /** A list every entry of which is identified exactly and which strictly increases. */
  predicate WellFormed(s: seq<nat>) {
    && (forall i :: 0 <= i < |s| ==> Exact(s[i]))
    && StrictlyIncreasing(s)
  }

  lemma {:induction false} CheckedFromSound(s: seq<nat>, i: nat)
    requires CheckedFrom(s, i)
    ensures forall j :: i <= j < |s| ==> Exact(s[j])
    ensures forall j, k :: i <= j < k < |s| ==> s[j] < s[k]
    decreases |s| - i
  {
    if i < |s| {
      CheckedFromSound(s, i + 1);
    }
  }

  /** Two well-formed lists in order join into a well-formed list. */
  lemma {:induction false} JoinWellFormed(a: seq<nat>, b: seq<nat>)
    requires WellFormed(a) && WellFormed(b)
    requires |a| > 0 && |b| > 0 ==> a[|a| - 1] < b[0]
    ensures WellFormed(a + b)
  {
    var s := a + b;
    forall i, j | 0 <= i < j < |s| ensures s[i] < s[j] {
      if j < |a| {
      } else if i >= |a| {
        assert s[i] == b[i - |a|] && s[j] == b[j - |a|];
      } else {
        assert s[i] <= a[|a| - 1] < b[0] <= s[j];
      }
    }
  }

  /** Chunk `r` in order before the chunks after it keeps the joined list well formed. */
  lemma {:induction false} JoinChunks(sz: Size, r: nat)
    requires r < ChunkCount(sz)
    requires WellFormed(Chunk(sz, r)) && |Chunk(sz, r)| > 0
    requires WellFormed(ChunksFrom(sz, r + 1))
    requires r + 1 < ChunkCount(sz) ==> |Chunk(sz, r + 1)| > 0 && Chunk(sz, r)[|Chunk(sz, r)| - 1] < Chunk(sz, r + 1)[0]
    ensures WellFormed(ChunksFrom(sz, r)) && ChunksFrom(sz, r)[0] == Chunk(sz, r)[0]
  {
    JoinWellFormed(Chunk(sz, r), ChunksFrom(sz, r + 1));
  }

  lemma {:induction false} ChunkWellFormed(sz: Size, r: nat)
    requires CheckedFrom(Chunk(sz, r), 0)
    ensures WellFormed(Chunk(sz, r))
  {
    CheckedFromSound(Chunk(sz, r), 0);
  }

  /**
   * Every list has the length its configuration names, runs from 16 Hz to
   * 16 kHz, strictly increases, and holds only exactly titled frequencies.
   */
  lemma {:induction false} TablesWellFormed(sz: Size)
    ensures |Table(sz)| == BandCountOf(sz)
    ensures Table(sz)[0] == 160 && Table(sz)[|Table(sz)| - 1] == 160000
    ensures WellFormed(Table(sz))
  {
    TableShape(sz);
    ChunksFromWellFormed(sz, 0);
  }

  lemma {:induction false} TableShape(sz: Size)
    ensures |Table(sz)| == BandCountOf(sz)
    ensures Table(sz)[0] == 160 && Table(sz)[|Table(sz)| - 1] == 160000
  {
    match sz
    case Six => assert Table(Six) == Chunk(Six, 0);
    case Eleven => assert Table(Eleven) == Chunk(Eleven, 0);
    case Sixteen => assert Table(Sixteen) == Chunk(Sixteen, 0) + Chunk(Sixteen, 1);
    case ThirtyOne => ThirtyOneShape();
    case SixtyOne => SixtyOneShape();
  }

  lemma {:induction false} ThirtyOneShape()
    ensures |Table(ThirtyOne)| == 31
    ensures Table(ThirtyOne)[0] == 160 && Table(ThirtyOne)[30] == 160000
  {
    assert ChunksFrom(ThirtyOne, 1) == Chunk(ThirtyOne, 1) + Chunk(ThirtyOne, 2);
    assert Table(ThirtyOne) == Chunk(ThirtyOne, 0) + ChunksFrom(ThirtyOne, 1);
  }

  lemma {:induction false} SixtyOneShape()
    ensures |Table(SixtyOne)| == 61
    ensures Table(SixtyOne)[0] == 160 && Table(SixtyOne)[60] == 160000
  {
    var tail := ChunksFrom(SixtyOne, 3);
    assert tail == Chunk(SixtyOne, 3) + Chunk(SixtyOne, 4);
    assert |tail| == 18 && tail[17] == 160000;
    var middle := ChunksFrom(SixtyOne, 1);
    assert middle == Chunk(SixtyOne, 1) + Chunk(SixtyOne, 2) + tail;
    assert |middle| == 45 && middle[44] == 160000;
    assert Table(SixtyOne) == Chunk(SixtyOne, 0) + middle;
  }

  /** The chunks from `r` on join into a well-formed list that starts with chunk `r`. */
  lemma {:induction false} ChunksFromWellFormed(sz: Size, r: nat)
    ensures WellFormed(ChunksFrom(sz, r))
    ensures r < ChunkCount(sz) ==> ChunksFrom(sz, r)[0] == Chunk(sz, r)[0]
    decreases ChunkCount(sz) - r
  {
    if r < ChunkCount(sz) {
      ChunksFromWellFormed(sz, r + 1);
      EachChunkWellFormed(sz, r);
      JoinChunks(sz, r);
    }
  }

  /** Each chunk is well formed, non-empty, and ends below the start of the next one. */
  lemma {:induction false} EachChunkWellFormed(sz: Size, r: nat)
    requires r < ChunkCount(sz)
    ensures WellFormed(Chunk(sz, r)) && |Chunk(sz, r)| > 0
    ensures r + 1 < ChunkCount(sz) ==> |Chunk(sz, r + 1)| > 0 && Chunk(sz, r)[|Chunk(sz, r)| - 1] < Chunk(sz, r + 1)[0]
  {
    match sz
    case Six => SixChunk0();
    case Eleven => ElevenChunk0();
    case Sixteen => SixteenChunks(r);
    case ThirtyOne => ThirtyOneChunks(r);
    case SixtyOne => SixtyOneChunks(r);
  }

  lemma {:induction false} SixteenChunks(r: nat)
    requires r < 2
    ensures WellFormed(Chunk(Sixteen, r)) && |Chunk(Sixteen, r)| > 0
    ensures r + 1 < 2 ==> |Chunk(Sixteen, r + 1)| > 0 && Chunk(Sixteen, r)[|Chunk(Sixteen, r)| - 1] < Chunk(Sixteen, r + 1)[0]
  {
    match r
    case 0 => SixteenChunk0();
    case 1 => SixteenChunk1();
  }

  lemma {:induction false} ThirtyOneChunks(r: nat)
    requires r < 3
    ensures WellFormed(Chunk(ThirtyOne, r)) && |Chunk(ThirtyOne, r)| > 0
    ensures r + 1 < 3 ==> |Chunk(ThirtyOne, r + 1)| > 0 && Chunk(ThirtyOne, r)[|Chunk(ThirtyOne, r)| - 1] < Chunk(ThirtyOne, r + 1)[0]
  {
    match r
    case 0 => ThirtyOneChunk0();
    case 1 => ThirtyOneChunk1();
    case 2 => ThirtyOneChunk2();
  }

  lemma {:induction false} SixtyOneChunks(r: nat)
    requires r < 5
    ensures WellFormed(Chunk(SixtyOne, r)) && |Chunk(SixtyOne, r)| > 0
    ensures r + 1 < 5 ==> |Chunk(SixtyOne, r + 1)| > 0 && Chunk(SixtyOne, r)[|Chunk(SixtyOne, r)| - 1] < Chunk(SixtyOne, r + 1)[0]
  {
    match r
    case 0 => SixtyOneChunk0();
    case 1 => SixtyOneChunk1();
    case 2 => SixtyOneChunk2();
    case 3 => SixtyOneChunk3();
    case 4 => SixtyOneChunk4();
  }

  /** Each chunk of each list is well formed on its own. */
  lemma {:induction false} SixChunk0()
    ensures WellFormed(Chunk(Six, 0))
  {
    assert CheckedFrom(Chunk(Six, 0), 0);
    ChunkWellFormed(Six, 0);
  }

  lemma {:induction false} ElevenChunk0()
    ensures WellFormed(Chunk(Eleven, 0))
  {
    assert CheckedFrom(Chunk(Eleven, 0), 5);
    assert CheckedFrom(Chunk(Eleven, 0), 0);
    ChunkWellFormed(Eleven, 0);
  }

  lemma {:induction false} SixteenChunk0()
    ensures WellFormed(Chunk(Sixteen, 0))
  {
    assert CheckedFrom(Chunk(Sixteen, 0), 7);
    assert CheckedFrom(Chunk(Sixteen, 0), 0);
    ChunkWellFormed(Sixteen, 0);
  }

  lemma {:induction false} SixteenChunk1()
    ensures WellFormed(Chunk(Sixteen, 1))
  {
    assert CheckedFrom(Chunk(Sixteen, 1), 0);
    ChunkWellFormed(Sixteen, 1);
  }

  lemma {:induction false} ThirtyOneChunk0()
    ensures WellFormed(Chunk(ThirtyOne, 0))
  {
    assert CheckedFrom(Chunk(ThirtyOne, 0), 7);
    assert CheckedFrom(Chunk(ThirtyOne, 0), 0);
    ChunkWellFormed(ThirtyOne, 0);
  }

  lemma {:induction false} ThirtyOneChunk1()
    ensures WellFormed(Chunk(ThirtyOne, 1))
  {
    assert CheckedFrom(Chunk(ThirtyOne, 1), 6);
    assert CheckedFrom(Chunk(ThirtyOne, 1), 0);
    ChunkWellFormed(ThirtyOne, 1);
  }

  lemma {:induction false} ThirtyOneChunk2()
    ensures WellFormed(Chunk(ThirtyOne, 2))
  {
    assert CheckedFrom(Chunk(ThirtyOne, 2), 0);
    ChunkWellFormed(ThirtyOne, 2);
  }

  lemma {:induction false} SixtyOneChunk0()
    ensures WellFormed(Chunk(SixtyOne, 0))
  {
    assert CheckedFrom(Chunk(SixtyOne, 0), 8);
    assert CheckedFrom(Chunk(SixtyOne, 0), 0);
    ChunkWellFormed(SixtyOne, 0);
  }

  lemma {:induction false} SixtyOneChunk1()
    ensures WellFormed(Chunk(SixtyOne, 1))
  {
    assert CheckedFrom(Chunk(SixtyOne, 1), 7);
    assert CheckedFrom(Chunk(SixtyOne, 1), 0);
    ChunkWellFormed(SixtyOne, 1);
  }

  lemma {:induction false} SixtyOneChunk2()
    ensures WellFormed(Chunk(SixtyOne, 2))
  {
    assert CheckedFrom(Chunk(SixtyOne, 2), 6);
    assert CheckedFrom(Chunk(SixtyOne, 2), 0);
    ChunkWellFormed(SixtyOne, 2);
  }

  lemma {:induction false} SixtyOneChunk3()
    ensures WellFormed(Chunk(SixtyOne, 3))
  {
    assert CheckedFrom(Chunk(SixtyOne, 3), 6);
    assert CheckedFrom(Chunk(SixtyOne, 3), 0);
    ChunkWellFormed(SixtyOne, 3);
  }

  lemma {:induction false} SixtyOneChunk4()
    ensures WellFormed(Chunk(SixtyOne, 4))
  {
    assert CheckedFrom(Chunk(SixtyOne, 4), 0);
    ChunkWellFormed(SixtyOne, 4);
  }
}

=== FILE: knob.dfy ===
/**
 * The rotary knob shared by the graphic and parametric equalizers: clamping,
 * arrow-key stepping, pointer dragging with step snapping, and the indicator
 * angle. The two knob components differ only in a display size input.
 */
module Knob {
  import opened Base

  /** The numeric inputs; `Defaults` gives the values both knobs start with. */
  datatype Settings = Settings(min: real, max: real, step: real, sensitivity: real)

  const Defaults: Settings := Settings(-20.0, 20.0, 0.5, 0.15)

  /** A drag in progress: where and at which value it started, and by which pointer. */
  datatype Drag = Drag(startX: real, startY: real, startValue: real, pointerId: int)

  /** The knob: its inputs, the current `value` input and the drag state (`null` is `None`). */
  datatype Knob = Knob(settings: Settings, value: real, drag: Option<Drag>)

  /** A pointer event: its pointer id and client coordinates. */
  datatype Pointer = Pointer(pointerId: int, x: real, y: real)

  /** `clamp(v, min, max)`: `Math.min(max, Math.max(min, v))`. */
  function Clamp(v: real, min: real, max: real): (r: real)
    ensures min <= max ==> min <= r <= max
    ensures min <= v <= max ==> r == v
    ensures v < min && min <= max ==> r == min
    ensures v > max ==> r == max
  {
    Min(max, Max(min, v))
  }

  /** `Math.round`: halves round towards +∞. */
  function Round(x: real): (n: int)
    ensures x - 0.5 < n as real <= x + 0.5
  {
    (x + 0.5).Floor
  }

  /** The nearest multiple of `step`: for a positive step, within half a step of `v`. */
  function Snap(v: real, step: real): (r: real)
    requires step != 0.0
    ensures step > 0.0 ==> v - step / 2.0 < r <= v + step / 2.0
  {
    RoundedNearest(v, step);
    Round(v / step) as real * step
  }

  /** A snapped value lies within half a step of the unsnapped one. */
  lemma SnapIsNearest(v: real, step: real)
    requires step > 0.0
    ensures v - step / 2.0 < Snap(v, step) <= v + step / 2.0
  {
    RoundedNearest(v, step);
  }

  /** `Math.round(v / step) · step` lies within half a positive step of `v`. */
  lemma RoundedNearest(v: real, step: real)
    requires step != 0.0
    ensures step > 0.0 ==> v - step / 2.0 < Round(v / step) as real * step <= v + step / 2.0
  {
    if step > 0.0 {
      RoundedNearestPositive(v, step);
    }
  }

  lemma RoundedNearestPositive(v: real, step: real)
    requires step > 0.0
    ensures v - step / 2.0 < Round(v / step) as real * step <= v + step / 2.0
  {
    var r := Round(v / step) as real;
    MulStrict(v / step - 0.5, r, step);
    MulMonotone(r, v / step + 0.5, step);
    HalfStepAround(v, step);
  }

  /** Half a unit around `v / step`, scaled back by `step`, is half a step around `v`. */
  lemma HalfStepAround(v: real, step: real)
    requires step > 0.0
    ensures (v / step - 0.5) * step == v - step / 2.0
    ensures (v / step + 0.5) * step == v + step / 2.0
  {
    assert (v / step) * step == v;
  }

  /** Snapping leaves a multiple of `step` where it is. */
  lemma SnapKeepsMultiples(n: int, step: real)
    requires step != 0.0
    ensures Snap(n as real * step, step) == n as real * step
  {
    var q := (n as real * step) / step;
    assert q == n as real;
    assert Round(q) == n by {
      assert n as real <= q + 0.5 < n as real + 1.0;
    }
  }

  /** What a pointer move or key press does: nothing, or emit `valueChange`. */
  datatype Emission = Ignored | Emit(x: real) | EmitNaN

  /** `onPointerDown`: start a drag at the current value. */
  function PointerDown(k: Knob, e: Pointer): (k': Knob)
    ensures k'.drag == Some(Drag(e.x, e.y, k.value, e.pointerId))
    ensures k'.settings == k.settings && k'.value == k.value
  {
    k.(drag := Some(Drag(e.x, e.y, k.value, e.pointerId)))
  }

  /**
   * `onPointerMove`: ignored without a drag or for another pointer; else
   * the start value moved by `(dX − dY) · sensitivity`, snapped and
   * clamped. A zero step divides by zero and the knob emits NaN.
   */
  function PointerMove(k: Knob, e: Pointer): (o: Emission)
    ensures o.Ignored? <==> k.drag.None? || e.pointerId != k.drag.value.pointerId
    ensures o.EmitNaN? <==> !o.Ignored? && k.settings.step == 0.0
    ensures o.Emit? && k.settings.min <= k.settings.max ==> k.settings.min <= o.x <= k.settings.max
  {
    if k.drag.None? || e.pointerId != k.drag.value.pointerId then Ignored
    else if k.settings.step == 0.0 then EmitNaN
    else
      var s := k.settings;
      Emit(Clamp(Snap(Dragged(k.drag.value, e, s.sensitivity), s.step), s.min, s.max))
  }

  /** The start value moved by the drag's travel: right and up increase it. */
  function Dragged(d: Drag, e: Pointer, sensitivity: real): real {
    d.startValue + ((e.x - d.startX) - (e.y - d.startY)) * sensitivity
  }

  /** A drag that has not moved emits the start value, once that is a multiple of the step inside the range. */
  lemma StillDragEmitsStart(k: Knob, e: Pointer, n: int)
    requires k.drag.Some? && e.pointerId == k.drag.value.pointerId
    requires e.x == k.drag.value.startX && e.y == k.drag.value.startY
    requires k.settings.step != 0.0 && k.drag.value.startValue == n as real * k.settings.step
    requires k.settings.min <= k.drag.value.startValue <= k.settings.max
    ensures PointerMove(k, e) == Emit(k.drag.value.startValue)
  {
    var d, step := k.drag.value, k.settings.step;
    assert Dragged(d, e, k.settings.sensitivity) == d.startValue;
    SnapKeepsMultiples(n, step);
    assert Snap(n as real * step, step) == n as real * step;
    assert d.startValue == n as real * step;
    assert Snap(d.startValue, step) == d.startValue;
    assert Clamp(d.startValue, k.settings.min, k.settings.max) == d.startValue;
    assert PointerMove(k, e) == Emit(Clamp(Snap(Dragged(d, e, k.settings.sensitivity), step), k.settings.min, k.settings.max));
  }

  /** A drag that stays inside the range emits a value within half a step of the value the drag travel gives. */
  lemma DragTracksPointer(k: Knob, e: Pointer)
    requires k.drag.Some? && e.pointerId == k.drag.value.pointerId && k.settings.step > 0.0
    requires k.settings.min <= Dragged(k.drag.value, e, k.settings.sensitivity) <= k.settings.max
    ensures var v := Dragged(k.drag.value, e, k.settings.sensitivity);
      PointerMove(k, e).Emit? && v - k.settings.step / 2.0 <= PointerMove(k, e).x <= v + k.settings.step / 2.0
  {
    SnapIsNearest(Dragged(k.drag.value, e, k.settings.sensitivity), k.settings.step);
  }

  /** `onPointerUp`: the drag ends, whether or not one was active. */
  function PointerUp(k: Knob): (k': Knob)
    ensures k'.drag.None?
    ensures k'.settings == k.settings && k'.value == k.value
  {
    if k.drag.None? then k else k.(drag := None)
  }

  /** After pointer up every move is ignored until the next pointer down. */
  lemma MovesAfterUpIgnored(k: Knob, e: Pointer)
    ensures PointerMove(PointerUp(k), e) == Ignored
  {
  }

  /** Only events carrying the drag's pointer id move the knob. */
  lemma OtherPointerIgnored(k: Knob, down: Pointer, e: Pointer)
    requires e.pointerId != down.pointerId
    ensures PointerMove(PointerDown(k, down), e) == Ignored
  {
  }

  datatype Key = ArrowUp | ArrowRight | ArrowDown | ArrowLeft | OtherKey(name: string)

  /**
   * `onKeydown`: up and right propose `clamp(value + step)`, down and left
   * `clamp(value − step)`, any other key the value itself; only a change is
   * emitted.
   */
  function Keydown(k: Knob, key: Key): (o: Option<real>)
    ensures key.OtherKey? ==> o.None?
    ensures o.Some? ==> o.value != k.value
    ensures o.Some? && k.settings.min <= k.settings.max ==> k.settings.min <= o.value <= k.settings.max
    ensures (key == ArrowUp || key == ArrowRight) && o.Some? && k.settings.step > 0.0 && k.settings.min <= k.value <= k.settings.max ==> o.value > k.value
    ensures (key == ArrowDown || key == ArrowLeft) && o.Some? && k.settings.step > 0.0 && k.settings.min <= k.value <= k.settings.max ==> o.value < k.value
  {
    var s := k.settings;
    var proposed :=
      match key
      case ArrowUp => Clamp(k.value + s.step, s.min, s.max)
      case ArrowRight => Clamp(k.value + s.step, s.min, s.max)
      case ArrowDown => Clamp(k.value - s.step, s.min, s.max)
      case ArrowLeft => Clamp(k.value - s.step, s.min, s.max)
      case OtherKey(_) => k.value;
    if proposed != k.value then Some(proposed) else None
  }

  /** Stepping up at the top of the range, or down at the bottom, emits nothing. */
  lemma KeyAtEndEmitsNothing(k: Knob)
    requires k.settings.min <= k.settings.max && k.settings.step >= 0.0
    ensures k.value == k.settings.max ==> Keydown(k, ArrowUp) == None && Keydown(k, ArrowRight) == None
    ensures k.value == k.settings.min ==> Keydown(k, ArrowDown) == None && Keydown(k, ArrowLeft) == None
  {
  }

  /** Inside the range, a step up followed by a step down returns to the start. */
  lemma KeyUpThenDown(k: Knob)
    requires k.settings.step > 0.0
    requires k.settings.min <= k.value && k.value + k.settings.step <= k.settings.max
    ensures Keydown(k, ArrowUp) == Some(k.value + k.settings.step)
    ensures Keydown(k.(value := k.value + k.settings.step), ArrowDown) == Some(k.value)
  {
  }

  /**
   * `indicatorRotation`: the value's place in the range mapped onto −135°
   * .. +135°. An empty range divides by zero; the angle is then NaN (value
   * at the bound) or ±Infinity (value elsewhere), and is `None` here.
   */
  function IndicatorAngle(s: Settings, value: real): (a: Option<real>)
    ensures a.None? <==> s.min == s.max
    ensures a.Some? && value == s.min ==> a.value == -135.0
    ensures a.Some? && value == s.max ==> a.value == 135.0
    ensures a.Some? && 2.0 * value == s.min + s.max ==> a.value == 0.0
  {
    if s.min == s.max then None
    else
      var d := s.max - s.min;
      assert d / d == 1.0;
      assert (d / 2.0) / d == 0.5;
      Some(((value - s.min) / d) * 270.0 - 135.0)
  }

  /** On an increasing range a larger value turns the indicator further clockwise. */
  lemma IndicatorMonotone(s: Settings, a: real, b: real)
    requires s.min < s.max && a <= b
    ensures IndicatorAngle(s, a).value <= IndicatorAngle(s, b).value
  {
    DivideMonotone(a - s.min, b - s.min, s.max - s.min);
    MulMonotone((a - s.min) / (s.max - s.min), (b - s.min) / (s.max - s.min), 270.0);
  }
}

=== FILE: led_meter.dfy ===
/**
 * The LED bar meter widget: the reading normalised onto 0..1 for normal and
 * inverse scales, the number of lit LEDs, each LED's colour band and the
 * optional scale marks.
 */
module LedMeter {
  import opened Base

  /** The widget's inputs; `Defaults` gives the values it starts with. */
  datatype Inputs = Inputs(
    value: real, min: real, max: real, ledCount: int, showScale: bool,
    greenThreshold: real, yellowThreshold: real)

  const Defaults: Inputs := Inputs(0.0, 0.0, 10.0, 10, false, 60.0, 80.0)

  /**
   * `normalizeValue`: 0 for an empty range; otherwise the clamped value's
   * distance from `min` as a fraction of the range, on either orientation.
   */
  function Normalize(min: real, max: real, value: real): (n: real)
    ensures 0.0 <= n <= 1.0
    ensures min == max ==> n == 0.0
    ensures min < max && value <= min ==> n == 0.0
    ensures min < max && value >= max ==> n == 1.0
    ensures min > max && value >= min ==> n == 0.0
    ensures min > max && value <= max ==> n == 1.0
  {
    if min == max then 0.0
    else if min < max then
      var c := Max(min, Min(max, value));
      DivideMonotone(0.0, c - min, max - min);
      DivideMonotone(c - min, max - min, max - min);
      DivideSelf(max - min);
      (c - min) / (max - min)
    else
      var c := Max(max, Min(min, value));
      var d := min - max;
      DivideMonotone(0.0, min - c, d);
      DivideMonotone(min - c, d, d);
      DivideSelf(d);
      (min - c) / d
  }

  /** On a normal scale a larger reading never normalises lower; on an inverse scale never higher. */
  lemma NormalizeMonotone(min: real, max: real, a: real, b: real)
    requires a <= b
    ensures min < max ==> Normalize(min, max, a) <= Normalize(min, max, b)
    ensures min > max ==> Normalize(min, max, a) >= Normalize(min, max, b)
  {
    if min < max {
      DivideMonotone(Max(min, Min(max, a)) - min, Max(min, Min(max, b)) - min, max - min);
    } else if min > max {
      DivideMonotone(min - Max(max, Min(min, b)), min - Max(max, Min(min, a)), min - max);
    }
  }

  /** `activeLedCount`: `floor(normalised · ledCount)`. */
  function ActiveLedCount(m: Inputs): (k: int)
    ensures m.ledCount >= 0 ==> 0 <= k <= m.ledCount
    ensures m.ledCount >= 0 && Normalize(m.min, m.max, m.value) == 1.0 ==> k == m.ledCount
    ensures Normalize(m.min, m.max, m.value) == 0.0 ==> k == 0
  {
    var n := Normalize(m.min, m.max, m.value);
    if m.ledCount > 0 then
      MulBetween(n, m.ledCount as real);
      Lit(n, m.ledCount)
    else
      assert m.ledCount == 0 ==> n * m.ledCount as real == 0.0;
      Lit(n, m.ledCount)
  }

  /** The whole number of LEDs a fraction `n` of `count` covers. */
  function Lit(n: real, count: int): int {
    (n * count as real).Floor
  }

  /**
   * `isLedActive(i)`: only LEDs of the bar light up; at full scale every one
   * of them does, and at the bottom of the scale none.
   */
  function IsLedActive(m: Inputs, index: int): (lit: bool)
    ensures lit && m.ledCount >= 0 ==> index < m.ledCount
    ensures m.ledCount >= 0 && Normalize(m.min, m.max, m.value) == 1.0 && index < m.ledCount ==> lit
    ensures Normalize(m.min, m.max, m.value) == 0.0 && index >= 0 ==> !lit
  {
    index < ActiveLedCount(m)
  }

  /** The lit LEDs form a prefix: below a lit LED every LED is lit, above an unlit one none is. */
  lemma ActiveLedsArePrefix(m: Inputs, i: int, j: int)
    requires i <= j
    ensures IsLedActive(m, j) ==> IsLedActive(m, i)
    ensures !IsLedActive(m, i) ==> !IsLedActive(m, j)
  {
  }

  /** A louder reading lights at least as many LEDs on a normal scale. */
  lemma {:induction false} ActiveLedCountMonotone(m: Inputs, louder: real)
    requires m.min < m.max && m.value <= louder && m.ledCount >= 0
    ensures ActiveLedCount(m) <= ActiveLedCount(m.(value := louder))
  {
    NormalizeMonotone(m.min, m.max, m.value, louder);
    LitMonotone(Normalize(m.min, m.max, m.value), Normalize(m.min, m.max, louder), m.ledCount);
  }

  /** Covering a larger fraction never covers fewer whole LEDs. */
  lemma {:induction false} LitMonotone(a: real, b: real, count: int)
    requires a <= b && count >= 0
    ensures Lit(a, count) <= Lit(b, count)
  {
    if count > 0 {
      MulMonotone(a, b, count as real);
      FloorMonotone(a * count as real, b * count as real);
    }
  }

  lemma FloorMonotone(x: real, y: real)
    requires x <= y
    ensures x.Floor <= y.Floor
  {
  }

  datatype LedColor = Green | Yellow | Red

  function Rank(c: LedColor): nat {
    match c
    case Green => 0
    case Yellow => 1
    case Red => 2
  }

  /** The LED's position as a percentage of the bar: `(index + 1) / ledCount · 100`. */
  function Percentage(index: int, ledCount: int): real
    requires ledCount != 0
  {
    ((index + 1) as real / ledCount as real) * 100.0
  }

  /**
   * `getLedColorClass(i)`. With no LEDs the percentage is not finite: +∞ or
   * NaN give red, −∞ gives green.
   */
  function Color(m: Inputs, index: int): (c: LedColor)
    ensures m.ledCount != 0 ==>
      && (c == Green <==> Percentage(index, m.ledCount) <= m.greenThreshold)
      && (c == Yellow <==> m.greenThreshold < Percentage(index, m.ledCount) <= m.yellowThreshold)
      && (c == Red <==> Percentage(index, m.ledCount) > m.greenThreshold && Percentage(index, m.ledCount) > m.yellowThreshold)
  {
    if m.ledCount == 0 then (if index + 1 >= 0 then Red else Green)
    else
      var p := Percentage(index, m.ledCount);
      if p <= m.greenThreshold then Green
      else if p <= m.yellowThreshold then Yellow
      else Red
  }

  /** Along the bar the colours run green, then yellow, then red, never back. */
  lemma ColorsInOrder(m: Inputs, i: int, j: int)
    requires m.ledCount > 0 && i <= j
    ensures Rank(Color(m, i)) <= Rank(Color(m, j))
    ensures Color(m, i) == Red ==> Color(m, j) == Red
  {
    DivideMonotone((i + 1) as real, (j + 1) as real, m.ledCount as real);
    MulMonotone((i + 1) as real / m.ledCount as real, (j + 1) as real / m.ledCount as real, 100.0);
  }

  /** With the default inputs the ten LEDs are six green, two yellow and two red. */
  lemma DefaultBands()
    ensures forall i :: 0 <= i < 6 ==> Color(Defaults, i) == Green
    ensures Color(Defaults, 6) == Yellow && Color(Defaults, 7) == Yellow
    ensures Color(Defaults, 8) == Red && Color(Defaults, 9) == Red
  {
  }

  /** `ledSegments`: `Array(ledCount)` throws a RangeError for a negative count. */
  function LedSegments(m: Inputs): (s: Option<seq<int>>)
    ensures s.None? <==> m.ledCount < 0
    ensures s.Some? ==> |s.value| == m.ledCount
  {
    if m.ledCount < 0 then None else Some(seq(m.ledCount, _ => 0))
  }

  datatype Mark = Mark(value: real, position: string)

  /** `scaleMarks`: none unless `showScale`; else max at 100%, the midpoint at 50%, min at 0%. */
  function ScaleMarks(m: Inputs): (marks: seq<Mark>)
    ensures !m.showScale ==> marks == []
    ensures m.showScale ==>
      && |marks| == 3
      && marks[0] == Mark(m.max, "100%") && marks[2] == Mark(m.min, "0%")
      && marks[1].position == "50%"
      && marks[1].value - m.min == m.max - marks[1].value
  {
    if !m.showScale then []
    else
      var range := m.max - m.min;
      var middle := m.min + range / 2.0;
      [Mark(m.max, "100%"), Mark(middle, "50%"), Mark(m.min, "0%")]
  }
}

=== FILE: meter.dfy ===
/**
 * The meter component: 1 to 256 channels with five level bindings each,
 * four shared controls, the range-checked channel accessors and the
 * per-channel lists.
 */
module Meter {
  import opened Base
  import opened Control
  import opened Binding

  /** The constructor accepts channel counts 1..256. */
  const MaxChannels: int := 256

  /** The five per-channel level controls. */
  datatype Role = MeterRole | PeakRole | PeakMaxRole | RmsRole | RmsMaxRole

  function RolePrefix(r: Role): string {
    match r
    case MeterRole => "meter."
    case PeakRole => "peak."
    case PeakMaxRole => "peak.max."
    case RmsRole => "rms."
    case RmsMaxRole => "rms.max."
  }

  /** The control of channel `i` (1-based): `meter.i`, `peak.i`, `peak.max.i`, `rms.i`, `rms.max.i`. */
  function ChannelName(r: Role, i: nat): string {
    RolePrefix(r) + NatStr(i)
  }

  /**
   * Reads the role back off a channel control name: the first letter, then
   * whether a digit or "max." follows the short prefix.
   */
  function RoleOfName(n: string): (r: Option<Role>)
    ensures r.Some? ==> |n| >= 5
  {
    if |n| < 6 then (if |n| == 5 && n[..4] == "rms." then Some(RmsRole) else None)
    else if n[0] == 'm' then Some(MeterRole)
    else if n[0] == 'p' then (if IsDigit(n[5]) then Some(PeakRole) else Some(PeakMaxRole))
    else if n[0] == 'r' then (if IsDigit(n[4]) then Some(RmsRole) else Some(RmsMaxRole))
    else None
  }

  /** `RoleOfName` recovers the role of every channel control name. */
  lemma RoleOfChannelName(r: Role, i: nat)
    ensures RoleOfName(ChannelName(r, i)) == Some(r)
  {
    var n, d := ChannelName(r, i), NatStr(i);
    assert n[|RolePrefix(r)|] == d[0];
    if r == RmsRole && |n| == 5 {
      assert n[..4] == "rms.";
    }
  }

  /** Different (role, channel) pairs name different controls. */
  lemma ChannelNamesDistinct(r1: Role, i1: nat, r2: Role, i2: nat)
    requires ChannelName(r1, i1) == ChannelName(r2, i2)
    ensures r1 == r2 && i1 == i2
  {
    RoleOfChannelName(r1, i1);
    RoleOfChannelName(r2, i2);
    PrefixCancel(RolePrefix(r1), NatStr(i1), NatStr(i2));
    NatStrInjective(i1, i2);
  }

  datatype Channel = Channel(meter: Binding, peak: Binding, peakMax: Binding, rms: Binding, rmsMax: Binding)

  function Get(c: Channel, r: Role): Binding {
    match r
    case MeterRole => c.meter
    case PeakRole => c.peak
    case PeakMaxRole => c.peakMax
    case RmsRole => c.rms
    case RmsMaxRole => c.rmsMax
  }

  /** Every level binding defaults to 0 with linear position mapping. */
  function NewLevel(component: string, r: Role, i: nat): Binding {
    New(Address(component, ChannelName(r, i)), NumValue(0.0), false)
  }

  function NewChannel(component: string, i: nat): (c: Channel)
    ensures forall r :: Get(c, r) == NewLevel(component, r, i)
  {
    Channel(NewLevel(component, MeterRole, i), NewLevel(component, PeakRole, i),
            NewLevel(component, PeakMaxRole, i), NewLevel(component, RmsRole, i),
            NewLevel(component, RmsMaxRole, i))
  }

  /**
   * The component after construction. The channel count the accessors
   * check is the length of `channels`; the constructor makes them equal.
   */
  datatype Meter = Meter(
    holdTime: Binding, infiniteHold: Binding, responseTime: Binding, select: Binding,
    channels: seq<Channel>)

  /** The constructor throws for a channel count outside 1..256. */
  datatype Created = Created(meter: Meter) | Rejected

  predicate ValidCount(count: int) {
    1 <= count <= MaxChannels
  }

  /** The shared controls, then one `push` per channel 1..count into each list. */
  method Create(component: string, count: int) returns (r: Created)
    ensures r.Rejected? <==> !ValidCount(count)
    ensures r.Created? ==>
      && |r.meter.channels| == count
      && r.meter.holdTime == New(Address(component, "hold.time"), NumValue(0.0), false)
      && r.meter.infiniteHold == New(Address(component, "infinite.hold"), BoolValue(false), false)
      && r.meter.responseTime == New(Address(component, "response.time"), NumValue(0.0), false)
      && r.meter.select == New(Address(component, "select"), TextValue(""), false)
      && forall i, role :: 0 <= i < count ==> Get(r.meter.channels[i], role) == NewLevel(component, role, i + 1)
  {
    if count < 1 || count > MaxChannels {
      return Rejected;
    }
    var channels: seq<Channel> := [];
    var i := 1;
    while i <= count
      invariant 1 <= i <= count + 1
      invariant |channels| == i - 1
      invariant forall j, role :: 0 <= j < |channels| ==> Get(channels[j], role) == NewLevel(component, role, j + 1)
    {
      channels := channels + [NewChannel(component, i)];
      i := i + 1;
    }
    r := Created(Meter(
      New(Address(component, "hold.time"), NumValue(0.0), false),
      New(Address(component, "infinite.hold"), BoolValue(false), false),
      New(Address(component, "response.time"), NumValue(0.0), false),
      New(Address(component, "select"), TextValue(""), false),
      channels));
  }

  /** A channel accessor either throws or yields the channel's reading. */
  datatype Reading = Level(x: real) | OutOfRange

  /** `getMeter`, `getPeak`, `getPeakMax`, `getRms`, `getRmsMax`: channel is 1-based. */
  function Read(m: Meter, r: Role, channel: int): (o: Reading)
    ensures o.OutOfRange? <==> channel < 1 || channel > |m.channels|
    ensures o.Level? ==> o.x == ValueView(Get(m.channels[channel - 1], r))
  {
    if channel < 1 || channel > |m.channels| then OutOfRange
    else Level(ValueView(Get(m.channels[channel - 1], r)))
  }

  /** `meters`, `peaks`, `peakMaxes`, `rmsLevels`, `rmsMaxes`: one value view per channel. */
  function Levels(m: Meter, r: Role): (xs: seq<real>)
    ensures |xs| == |m.channels|
  {
    seq(|m.channels|, i requires 0 <= i < |m.channels| => ValueView(Get(m.channels[i], r)))
  }

  /** The list getters agree with the accessors, channel by channel, in channel order. */
  lemma LevelsMatchReads(m: Meter, r: Role)
    ensures |Levels(m, r)| == |m.channels|
    ensures forall ch :: 1 <= ch <= |m.channels| ==> Read(m, r, ch) == Level(Levels(m, r)[ch - 1])
    ensures forall ch :: ch < 1 || ch > |m.channels| ==> Read(m, r, ch) == OutOfRange
  {
  }

  /** Before any directory arrives, every in-range accessor reads 0 and names its control. */
  lemma CreatedReadsZero(component: string, count: int, m: Meter, r: Role, ch: int)
    requires |m.channels| == count
    requires forall i, role :: 0 <= i < count ==> Get(m.channels[i], role) == NewLevel(component, role, i + 1)
    requires 1 <= ch <= count
    ensures Read(m, r, ch) == Level(0.0)
    ensures Get(m.channels[ch - 1], r).addr == Address(component, ChannelName(r, ch))
  {
    assert Get(m.channels[ch - 1], r) == NewLevel(component, r, ch);
  }

  function SetHoldTime(m: Meter, value: real): (o: Mutation)
    ensures Connected(m.holdTime) ==> o.writes == [Write(m.holdTime.addr, Num(value))]
    ensures !Connected(m.holdTime) ==> o.writes == []
  {
    SetValue(m.holdTime, Num(value))
  }

  /** `setHoldTimePosition(p)`: the hold time maps positions linearly, so `logScale` is never consulted. */
  function SetHoldTimePosition(m: Meter, p: real, logScale: (real, real, real) -> real): (o: Mutation)
    ensures o.writes != [] ==> 0.0 <= p <= 1.0 && Connected(m.holdTime) && m.holdTime.state.Some?
    ensures o.writes != [] ==> m.holdTime.state.value.ValueMin.Some? && m.holdTime.state.value.ValueMax.Some?
    ensures o.writes != [] && !m.holdTime.useLog ==> var s := m.holdTime.state.value;
      o.writes == [Write(m.holdTime.addr, Num(LinearValue(s.ValueMin.value, s.ValueMax.value, p)))]
    ensures Connected(m.holdTime) && HasRange(m.holdTime) && 0.0 <= p <= 1.0 ==>
      o == Mutation([Write(m.holdTime.addr, Num(PositionValue(m.holdTime, p, logScale)))], None)
    ensures !Connected(m.holdTime) || m.holdTime.state.None? ==> o == Mutation([], Some(NotConnected))
    ensures Connected(m.holdTime) && m.holdTime.state.Some? && (p < 0.0 || p > 1.0) ==> o == Mutation([], Some(PositionOutOfRange))
    ensures Connected(m.holdTime) && m.holdTime.state.Some? && 0.0 <= p <= 1.0 && !HasRange(m.holdTime) ==> o == Mutation([], Some(MissingRange))
  {
    SetPosition(m.holdTime, p, logScale)
  }

  function SetInfiniteHold(m: Meter, value: bool): (o: Mutation)
    ensures Connected(m.infiniteHold) ==> o.writes == [Write(m.infiniteHold.addr, Flag(value))]
    ensures !Connected(m.infiniteHold) ==> o.writes == []
  {
    SetValue(m.infiniteHold, Flag(value))
  }

  /** `toggleInfiniteHold()`: `setInfiniteHold` of the negated boolean view. */
  function ToggleInfiniteHold(m: Meter): (o: Mutation)
    ensures o == SetInfiniteHold(m, !BoolView(m.infiniteHold))
    ensures Connected(m.infiniteHold) ==> o.writes == [Write(m.infiniteHold.addr, Flag(!BoolView(m.infiniteHold)))]
  {
    Toggle(m.infiniteHold)
  }

  function SetResponseTime(m: Meter, value: real): (o: Mutation)
    ensures Connected(m.responseTime) ==> o.writes == [Write(m.responseTime.addr, Num(value))]
    ensures !Connected(m.responseTime) ==> o.writes == []
  {
    SetValue(m.responseTime, Num(value))
  }

  function SetResponseTimePosition(m: Meter, p: real, logScale: (real, real, real) -> real): (o: Mutation)
    ensures o.writes != [] ==> 0.0 <= p <= 1.0 && Connected(m.responseTime) && m.responseTime.state.Some?
    ensures o.writes != [] ==> m.responseTime.state.value.ValueMin.Some? && m.responseTime.state.value.ValueMax.Some?
    ensures o.writes != [] && !m.responseTime.useLog ==> var s := m.responseTime.state.value;
      o.writes == [Write(m.responseTime.addr, Num(LinearValue(s.ValueMin.value, s.ValueMax.value, p)))]
    ensures Connected(m.responseTime) && HasRange(m.responseTime) && 0.0 <= p <= 1.0 ==>
      o == Mutation([Write(m.responseTime.addr, Num(PositionValue(m.responseTime, p, logScale)))], None)
    ensures !Connected(m.responseTime) || m.responseTime.state.None? ==> o == Mutation([], Some(NotConnected))
    ensures Connected(m.responseTime) && m.responseTime.state.Some? && (p < 0.0 || p > 1.0) ==> o == Mutation([], Some(PositionOutOfRange))
    ensures Connected(m.responseTime) && m.responseTime.state.Some? && 0.0 <= p <= 1.0 && !HasRange(m.responseTime) ==> o == Mutation([], Some(MissingRange))
  {
    SetPosition(m.responseTime, p, logScale)
  }

  /**
   * Setting a position is setting the value it maps to: on a connected
   * control with a range, `setHoldTimePosition(p)` and
   * `setResponseTimePosition(p)` write what `setHoldTime` and
   * `setResponseTime` write for the mapped value, and for a linear map
   * that value lies at fraction `p` of the range.
   */
  lemma PositionIsMappedValue(m: Meter, p: real, logScale: (real, real, real) -> real)
    requires 0.0 <= p <= 1.0
    ensures Connected(m.holdTime) && HasRange(m.holdTime) ==>
      SetHoldTimePosition(m, p, logScale).writes == SetHoldTime(m, PositionValue(m.holdTime, p, logScale)).writes
    ensures Connected(m.responseTime) && HasRange(m.responseTime) ==>
      SetResponseTimePosition(m, p, logScale).writes == SetResponseTime(m, PositionValue(m.responseTime, p, logScale)).writes
    ensures Connected(m.holdTime) && HasRange(m.holdTime) && !m.holdTime.useLog
            && m.holdTime.state.value.ValueMin.value != m.holdTime.state.value.ValueMax.value ==>
      var s := m.holdTime.state.value;
      (PositionValue(m.holdTime, p, logScale) - s.ValueMin.value) / (s.ValueMax.value - s.ValueMin.value) == p
  {
    if Connected(m.holdTime) && HasRange(m.holdTime) && !m.holdTime.useLog
       && m.holdTime.state.value.ValueMin.value != m.holdTime.state.value.ValueMax.value {
      LinearValueInverse(m.holdTime.state.value.ValueMin.value, m.holdTime.state.value.ValueMax.value, p);
    }
  }

  /** `setSelect(value: string | number)`. */
  datatype SelectValue = SelectText(s: string) | SelectNumber(x: real)

  function SetSelect(m: Meter, value: SelectValue): (o: Mutation)
    ensures Connected(m.select) && value.SelectText? ==> o.writes == [Write(m.select.addr, Text(value.s))]
    ensures Connected(m.select) && value.SelectNumber? ==> o.writes == [Write(m.select.addr, Num(value.x))]
    ensures !Connected(m.select) ==> o.writes == []
  {
    match value
    case SelectText(s) => SetValue(m.select, Text(s))
    case SelectNumber(x) => SetValue(m.select, Num(x))
  }
}

=== FILE: multi_vu_meter.dfy ===
/**
 * The eight-channel VU meter panel: its own dB-to-angle mapping over
 * −24 … +3.2 dB, a peak lamp per channel, and the same needle ballistics.
 */
module MultiVuMeter {
  import opened Base
  import opened Binding
  import Meter
  import VuMeter

  const ChannelCount: int := 8

  /** The needle starts at −60°, below this panel's scale. */
  const RestAngle: real := -60.0

  const MinAngle: real := -50.0
  const MaxAngle: real := 50.0

  /** A channel lights its peak lamp above +3 dB. */
  const PeakThreshold: real := 3.0

  /** `dbToAngle` of this panel: on its −50° … 50° scale, resting at or below −24 dB and pinned above +3.2 dB. */
  function DbToAngle(db: real): (a: real)
    ensures MinAngle <= a <= MaxAngle
    ensures db <= -24.0 ==> a == MinAngle
    ensures db > 3.2 ==> a == MaxAngle
  {
    if db <= -24.0 then -50.0
    else if db <= -20.0 then -50.0 + (db + 24.0) * (3.0 / 4.0)
    else if db <= -10.0 then -47.0 + (db + 20.0) * (10.0 / 10.0)
    else if db <= -7.0 then -37.0 + (db + 10.0) * (10.0 / 3.0)
    else if db <= -5.0 then -27.0 + (db + 7.0) * (44.0 / 2.0)
    else if db <= -3.0 then 17.0 + (db + 5.0) * (-21.0 / 2.0)
    else if db <= -1.0 then -4.0 + (db + 3.0) * (17.0 / 2.0)
    else if db <= 0.0 then 13.0 + (db + 1.0) * (10.0 / 1.0)
    else if db <= 1.0 then 23.0 + db * (11.0 / 1.0)
    else if db <= 2.0 then 34.0 + (db - 1.0) * (8.0 / 1.0)
    else if db <= 3.0 then 42.0 + (db - 2.0) * (7.0 / 1.0)
    else if db <= 3.2 then 49.0 + (db - 3.0) * (1.0 / 0.2)
    else 50.0
  }

  /** Segment `j` of the chain as a formula in dB. */
  function Segment(j: nat, db: real): real
    requires j < 13
  {
    match j
    case 0 => -50.0
    case 1 => -50.0 + (db + 24.0) * (3.0 / 4.0)
    case 2 => -47.0 + (db + 20.0) * (10.0 / 10.0)
    case 3 => -37.0 + (db + 10.0) * (10.0 / 3.0)
    case 4 => -27.0 + (db + 7.0) * (44.0 / 2.0)
    case 5 => 17.0 + (db + 5.0) * (-21.0 / 2.0)
    case 6 => -4.0 + (db + 3.0) * (17.0 / 2.0)
    case 7 => 13.0 + (db + 1.0) * (10.0 / 1.0)
    case 8 => 23.0 + db * (11.0 / 1.0)
    case 9 => 34.0 + (db - 1.0) * (8.0 / 1.0)
    case 10 => 42.0 + (db - 2.0) * (7.0 / 1.0)
    case 11 => 49.0 + (db - 3.0) * (1.0 / 0.2)
    case _ => 50.0
  }

  /** The calibration points (dB, degrees). */
  const Knots: seq<(real, real)> := [
    (-24.0, -50.0), (-20.0, -47.0), (-10.0, -37.0), (-7.0, -27.0), (-5.0, 17.0), (-3.0, -4.0),
    (-1.0, 13.0), (0.0, 23.0), (1.0, 34.0), (2.0, 42.0), (3.0, 49.0), (3.2, 50.0)]

  function SegmentOf(db: real): (j: nat)
    ensures j < 13
    ensures j < 12 ==> db <= Knots[j].0
    ensures j > 0 ==> Knots[j - 1].0 < db
  {
    if db <= -24.0 then 0 else if db <= -20.0 then 1 else if db <= -10.0 then 2
    else if db <= -7.0 then 3 else if db <= -5.0 then 4 else if db <= -3.0 then 5
    else if db <= -1.0 then 6 else if db <= 0.0 then 7 else if db <= 1.0 then 8
    else if db <= 2.0 then 9 else if db <= 3.0 then 10 else if db <= 3.2 then 11 else 12
  }

  lemma DbToAngleIsSegment(db: real)
    ensures DbToAngle(db) == Segment(SegmentOf(db), db)
  {
  }

  /** Continuity: at every breakpoint the segments on either side agree, at the calibration angle. */
  lemma DbToAngleContinuous(j: nat)
    requires j < 12
    ensures Segment(j, Knots[j].0) == Segment(j + 1, Knots[j].0) == Knots[j].1
  {
  }

  lemma DbToAngleClamps(db: real)
    ensures db <= -24.0 ==> DbToAngle(db) == MinAngle
    ensures db > 3.2 ==> DbToAngle(db) == MaxAngle
  {
  }

  lemma DbToAngleBounds(db: real)
    ensures MinAngle <= DbToAngle(db) <= MaxAngle
  {
  }

  /** The calibration is not monotone: −5 dB reads 17° but −3 dB reads −4°. */
  lemma NotMonotone()
    ensures DbToAngle(-5.0) == 17.0 && DbToAngle(-3.0) == -4.0
    ensures exists a: real, b: real :: a < b && DbToAngle(a) > DbToAngle(b)
  {
    assert DbToAngle(-5.0) > DbToAngle(-3.0);
  }

  datatype Panel = Panel(meter: Meter.Meter, angles: seq<real>)

  predicate Valid(p: Panel) {
    |p.meter.channels| == ChannelCount && |p.angles| == ChannelCount
  }

  function Init(meter: Meter.Meter): (p: Panel)
    ensures |p.angles| == ChannelCount
    ensures forall i :: 0 <= i < |p.angles| ==> p.angles[i] == RestAngle
  {
    Panel(meter, seq(ChannelCount, _ => RestAngle))
  }

  /** `targetAngle` of state `i`: `dbToAngle(getRms(i + 1))`, or the accessor's throw. */
  function Target(p: Panel, i: int): (t: Meter.Reading)
    ensures t.OutOfRange? <==> !(0 <= i < |p.meter.channels|)
    ensures t.Level? ==> t.x == DbToAngle(ValueView(p.meter.channels[i].rms))
  {
    match Meter.Read(p.meter, Meter.RmsRole, i + 1)
    case Level(x) => Meter.Level(DbToAngle(x))
    case OutOfRange => Meter.OutOfRange
  }

  /** `peak` of state `i`: the RMS of channel `i + 1` is above +3 dB. */
  function Peak(p: Panel, i: int): (lit: Option<bool>)
    ensures lit.None? <==> !(0 <= i < |p.meter.channels|)
    ensures lit.Some? ==> (lit.value <==> ValueView(p.meter.channels[i].rms) > PeakThreshold)
  {
    match Meter.Read(p.meter, Meter.RmsRole, i + 1)
    case Level(x) => Some(x > PeakThreshold)
    case OutOfRange => None
  }

  /** A lit peak lamp goes with a needle target above 49°, in the last rising segment or pinned. */
  lemma PeakMeansTopOfScale(p: Panel, i: int)
    requires Valid(p) && 0 <= i < ChannelCount
    requires Peak(p, i) == Some(true)
    ensures Target(p, i).x > 49.0
  {
  }

  /** State `i` reads the RMS list's entry `i`: channel `i + 1`. */
  lemma TargetsFollowRms(p: Panel, i: int)
    requires Valid(p) && 0 <= i < ChannelCount
    ensures Target(p, i) == Meter.Level(DbToAngle(Meter.Levels(p.meter, Meter.RmsRole)[i]))
    ensures Peak(p, i) == Some(Meter.Levels(p.meter, Meter.RmsRole)[i] > PeakThreshold)
  {
  }

  function Frame(p: Panel, dt: real, alpha: (real, real) -> real): (r: Panel)
    requires Valid(p)
    ensures Valid(r) && r.meter == p.meter
    ensures forall i :: 0 <= i < ChannelCount ==>
      r.angles[i] == VuMeter.Ballistics(p.angles[i], Target(p, i).x, dt, alpha)
  {
    p.(angles := seq(ChannelCount, i requires 0 <= i < ChannelCount =>
      VuMeter.Ballistics(p.angles[i], Target(p, i).x, dt, alpha)))
  }

  /** With factors in [0, 1], a frame moves each needle towards its target without passing it. */
  lemma FrameApproachesTargets(p: Panel, dt: real, alpha: (real, real) -> real)
    requires Valid(p)
    requires forall tau :: 0.0 <= alpha(dt, tau) <= 1.0
    ensures forall i :: 0 <= i < ChannelCount ==>
      var a, t, n := p.angles[i], Target(p, i).x, Frame(p, dt, alpha).angles[i];
      (a <= t ==> a <= n <= t) && (t <= a ==> t <= n <= a)
  {
    forall i | 0 <= i < ChannelCount
      ensures var a, t, n := p.angles[i], Target(p, i).x, Frame(p, dt, alpha).angles[i];
        (a <= t ==> a <= n <= t) && (t <= a ==> t <= n <= a)
    {
      VuMeter.BallisticsBetween(p.angles[i], Target(p, i).x, dt, alpha);
    }
  }
}

=== FILE: parametric_eq.dfy ===
/**
 * The parametric equalizer component: the component-wide controls, seven
 * bands of six bindings each, the active-band list the response plot reads,
 * and the per-band setters.
 */
module ParametricEq {
  import opened Base
  import opened Control
  import opened Binding
  import Strip
  import EqResponse

  /** The band count the component assumes. */
  const BandCount: nat := 7

  datatype BandControl = BypassControl | FrequencyControl | GainControl | BandwidthControl | QControl | TypeControl

  function Prefix(k: BandControl): string {
    match k
    case BypassControl => "bypass."
    case FrequencyControl => "frequency."
    case GainControl => "gain."
    case BandwidthControl => "bandwidth."
    case QControl => "q.factor."
    case TypeControl => "type."
  }

  /** The control of band `i` (1-based): `bypass.i`, `frequency.i`, … */
  function ControlName(k: BandControl, i: nat): string {
    Prefix(k) + NatStr(i)
  }

  /** The defaults: bypass false, frequency 1000, gain 0, bandwidth 1, Q 1, type Parametric (1). */
  function DefaultOf(k: BandControl): Primary {
    match k
    case BypassControl => BoolValue(false)
    case FrequencyControl => NumValue(1000.0)
    case GainControl => NumValue(0.0)
    case BandwidthControl => NumValue(1.0)
    case QControl => NumValue(1.0)
    case TypeControl => NumValue(EqResponse.FilterTypeCode(EqResponse.Parametric))
  }

  /** Frequency and bandwidth map positions logarithmically; the others linearly. */
  predicate UsesLog(k: BandControl) {
    k == FrequencyControl || k == BandwidthControl
  }

  datatype EqBand = EqBand(bypass: Binding, frequency: Binding, gain: Binding, bandwidth: Binding, q: Binding, filterType: Binding)

  function Get(b: EqBand, k: BandControl): Binding {
    match k
    case BypassControl => b.bypass
    case FrequencyControl => b.frequency
    case GainControl => b.gain
    case BandwidthControl => b.bandwidth
    case QControl => b.q
    case TypeControl => b.filterType
  }

  function NewBinding(component: string, k: BandControl, i: nat): Binding {
    New(Address(component, ControlName(k, i)), DefaultOf(k), UsesLog(k))
  }

  function NewBand(component: string, i: nat): EqBand {
    EqBand(
      NewBinding(component, BypassControl, i),
      NewBinding(component, FrequencyControl, i),
      NewBinding(component, GainControl, i),
      NewBinding(component, BandwidthControl, i),
      NewBinding(component, QControl, i),
      NewBinding(component, TypeControl, i))
  }

  datatype ParametricEq = ParametricEq(strip: Strip.Strip, bands: seq<EqBand>)

  /** Every band's binding is named after its control and its 1-based band number. */
  predicate Named(c: ParametricEq, component: string) {
    && |c.bands| == BandCount
    && forall i, k :: 0 <= i < |c.bands| ==> Get(c.bands[i], k).addr == Address(component, ControlName(k, i + 1))
  }

  /** The constructor: the strip with `master.gain`, then `initialiseSignals` for bands 1..7. */
  function Create(component: string): (c: ParametricEq)
    ensures Named(c, component)
    ensures c.strip == Strip.Create(component, "master.gain")
    ensures forall i, k :: 0 <= i < |c.bands| ==> Get(c.bands[i], k) == NewBinding(component, k, i + 1)
  {
    var bands := seq(BandCount, i requires 0 <= i => NewBand(component, i + 1));
    assert forall i, k :: 0 <= i < |bands| ==> Get(bands[i], k) == NewBinding(component, k, i + 1) by {
      forall i, k | 0 <= i < |bands|
        ensures Get(bands[i], k) == NewBinding(component, k, i + 1)
      {
        NewBandFields(component, i + 1, k);
      }
    }
    ParametricEq(Strip.Create(component, "master.gain"), bands)
  }

  lemma NewBandFields(component: string, i: nat, k: BandControl)
    ensures Get(NewBand(component, i), k) == NewBinding(component, k, i)
  {
  }

  /** Every new binding starts unbound, with its control's default and mapping. */
  lemma CreatedBandDefaults(component: string, i: int, k: BandControl)
    requires 0 <= i < BandCount
    ensures var b := Get(Create(component).bands[i], k);
      && b.default == DefaultOf(k) && b.useLog == UsesLog(k) && !Connected(b)
      && b.addr == Address(component, ControlName(k, i + 1))
  {
  }

  function HeadOf(k: BandControl): (char, char) {
    match k
    case BypassControl => ('b', 'y')
    case FrequencyControl => ('f', 'r')
    case GainControl => ('g', 'a')
    case BandwidthControl => ('b', 'a')
    case QControl => ('q', '.')
    case TypeControl => ('t', 'y')
  }

  lemma PrefixHead(k: BandControl)
    ensures |Prefix(k)| >= 2 && (Prefix(k)[0], Prefix(k)[1]) == HeadOf(k)
  {
  }

  /** Distinct (control, band) pairs name distinct controls. */
  lemma ControlNamesDistinct(k1: BandControl, i1: nat, k2: BandControl, i2: nat)
    requires ControlName(k1, i1) == ControlName(k2, i2)
    ensures k1 == k2 && i1 == i2
  {
    var n1, n2 := ControlName(k1, i1), ControlName(k2, i2);
    // The first two characters already tell the six prefixes apart.
    PrefixHead(k1);
    PrefixHead(k2);
    assert n1[0] == n2[0] && n1[1] == n2[1];
    assert k1 == k2;
    PrefixCancel(Prefix(k1), NatStr(i1), NatStr(i2));
    NatStrInjective(i1, i2);
  }

  /** Indexes of the bands whose bypass view reads false, in band order. */
  function ActiveIndexes(bands: seq<EqBand>): (idx: seq<nat>)
    ensures forall k :: 0 <= k < |idx| ==> idx[k] < |bands| && !BoolView(bands[idx[k]].bypass)
    ensures forall k, l :: 0 <= k < l < |idx| ==> idx[k] < idx[l]
    ensures forall i :: 0 <= i < |bands| && !BoolView(bands[i].bypass) ==> i in idx
    decreases |bands|
  {
    if |bands| == 0 then []
    else
      var init := ActiveIndexes(bands[..|bands| - 1]);
      if BoolView(bands[|bands| - 1].bypass) then init else init + [|bands| - 1]
  }

  /**
   * The band effect. `ActiveEQBands` holds the band objects themselves, so
   * the list is modelled as indexes into `bands`: whoever reads it later sees
   * the bands as they are then (`ActiveBands`). While band 1's frequency reads
   * 0 the previous list is kept; otherwise it becomes the non-bypassed bands
   * in order.
   */
  function RefreshActive(c: ParametricEq, previous: seq<nat>): (active: seq<nat>)
    ensures |c.bands| == 0 || ValueView(c.bands[0].frequency) == 0.0 ==> active == previous
    ensures |c.bands| > 0 && ValueView(c.bands[0].frequency) != 0.0 ==>
      && (forall k :: 0 <= k < |active| ==> active[k] < |c.bands| && !BoolView(c.bands[active[k]].bypass))
      && (forall k, l :: 0 <= k < l < |active| ==> active[k] < active[l])
      && (forall i :: 0 <= i < |c.bands| && !BoolView(c.bands[i].bypass) ==> i in active)
  {
    if |c.bands| == 0 || ValueView(c.bands[0].frequency) == 0.0 then previous
    else ActiveIndexes(c.bands)
  }

  /** The bands an active list refers to, as they are in `c` now. */
  function ActiveBands(c: ParametricEq, active: seq<nat>): (bands: seq<EqBand>)
    requires forall k :: 0 <= k < |active| ==> active[k] < |c.bands|
    ensures |bands| == |active|
    ensures forall k :: 0 <= k < |active| ==> bands[k] == c.bands[active[k]]
  {
    seq(|active|, k requires 0 <= k < |active| => c.bands[active[k]])
  }

  /**
   * The list follows later changes to its bands: once refreshed, if a band
   * changes in a way that leaves every bypass view as it was (a new gain,
   * frequency or Q from the Core), reading the list shows the changed band
   * without another refresh, and the list still holds exactly the
   * non-bypassed bands.
   */
  lemma ActiveListIsLive(c: ParametricEq, previous: seq<nat>, i: nat, band: EqBand)
    requires 0 < |c.bands| && ValueView(c.bands[0].frequency) != 0.0
    requires i < |c.bands| && BoolView(band.bypass) == BoolView(c.bands[i].bypass)
    ensures var active := RefreshActive(c, previous);
      var c' := c.(bands := c.bands[i := band]);
      && (forall k :: 0 <= k < |active| ==> active[k] < |c'.bands|)
      && (forall k :: 0 <= k < |active| ==> !BoolView(ActiveBands(c', active)[k].bypass))
      && (i in active ==> band in ActiveBands(c', active))
      && (forall j :: 0 <= j < |c'.bands| && !BoolView(c'.bands[j].bypass) ==> c'.bands[j] in ActiveBands(c', active))
  {
    var active := RefreshActive(c, previous);
    var c' := c.(bands := c.bands[i := band]);
    var view := ActiveBands(c', active);
    forall j | 0 <= j < |c.bands|
      ensures BoolView(c'.bands[j].bypass) == BoolView(c.bands[j].bypass)
    {
    }
    forall k | 0 <= k < |active|
      ensures !BoolView(view[k].bypass)
    {
      assert view[k] == c'.bands[active[k]];
    }
    forall j | 0 <= j < |c'.bands| && !BoolView(c'.bands[j].bypass)
      ensures c'.bands[j] in view
    {
      assert !BoolView(c.bands[j].bypass);
      assert j in active;
      var k :| 0 <= k < |active| && active[k] == j;
      assert view[k] == c'.bands[j];
    }
    if i in active {
      var k :| 0 <= k < |active| && active[k] == i;
      assert view[k] == band;
    }
  }

  /** Bypassing no band makes every band active, in order. */
  lemma {:induction false} NoBypassAllActive(bands: seq<EqBand>)
    requires forall i :: 0 <= i < |bands| ==> !BoolView(bands[i].bypass)
    ensures ActiveIndexes(bands) == seq(|bands|, i requires 0 <= i => i)
    decreases |bands|
  {
    if |bands| > 0 {
      NoBypassAllActive(bands[..|bands| - 1]);
    }
  }

  /** A band index outside the array reads `undefined` and the call throws. */
  datatype Outcome = Done(m: Mutation) | Threw

  /** `toggleBypass(band)`: the negation of that band's bypass view. */
  function ToggleBandBypass(c: ParametricEq, band: int): (o: Outcome)
    ensures o.Threw? <==> !(0 <= band < |c.bands|)
    ensures o.Done? ==> o.m == Toggle(c.bands[band].bypass)
    ensures o.Done? && Connected(c.bands[band].bypass) ==>
      o.m.writes == [Write(c.bands[band].bypass.addr, Flag(!BoolView(c.bands[band].bypass)))]
  {
    if 0 <= band < |c.bands| then Done(Toggle(c.bands[band].bypass)) else Threw
  }

  /** The per-band setters: `setFilterType`, `setGain`, `setFrequency(Position)`, `setBandwidth(Position)`, `setQ(Position)`. */
  datatype BandSetter =
    | SetFilterType(code: real)
    | SetBandGain(x: real)
    | SetFrequency(x: real)
    | SetFrequencyPosition(p: real)
    | SetBandwidth(x: real)
    | SetBandwidthPosition(p: real)
    | SetQ(x: real)
    | SetQPosition(p: real)
  {
    /** The setters that take a position in 0..1 rather than a value. */
    predicate PositionSetter() {
      SetFrequencyPosition? || SetBandwidthPosition? || SetQPosition?
    }
  }

  function Target(s: BandSetter): BandControl {
    match s
    case SetFilterType(_) => TypeControl
    case SetBandGain(_) => GainControl
    case SetFrequency(_) | SetFrequencyPosition(_) => FrequencyControl
    case SetBandwidth(_) | SetBandwidthPosition(_) => BandwidthControl
    case SetQ(_) | SetQPosition(_) => QControl
  }

  function ApplyBandSetter(c: ParametricEq, band: int, s: BandSetter, logScale: (real, real, real) -> real): (o: Outcome)
    ensures o.Threw? <==> !(0 <= band < |c.bands|)
    ensures o.Done? ==> forall w :: w in o.m.writes ==> w.target == Get(c.bands[band], Target(s)).addr
    ensures o.Done? && Connected(Get(c.bands[band], Target(s))) ==> match s
      case SetFilterType(code) => o.m.writes == [Write(c.bands[band].filterType.addr, Num(code))]
      case SetBandGain(x) => o.m.writes == [Write(c.bands[band].gain.addr, Num(x))]
      case SetFrequency(x) => o.m.writes == [Write(c.bands[band].frequency.addr, Num(x))]
      case SetBandwidth(x) => o.m.writes == [Write(c.bands[band].bandwidth.addr, Num(x))]
      case SetQ(x) => o.m.writes == [Write(c.bands[band].q.addr, Num(x))]
      case _ => |o.m.writes| <= 1
    ensures o.Done? && s.PositionSetter() ==> var b := Get(c.bands[band], Target(s));
      if Connected(b) && HasRange(b) && 0.0 <= s.p <= 1.0
      then o.m == Mutation([Write(b.addr, Num(PositionValue(b, s.p, logScale)))], None)
      else o.m.writes == [] && o.m.diagnostic.Some?
  {
    if !(0 <= band < |c.bands|) then Threw
    else
      var b := Get(c.bands[band], Target(s));
      match s
      case SetFilterType(code) => Done(SetValue(b, Num(code)))
      case SetBandGain(x) => Done(SetValue(b, Num(x)))
      case SetFrequency(x) => Done(SetValue(b, Num(x)))
      case SetFrequencyPosition(p) => Done(SetPosition(b, p, logScale))
      case SetBandwidth(x) => Done(SetValue(b, Num(x)))
      case SetBandwidthPosition(p) => Done(SetPosition(b, p, logScale))
      case SetQ(x) => Done(SetValue(b, Num(x)))
      case SetQPosition(p) => Done(SetPosition(b, p, logScale))
  }

  /** A band setter writes to no binding other than its own band's matching one. */
  lemma SetterTouchesOnlyItsBinding(c: ParametricEq, component: string, band: int, s: BandSetter,
                                    logScale: (real, real, real) -> real, j: int, k: BandControl)
    requires Named(c, component)
    requires 0 <= j < |c.bands|
    requires j != band || k != Target(s)
    ensures var o := ApplyBandSetter(c, band, s, logScale);
      o.Done? ==> forall w :: w in o.m.writes ==> w.target != Get(c.bands[j], k).addr
  {
    var o := ApplyBandSetter(c, band, s, logScale);
    if o.Done? {
      forall w | w in o.m.writes
        ensures w.target != Get(c.bands[j], k).addr
      {
        if w.target == Get(c.bands[j], k).addr {
          ControlNamesDistinct(Target(s), band + 1, k, j + 1);
        }
      }
    }
  }

  /**
   * A position setter writes what the matching value setter writes for the
   * value the position maps to: `setFrequencyPosition(band, p)` is
   * `setFrequency(band, v)` for that band's mapped `v`, and likewise for
   * bandwidth and Q.
   */
  lemma PositionSetterIsValueSetter(c: ParametricEq, band: int, p: real, logScale: (real, real, real) -> real)
    requires 0 <= band < |c.bands| && 0.0 <= p <= 1.0
    ensures var b := c.bands[band].frequency;
      Connected(b) && HasRange(b) ==>
      ApplyBandSetter(c, band, SetFrequencyPosition(p), logScale).m.writes
        == ApplyBandSetter(c, band, SetFrequency(PositionValue(b, p, logScale)), logScale).m.writes
    ensures var b := c.bands[band].bandwidth;
      Connected(b) && HasRange(b) ==>
      ApplyBandSetter(c, band, SetBandwidthPosition(p), logScale).m.writes
        == ApplyBandSetter(c, band, SetBandwidth(PositionValue(b, p, logScale)), logScale).m.writes
    ensures var b := c.bands[band].q;
      Connected(b) && HasRange(b) ==>
      ApplyBandSetter(c, band, SetQPosition(p), logScale).m.writes
        == ApplyBandSetter(c, band, SetQ(PositionValue(b, p, logScale)), logScale).m.writes
  {
  }

  /** `SetGain(dB)` on the master gain. */
  function SetGain(c: ParametricEq, dB: real): (m: Mutation)
    ensures !Strip.InGainWindow(dB) ==> m.writes == []
    ensures Strip.InGainWindow(dB) && Connected(c.strip.gain) ==> m.writes == [Write(c.strip.gain.addr, Num(dB))]
  {
    Strip.SetGain(c.strip, dB)
  }

  /** `ToggleBypass`, `ToggleInvert`, `ToggleMute`. */
  function ToggleSwitch(c: ParametricEq, w: Strip.Switch): (m: Mutation)
    ensures var b := Strip.SwitchBinding(c.strip, w);
      Connected(b) ==> m.writes == [Write(b.addr, Flag(!BoolView(b)))]
  {
    Strip.ToggleSwitch(c.strip, w)
  }

  /** The band as the response calculator receives it. */
  function ResponseBand(b: EqBand): (r: EqResponse.Band)
    ensures r.typeCode == ValueView(b.filterType)
  {
    EqResponse.Band(ValueView(b.frequency), ValueView(b.gain), ValueView(b.q), ValueView(b.filterType))
  }

  /** A band whose type control is not bound reads type 0, which has no calculator. */
  lemma UnboundTypeHasNoCalculator(b: EqBand)
    requires !Connected(b.filterType) && Valid(b.filterType)
    ensures EqResponse.FilterTypeOf(ResponseBand(b).typeCode).None?
  {
  }
}

=== FILE: snapshot.dfy ===
/**
 * The snapshot controller component: four shared bindings, four bindings
 * per snapshot 1..count kept in objects keyed by the snapshot number, and
 * the index-guarded `Load` and `Save`.
 */
module Snapshot {
  import opened Base
  import opened Control
  import opened Binding

  /** The bindings of one snapshot: `last.i`, `match.i`, `load.i`, `save.i`. */
  datatype Slot = Slot(last: Binding, matches: Binding, load: Binding, save: Binding)

  function NewSlot(component: string, i: nat): (s: Slot)
    ensures s.last == New(Address(component, "last." + NatStr(i)), BoolValue(false), false)
    ensures s.matches == New(Address(component, "match." + NatStr(i)), BoolValue(false), false)
    ensures s.load == New(Address(component, "load." + NatStr(i)), NumValue(0.0), false)
    ensures s.save == New(Address(component, "save." + NatStr(i)), BoolValue(false), false)
  {
    Slot(New(Address(component, "last." + NatStr(i)), BoolValue(false), false),
         New(Address(component, "match." + NatStr(i)), BoolValue(false), false),
         New(Address(component, "load." + NatStr(i)), NumValue(0.0), false),
         New(Address(component, "save." + NatStr(i)), BoolValue(false), false))
  }

  datatype Snapshot = Snapshot(
    count: int,
    rampTime: Binding, writeProtect: Binding, loadPrevious: Binding, loadNext: Binding,
    slots: map<int, Slot>)

  /** What construction leaves: exactly the numbers 1..count have bindings. */
  ghost predicate Valid(s: Snapshot) {
    forall i :: i in s.slots <==> 1 <= i <= s.count
  }

  /** The constructor; a count below 1 binds no snapshot at all. */
  method Create(component: string, count: int) returns (s: Snapshot)
    ensures Valid(s) && s.count == count
    ensures s.rampTime == New(Address(component, "ramp.time"), NumValue(0.0), false)
    ensures s.writeProtect == New(Address(component, "write.protect"), BoolValue(false), false)
    ensures s.loadPrevious == New(Address(component, "load.previous"), BoolValue(false), false)
    ensures s.loadNext == New(Address(component, "load.next"), BoolValue(false), false)
    ensures forall i :: i in s.slots ==> i >= 1 && s.slots[i] == NewSlot(component, i)
  {
    var slots: map<int, Slot> := map[];
    var i := 1;
    while i <= count
      invariant 1 <= i <= (if count >= 1 then count + 1 else 1)
      invariant forall j :: j in slots <==> 1 <= j < i
      invariant forall j :: j in slots ==> j >= 1 && slots[j] == NewSlot(component, j)
    {
      slots := slots[i := NewSlot(component, i)];
      i := i + 1;
    }
    s := Snapshot(count,
      New(Address(component, "ramp.time"), NumValue(0.0), false),
      New(Address(component, "write.protect"), BoolValue(false), false),
      New(Address(component, "load.previous"), BoolValue(false), false),
      New(Address(component, "load.next"), BoolValue(false), false),
      slots);
  }

  /** Reaching a missing entry of a binding object calls `trigger` on `undefined` and throws. */
  datatype Outcome = Done(m: Mutation) | Threw

  predicate InRange(s: Snapshot, index: int) {
    0 < index <= s.count
  }

  /** `Load(index)`: trigger `load.index` when 0 < index ≤ count, else nothing. */
  function Load(s: Snapshot, index: int): (o: Outcome)
    ensures !InRange(s, index) ==> o == Done(Mutation([], None))
    ensures InRange(s, index) && index in s.slots ==> o == Done(Trigger(s.slots[index].load))
    ensures o.Threw? <==> InRange(s, index) && index !in s.slots
  {
    if index > 0 && index <= s.count then
      (if index in s.slots then Done(Trigger(s.slots[index].load)) else Threw)
    else Done(Mutation([], None))
  }

  /** `Save(index)`: the same guard around `save.index`. */
  function Save(s: Snapshot, index: int): (o: Outcome)
    ensures !InRange(s, index) ==> o == Done(Mutation([], None))
    ensures InRange(s, index) && index in s.slots ==> o == Done(Trigger(s.slots[index].save))
    ensures o.Threw? <==> InRange(s, index) && index !in s.slots
  {
    if index > 0 && index <= s.count then
      (if index in s.slots then Done(Trigger(s.slots[index].save)) else Threw)
    else Done(Mutation([], None))
  }

  /**
   * On a constructed controller `Load` and `Save` never throw, and they pulse
   * `load.i` / `save.i` exactly when 0 < i ≤ count and the control is bound.
   */
  lemma LoadSaveGuards(component: string, s: Snapshot, index: int)
    requires Valid(s)
    requires forall i :: i in s.slots ==> s.slots[i] == NewSlot(component, i)
    ensures Load(s, index).Done? && Save(s, index).Done?
    ensures Load(s, index).m.writes != [] <==> InRange(s, index) && Connected(s.slots[index].load)
    ensures Save(s, index).m.writes != [] <==> InRange(s, index) && Connected(s.slots[index].save)
    ensures Load(s, index).m.writes != [] ==>
      Load(s, index).m.writes == [Write(Address(component, "load." + NatStr(index)), Flag(true)),
                                  Write(Address(component, "load." + NatStr(index)), Flag(false))]
    ensures Save(s, index).m.writes != [] ==>
      Save(s, index).m.writes == [Write(Address(component, "save." + NatStr(index)), Flag(true)),
                                  Write(Address(component, "save." + NatStr(index)), Flag(false))]
  {
    assert InRange(s, index) <==> index in s.slots;
  }

  /** Load and Save address different controls for every pair of snapshot numbers. */
  lemma LoadSaveNamesDistinct(i: nat, j: nat)
    ensures "load." + NatStr(i) != "save." + NatStr(j)
    ensures i != j ==> "load." + NatStr(i) != "load." + NatStr(j)
    ensures i != j ==> "save." + NatStr(i) != "save." + NatStr(j)
  {
    assert ("load." + NatStr(i))[0] == 'l';
    assert ("save." + NatStr(j))[0] == 's';
    if i != j {
      if "load." + NatStr(i) == "load." + NatStr(j) {
        PrefixCancel("load.", NatStr(i), NatStr(j));
        NatStrInjective(i, j);
      }
      if "save." + NatStr(i) == "save." + NatStr(j) {
        PrefixCancel("save.", NatStr(i), NatStr(j));
        NatStrInjective(i, j);
      }
    }
  }

  /** `Previous()` and `Next()`: momentary pulses on `load.previous` and `load.next`. */
  function Previous(s: Snapshot): (m: Mutation)
    ensures Connected(s.loadPrevious) ==> m.writes == [Write(s.loadPrevious.addr, Flag(true)), Write(s.loadPrevious.addr, Flag(false))]
    ensures !Connected(s.loadPrevious) ==> m.writes == []
  {
    Trigger(s.loadPrevious)
  }

  function Next(s: Snapshot): (m: Mutation)
    ensures Connected(s.loadNext) ==> m.writes == [Write(s.loadNext.addr, Flag(true)), Write(s.loadNext.addr, Flag(false))]
    ensures !Connected(s.loadNext) ==> m.writes == []
  {
    Trigger(s.loadNext)
  }

  /** `SetRampTime(value)`: forwarded unchanged. */
  function SetRampTime(s: Snapshot, value: real): (m: Mutation)
    ensures Connected(s.rampTime) ==> m.writes == [Write(s.rampTime.addr, Num(value))]
    ensures !Connected(s.rampTime) ==> m.writes == []
  {
    SetValue(s.rampTime, Num(value))
  }
}

=== FILE: spl_meter.dfy ===
/**
 * The SPL meter component: its bindings, the display mappings (bar width,
 * time-weighting label, maximum-hold label), and its toggle and triggers.
 */
module SplMeter {
  import opened Base
  import opened Control
  import opened Binding

  /** The bar spans 30 dB SPL (empty) to 130 dB SPL (full). */
  const MinLevel: real := 30.0
  const MaxLevel: real := 130.0

  datatype SplMeter = SplMeter(
    capturedLevel: Binding, capture: Binding, calibrate: Binding, resetMaxLevel: Binding,
    infiniteMaxHold: Binding, level: Binding, maxHoldTime: Binding, maxLevel: Binding,
    referenceLevel: Binding, timeWeighting: Binding)

  function Create(component: string): (s: SplMeter)
    ensures s.capturedLevel == New(Address(component, "captured.level"), NumValue(0.0), false)
    ensures s.capture == New(Address(component, "capture"), BoolValue(false), false)
    ensures s.calibrate == New(Address(component, "calibrate"), BoolValue(false), false)
    ensures s.resetMaxLevel == New(Address(component, "reset.max.level"), BoolValue(false), false)
    ensures s.infiniteMaxHold == New(Address(component, "infinite.max.hold"), BoolValue(false), false)
    ensures s.level == New(Address(component, "level"), NumValue(0.0), false)
    ensures s.maxHoldTime == New(Address(component, "max.hold.time"), NumValue(0.0), false)
    ensures s.maxLevel == New(Address(component, "max.level"), NumValue(0.0), false)
    ensures s.referenceLevel == New(Address(component, "reference.level"), NumValue(94.0), false)
    ensures s.timeWeighting == New(Address(component, "time"), NumValue(125.0), false)
  {
    SplMeter(
      New(Address(component, "captured.level"), NumValue(0.0), false),
      New(Address(component, "capture"), BoolValue(false), false),
      New(Address(component, "calibrate"), BoolValue(false), false),
      New(Address(component, "reset.max.level"), BoolValue(false), false),
      New(Address(component, "infinite.max.hold"), BoolValue(false), false),
      New(Address(component, "level"), NumValue(0.0), false),
      New(Address(component, "max.hold.time"), NumValue(0.0), false),
      New(Address(component, "max.level"), NumValue(0.0), false),
      New(Address(component, "reference.level"), NumValue(94.0), false),
      New(Address(component, "time"), NumValue(125.0), false))
  }

  /** `splBarWidth` for a level: the percentage of the 30..130 span, clamped to 0..100. */
  function BarWidth(level: real): (w: real)
    ensures 0.0 <= w <= 100.0
    ensures level <= MinLevel ==> w == 0.0
    ensures level >= MaxLevel ==> w == 100.0
    ensures MinLevel < level < MaxLevel ==> w == level - MinLevel
  {
    Max(0.0, Min(100.0, ((level - MinLevel) / (MaxLevel - MinLevel)) * 100.0))
  }

  /** A louder level never gives a narrower bar. */
  lemma BarWidthMonotone(a: real, b: real)
    requires a <= b
    ensures BarWidth(a) <= BarWidth(b)
  {
  }

  function SplBarWidth(s: SplMeter): (w: real)
    ensures 0.0 <= w <= 100.0
  {
    BarWidth(ValueView(s.level))
  }

  /** The time-weighting label; `Millis(t)` is rendered as the number's text followed by "ms". */
  datatype Weighting = Fast | Slow | Millis(t: real)

  function WeightingOf(time: real): (l: Weighting)
    ensures l == Fast <==> time <= 125.0
    ensures l == Slow <==> 125.0 < time <= 1000.0
    ensures l.Millis? <==> time > 1000.0
    ensures l.Millis? ==> l.t == time
  {
    if time <= 125.0 then Fast
    else if time <= 1000.0 then Slow
    else Millis(time)
  }

  /**
   * `timeWeightingDisplay`; `numberText` stands for JavaScript's number to
   * text conversion.
   */
  function TimeWeightingDisplay(s: SplMeter, numberText: real -> string): (t: string)
    ensures var time := ValueView(s.timeWeighting);
      && (time <= 125.0 ==> t == "Fast")
      && (125.0 < time <= 1000.0 ==> t == "Slow")
      && (time > 1000.0 ==> t == numberText(time) + "ms")
  {
    match WeightingOf(ValueView(s.timeWeighting))
    case Fast => "Fast"
    case Slow => "Slow"
    case Millis(time) => numberText(time) + "ms"
  }

  /** The label tells the three cases apart: "Fast" and "Slow" do not end in "ms". */
  lemma WeightingLabelsDistinct(s: SplMeter, numberText: real -> string)
    ensures var t := TimeWeightingDisplay(s, numberText);
      && (t == "Fast" <==> ValueView(s.timeWeighting) <= 125.0)
      && (t == "Slow" <==> 125.0 < ValueView(s.timeWeighting) <= 1000.0)
  {
    var t := TimeWeightingDisplay(s, numberText);
    var time := ValueView(s.timeWeighting);
    if time > 1000.0 {
      assert t[|t| - 1] == 's' && t[|t| - 2] == 'm';
    }
  }

  /**
   * `maxHoldTimeDisplay`: '∞' with infinite hold on, else the time with two
   * decimals (`fixed2`, standing for `toFixed(2)`) and an 's'.
   */
  function MaxHoldTimeDisplay(s: SplMeter, fixed2: real -> string): (t: string)
    ensures BoolView(s.infiniteMaxHold) ==> t == "∞"
    ensures !BoolView(s.infiniteMaxHold) ==> t == fixed2(ValueView(s.maxHoldTime)) + "s"
  {
    if BoolView(s.infiniteMaxHold) then "∞" else fixed2(ValueView(s.maxHoldTime)) + "s"
  }

  /** With infinite hold on, the time reading does not affect the label. */
  lemma InfiniteHoldHidesTime(s: SplMeter, x: ControlState, fixed2: real -> string)
    requires BoolView(s.infiniteMaxHold)
    ensures MaxHoldTimeDisplay(s.(maxHoldTime := s.maxHoldTime.(state := Some(x))), fixed2)
         == MaxHoldTimeDisplay(s, fixed2) == "∞"
  {
  }

  /** `Calibrate()` and `ResetMaxLevel()`: momentary pulses. */
  function Calibrate(s: SplMeter): (m: Mutation)
    ensures Connected(s.calibrate) ==> m.writes == [Write(s.calibrate.addr, Flag(true)), Write(s.calibrate.addr, Flag(false))]
    ensures !Connected(s.calibrate) ==> m.writes == []
  {
    Trigger(s.calibrate)
  }

  function ResetMaxLevel(s: SplMeter): (m: Mutation)
    ensures Connected(s.resetMaxLevel) ==> m.writes == [Write(s.resetMaxLevel.addr, Flag(true)), Write(s.resetMaxLevel.addr, Flag(false))]
    ensures !Connected(s.resetMaxLevel) ==> m.writes == []
  {
    Trigger(s.resetMaxLevel)
  }

  function SetInfiniteMaxHold(s: SplMeter, value: bool): (m: Mutation)
    ensures Connected(s.infiniteMaxHold) ==> m.writes == [Write(s.infiniteMaxHold.addr, Flag(value))]
    ensures !Connected(s.infiniteMaxHold) ==> m.writes == []
  {
    SetValue(s.infiniteMaxHold, Flag(value))
  }

  /** `toggleInfiniteMaxHold()`: the negated boolean view, written back. */
  function ToggleInfiniteMaxHold(s: SplMeter): (m: Mutation)
    ensures m == SetInfiniteMaxHold(s, !BoolView(s.infiniteMaxHold))
    ensures Connected(s.infiniteMaxHold) ==> m.writes == [Write(s.infiniteMaxHold.addr, Flag(!BoolView(s.infiniteMaxHold)))]
  {
    Toggle(s.infiniteMaxHold)
  }

  /** The value setters: `setCapture`, `setMaxHoldTime`, `setReferenceLevel`, `setTimeWeighting`. */
  datatype Setting = Capture(on: bool) | MaxHoldTime(x: real) | ReferenceLevel(x: real) | TimeWeighting(x: real)

  function SettingBinding(s: SplMeter, k: Setting): Binding {
    match k
    case Capture(_) => s.capture
    case MaxHoldTime(_) => s.maxHoldTime
    case ReferenceLevel(_) => s.referenceLevel
    case TimeWeighting(_) => s.timeWeighting
  }

  function SettingValue(k: Setting): WriteValue {
    match k
    case Capture(on) => Flag(on)
    case MaxHoldTime(x) => Num(x)
    case ReferenceLevel(x) => Num(x)
    case TimeWeighting(x) => Num(x)
  }

  function Set(s: SplMeter, k: Setting): (m: Mutation)
    ensures Connected(SettingBinding(s, k)) ==> m.writes == [Write(SettingBinding(s, k).addr, SettingValue(k))]
    ensures !Connected(SettingBinding(s, k)) ==> m.writes == []
  {
    SetValue(SettingBinding(s, k), SettingValue(k))
  }
}

=== FILE: strip.dfy ===
/**
 * The component-wide controls the equalizers and the gain component share:
 * bypass, an output gain, invert and mute, with the gain setter's dB window
 * and the three switches' set and toggle operations.
 */
module Strip {
  import opened Base
  import opened Control
  import opened Binding

  /** `SetGain` writes only strictly inside (-101, 21) dB. */
  const GainFloor: real := -101.0
  const GainCeiling: real := 21.0

  datatype Strip = Strip(bypass: Binding, gain: Binding, invert: Binding, mute: Binding)

  datatype Switch = BypassSwitch | InvertSwitch | MuteSwitch

  /** The four bindings made in a component's constructor; `gainControl` is `master.gain` or `gain`. */
  function Create(component: string, gainControl: string): (s: Strip)
    ensures s.bypass == New(Address(component, "bypass"), BoolValue(false), false)
    ensures s.gain == New(Address(component, gainControl), NumValue(0.0), false)
    ensures s.invert == New(Address(component, "invert"), BoolValue(false), false)
    ensures s.mute == New(Address(component, "mute"), BoolValue(false), false)
  {
    Strip(
      New(Address(component, "bypass"), BoolValue(false), false),
      New(Address(component, gainControl), NumValue(0.0), false),
      New(Address(component, "invert"), BoolValue(false), false),
      New(Address(component, "mute"), BoolValue(false), false))
  }

  function SwitchBinding(s: Strip, w: Switch): Binding {
    match w
    case BypassSwitch => s.bypass
    case InvertSwitch => s.invert
    case MuteSwitch => s.mute
  }

  predicate InGainWindow(dB: real) {
    GainFloor < dB < GainCeiling
  }

  /** `SetGain(dB)`: outside the window nothing happens, not even a warning. */
  function SetGain(s: Strip, dB: real): (m: Mutation)
    ensures !InGainWindow(dB) ==> m == Mutation([], None)
    ensures InGainWindow(dB) && Connected(s.gain) ==> m.writes == [Write(s.gain.addr, Num(dB))]
    ensures InGainWindow(dB) && !Connected(s.gain) ==> m.writes == [] && m.diagnostic == Some(NotConnected)
    ensures forall w :: w in m.writes ==> w.target == s.gain.addr && w.value == Num(dB)
  {
    if GainFloor < dB < GainCeiling then SetValue(s.gain, Num(dB)) else Mutation([], None)
  }

  /** The window's edges: −101 and 21 are rejected, −100 and 20 pass. */
  lemma GainWindowEdges(s: Strip)
    requires Connected(s.gain)
    ensures SetGain(s, -101.0).writes == [] && SetGain(s, 21.0).writes == []
    ensures SetGain(s, -100.0).writes == [Write(s.gain.addr, Num(-100.0))]
    ensures SetGain(s, 20.0).writes == [Write(s.gain.addr, Num(20.0))]
  {
  }

  /** `SetBypass` / `SetInvert` / `SetMute`: forward the state unchanged. */
  function SetSwitch(s: Strip, w: Switch, state: bool): (m: Mutation)
    ensures Connected(SwitchBinding(s, w)) ==> m.writes == [Write(SwitchBinding(s, w).addr, Flag(state))]
    ensures !Connected(SwitchBinding(s, w)) ==> m.writes == []
  {
    SetValue(SwitchBinding(s, w), Flag(state))
  }

  /** `ToggleBypass` / `ToggleInvert` / `ToggleMute`: write the negation of the boolean view. */
  function ToggleSwitch(s: Strip, w: Switch): (m: Mutation)
    ensures Connected(SwitchBinding(s, w)) ==> m.writes == [Write(SwitchBinding(s, w).addr, Flag(!BoolView(SwitchBinding(s, w))))]
    ensures !Connected(SwitchBinding(s, w)) ==> m.writes == []
    ensures m == SetSwitch(s, w, !BoolView(SwitchBinding(s, w)))
  {
    Toggle(SwitchBinding(s, w))
  }
}

=== FILE: vu_meter.dfy ===
/**
 * The analogue VU meter widget: the calibrated dB-to-needle-angle mapping
 * and the needle ballistics, over real numbers. The exponential smoothing
 * factor `1 − e^(−dt/τ)` is a parameter.
 */
module VuMeter {
  import Base

  /** Attack and release time constants in seconds. */
  const AttackTime: real := 0.3
  const ReleaseTime: real := 0.6

  /** The needle's rest and full-scale angles in degrees. */
  const MinAngle: real := -60.0
  const MaxAngle: real := 58.0

  /**
   * `dbToAngle`: linear interpolation between the calibration points −32 dB
   * … +7 dB. The needle stays on the scale, rests at or below −32 dB, is
   * pinned from +7 dB on, and reads 22.5° at 0 VU.
   */
  function DbToAngle(db: real): (a: real)
    ensures MinAngle <= a <= MaxAngle
    ensures db <= -32.0 ==> a == MinAngle
    ensures db >= 7.0 ==> a == MaxAngle
    ensures db == 0.0 ==> a == 22.5
  {
    if db <= -32.0 then -60.0
    else if db <= -30.0 then -60.0 + (db + 32.0) * (2.0 / 2.0)
    else if db <= -20.0 then -58.0 + (db + 30.0) * (10.5 / 10.0)
    else if db <= -10.0 then -47.5 + (db + 20.0) * (11.5 / 10.0)
    else if db <= -7.0 then -36.0 + (db + 10.0) * (12.8 / 3.0)
    else if db <= -5.0 then -23.2 + (db + 7.0) * (12.9 / 2.0)
    else if db <= -4.0 then -10.3 + (db + 5.0) * (7.6 / 1.0)
    else if db <= -3.0 then -2.7 + (db + 4.0) * (7.3 / 1.0)
    else if db <= -2.0 then 4.6 + (db + 3.0) * (5.6 / 1.0)
    else if db <= -1.0 then 10.2 + (db + 2.0) * (6.6 / 1.0)
    else if db <= 0.0 then 16.8 + (db + 1.0) * (5.7 / 1.0)
    else if db <= 1.0 then 22.5 + db * (5.0 / 1.0)
    else if db <= 2.0 then 27.5 + (db - 1.0) * (6.0 / 1.0)
    else if db <= 3.0 then 33.5 + (db - 2.0) * (5.7 / 1.0)
    else if db <= 4.0 then 39.2 + (db - 3.0) * (5.0 / 1.0)
    else if db <= 5.0 then 44.2 + (db - 4.0) * (4.8 / 1.0)
    else if db <= 7.0 then 49.0 + (db - 5.0) * (9.0 / 2.0)
    else 58.0
  }

  /** The calibration points (dB, degrees), in increasing order of dB. */
  const Knots: seq<(real, real)> := [
    (-32.0, -60.0), (-30.0, -58.0), (-20.0, -47.5), (-10.0, -36.0), (-7.0, -23.2),
    (-5.0, -10.3), (-4.0, -2.7), (-3.0, 4.6), (-2.0, 10.2), (-1.0, 16.8),
    (0.0, 22.5), (1.0, 27.5), (2.0, 33.5), (3.0, 39.2), (4.0, 44.2), (5.0, 49.0), (7.0, 58.0)]

  /** The mapping passes through every calibration point. */
  lemma HitsKnots()
    ensures forall k :: 0 <= k < |Knots| ==> DbToAngle(Knots[k].0) == Knots[k].1
  {
  }

  /** Below −32 dB the needle rests; above +7 dB it is pinned. */
  lemma DbToAngleClamps(db: real)
    ensures db <= -32.0 ==> DbToAngle(db) == MinAngle
    ensures db > 7.0 ==> DbToAngle(db) == MaxAngle
  {
  }

  /** The needle stays on the scale. */
  lemma DbToAngleBounds(db: real)
    ensures MinAngle <= DbToAngle(db) <= MaxAngle
  {
  }

  /** Segment `j` of the chain (0 = the rest position, 17 = the pinned end) as a formula in dB. */
  function Segment(j: nat, db: real): real
    requires j < 18
  {
    match j
    case 0 => -60.0
    case 1 => -60.0 + (db + 32.0) * (2.0 / 2.0)
    case 2 => -58.0 + (db + 30.0) * (10.5 / 10.0)
    case 3 => -47.5 + (db + 20.0) * (11.5 / 10.0)
    case 4 => -36.0 + (db + 10.0) * (12.8 / 3.0)
    case 5 => -23.2 + (db + 7.0) * (12.9 / 2.0)
    case 6 => -10.3 + (db + 5.0) * (7.6 / 1.0)
    case 7 => -2.7 + (db + 4.0) * (7.3 / 1.0)
    case 8 => 4.6 + (db + 3.0) * (5.6 / 1.0)
    case 9 => 10.2 + (db + 2.0) * (6.6 / 1.0)
    case 10 => 16.8 + (db + 1.0) * (5.7 / 1.0)
    case 11 => 22.5 + db * (5.0 / 1.0)
    case 12 => 27.5 + (db - 1.0) * (6.0 / 1.0)
    case 13 => 33.5 + (db - 2.0) * (5.7 / 1.0)
    case 14 => 39.2 + (db - 3.0) * (5.0 / 1.0)
    case 15 => 44.2 + (db - 4.0) * (4.8 / 1.0)
    case 16 => 49.0 + (db - 5.0) * (9.0 / 2.0)
    case _ => 58.0
  }

  /** The segment a level falls in: the number of breakpoints strictly below it. */
  function SegmentOf(db: real): (j: nat)
    ensures j < 18
    ensures j < 17 ==> db <= Knots[j].0
    ensures j > 0 ==> Knots[j - 1].0 < db
  {
    if db <= -32.0 then 0 else if db <= -30.0 then 1 else if db <= -20.0 then 2
    else if db <= -10.0 then 3 else if db <= -7.0 then 4 else if db <= -5.0 then 5
    else if db <= -4.0 then 6 else if db <= -3.0 then 7 else if db <= -2.0 then 8
    else if db <= -1.0 then 9 else if db <= 0.0 then 10 else if db <= 1.0 then 11
    else if db <= 2.0 then 12 else if db <= 3.0 then 13 else if db <= 4.0 then 14
    else if db <= 5.0 then 15 else if db <= 7.0 then 16 else 17
  }

  /** The chain of `if`s evaluates the segment the level falls in. */
  lemma DbToAngleIsSegment(db: real)
    ensures DbToAngle(db) == Segment(SegmentOf(db), db)
  {
  }

  /** Continuity: at every breakpoint the segments on either side agree. */
  lemma DbToAngleContinuous(j: nat)
    requires j < 17
    ensures Segment(j, Knots[j].0) == Segment(j + 1, Knots[j].0) == Knots[j].1
  {
  }

  /** A louder signal never moves the needle back. */
  lemma DbToAngleMonotone(a: real, b: real)
    requires a <= b
    ensures DbToAngle(a) <= DbToAngle(b)
  {
  }

  /** `vuBallistics`: attack when rising, release otherwise. */
  function TimeConstant(prev: real, target: real): (tau: real)
    ensures target > prev ==> tau == AttackTime
    ensures target <= prev ==> tau == ReleaseTime
  {
    if target > prev then AttackTime else ReleaseTime
  }

  /**
   * One animation step: `prev + α·(target − prev)`, where `alpha(dt, τ)`
   * stands for `1 − e^(−dt/τ)`.
   */
  function Ballistics(prev: real, target: real, dt: real, alpha: (real, real) -> real): (next: real)
    ensures var a := alpha(dt, TimeConstant(prev, target));
      && (0.0 <= a <= 1.0 && prev <= target ==> prev <= next <= target)
      && (0.0 <= a <= 1.0 && target <= prev ==> target <= next <= prev)
      && (a == 1.0 ==> next == target)
      && (a == 0.0 ==> next == prev)
  {
    var a := alpha(dt, TimeConstant(prev, target));
    StepWithin(prev, target, a);
    Approach(prev, target, a)
  }

  /** `StepBetween` for any factor, stated for the factors in [0, 1]. */
  lemma StepWithin(prev: real, target: real, a: real)
    ensures 0.0 <= a <= 1.0 && prev <= target ==> prev <= Approach(prev, target, a) <= target
    ensures 0.0 <= a <= 1.0 && target <= prev ==> target <= Approach(prev, target, a) <= prev
  {
    if 0.0 <= a <= 1.0 {
      StepBetween(prev, target, a);
    }
  }

  /** The move a fraction `a` of the way from `prev` to `target`. */
  function Approach(prev: real, target: real, a: real): real {
    prev + a * (target - prev)
  }

  /** With a smoothing factor in [0, 1] the needle lands between where it was and where it is heading. */
  lemma BallisticsBetween(prev: real, target: real, dt: real, alpha: (real, real) -> real)
    requires 0.0 <= alpha(dt, TimeConstant(prev, target)) <= 1.0
    ensures var next := Ballistics(prev, target, dt, alpha);
      && (prev <= target ==> prev <= next <= target)
      && (target <= prev ==> target <= next <= prev)
  {
    StepBetween(prev, target, alpha(dt, TimeConstant(prev, target)));
  }

  /** `prev + a·(target − prev)` for `a` in [0, 1] lies between `prev` and `target`. */
  lemma StepBetween(prev: real, target: real, a: real)
    requires 0.0 <= a <= 1.0
    ensures prev <= target ==> prev <= Approach(prev, target, a) <= target
    ensures target <= prev ==> target <= Approach(prev, target, a) <= prev
  {
    var d := target - prev;
    if prev <= target {
      Base.MulBetween(a, d);
    } else {
      MulBetweenNegative(a, d);
    }
    assert Approach(prev, target, a) == prev + a * d;
  }

  lemma MulBetweenNegative(a: real, d: real)
    requires 0.0 <= a <= 1.0 && d <= 0.0
    ensures d <= a * d <= 0.0
  {
    Base.MulBetween(a, -d);
    NegateFactor(a, d);
  }

  lemma NegateFactor(a: real, d: real)
    ensures a * d == -(a * -d)
  {
  }


  /** A factor of 1 jumps to the target; a factor of 0 leaves the needle still. */
  lemma BallisticsExtremes(prev: real, target: real, dt: real, alpha: (real, real) -> real)
    ensures alpha(dt, TimeConstant(prev, target)) == 1.0 ==> Ballistics(prev, target, dt, alpha) == target
    ensures alpha(dt, TimeConstant(prev, target)) == 0.0 ==> Ballistics(prev, target, dt, alpha) == prev
  {
  }
}
